=== FILE: README.md ===
# inertia-content, modelled in Dafny

inertia-content serves Markdown documents to a Laravel + Inertia.js
application. It has two halves:

- **Build time (TypeScript, a Vite plugin).** Each Markdown file is compiled
  into a Vue component plus a metadata record. The metadata holds identity
  fields, headings, an excerpt and a content hash. A JSON manifest maps each
  content path to its chunk and metadata. The manifest also carries a version:
  the hash of all content hashes.
- **Run time (PHP).** The manifest is loaded, validated and cached. Paths are
  normalised and checked for traversal. Entries are found, queried (where /
  order / skip / limit) and folded into a navigation tree.

A console installer merges the package's npm dependencies into the host's
`package.json` and patches the host's `vite.config`.

The model is one Dafny module per source unit. All of it is pure functions
over immutable datatypes:

- `Values`: PHP 8 `<=>` and `==` where numeric strings are plain signed decimal
  integers, JavaScript string conversion, PHP and JS `trim`.
- `Assoc`: ordered string-keyed tables, standing for PHP arrays, JS objects and maps.
- `Sorting`: `usort`/`ksort` as a stable insertion sort, which agrees with
  PHP's own sort only for a consistent comparison.
- `Strings`, `Seqs`, `Wrappers`: general helpers.
- `PathResolver`, `ContentCache`, `ManifestLoader`, `ContentEntry`,
  `ContentQuery`, `ContentCollection`, `ContentManager`: the PHP runtime.
- `Headings`, `Excerpt`, `Compiler`, `ManifestBuilder`, `Hmr`, `Plugin`: the
  Vite side.
- `PackageJson`, `Install`: the installer.

Things outside the model are passed in as parameters:

- the file system, clock, environment and cache store;
- hashing and slugifying;
- Markdown rendering and JSON printing.

A stateful PHP object becomes a value. Each call returns the new value
together with its result.

## Model

| member | source | states |
|---|---|---|
| PathResolver.Normalize | src/Support/PathResolver.php:34-46 | the result has no backslash, no doubled slash and no trailing slash, and starts with the path's first character (a backslash read as a slash) |
| PathResolver.NormalizeSegments | src/Support/PathResolver.php:34-46 | normalisation keeps exactly the slash-separated segments of the path, backslashes read as slashes, in order |
| PathResolver.NormalRebuild | src/Support/PathResolver.php:34-46 | a normal path is its leading slash, if any, followed by its segments joined by single slashes |
| PathResolver.NormalizeRebuild | src/Support/PathResolver.php:34-46 | the normal form is the path's segments joined by single slashes, after one slash when the path starts with one |
| PathResolver.NormalizeFixpoint | src/Support/PathResolver.php:34-46 | a path is left unchanged by normalisation exactly when it is already normal |
| PathResolver.NormalizeIdempotent | src/Support/PathResolver.php:34-46 | normalising twice is the same as normalising once |
| PathResolver.Resolve | src/Support/PathResolver.php:16-29 | a path is rejected exactly when its normal form contains `..`; an accepted key is normal, has no `..` and no leading slash, and is the normal form with at most one leading slash removed |
| PathResolver.ResolveSegments | src/Support/PathResolver.php:16-29 | an accepted key has the same segments as the requested path |
| PathResolver.NormalizeKeepsDots | src/Support/PathResolver.php:34-46 | normalisation never removes a `..` from a path |
| PathResolver.ResolveRejectsDots | src/Support/PathResolver.php:21-23 | any input containing `..` resolves to nothing, whatever its slashes |
| PathResolver.NormalizeExample | tests/Unit/PathResolverTest.php:33-37 | `docs//intro///page` normalises to `docs/intro/page` |
| PathResolver.ResolveExample | tests/Unit/PathResolverTest.php:15-19 | `/docs/intro/` resolves to `docs/intro` |
| PathResolver.ResolveRejectExamples | tests/Unit/PathResolverTest.php:27-31 | `docs/../config` and `a..b` are both rejected |
| ContentCache.New | src/Support/ContentCache.php:14-20 | each configured setting is taken as given; otherwise the cache is enabled, the store is `file`, the TTL 3600 and the prefix `inertia_content_` |
| ContentCache.MakeKey | src/Support/ContentCache.php:79-82 | a store key is the prefix followed by the caller's key, which can be read back |
| ContentCache.MakeKeyInjective | src/Support/ContentCache.php:79-82 | two keys share a store key exactly when they are equal |
| ContentCache.Get | src/Support/ContentCache.php:25-32 | a disabled cache never answers; an enabled one answers exactly for stored keys, with the stored value |
| ContentCache.Put | src/Support/ContentCache.php:37-48 | a disabled cache is unchanged; an enabled one binds just the prefixed key |
| ContentCache.Forget | src/Support/ContentCache.php:53-60 | a disabled cache is unchanged; an enabled one loses just the prefixed key |
| ContentCache.Flush | src/Support/ContentCache.php:65-74 | a disabled cache is unchanged; an enabled one ends up empty |
| ContentCache.PutGet | src/Support/ContentCache.php:25-48 | after a put the key reads back its value and every other key reads as before |
| ContentCache.ForgetGet | src/Support/ContentCache.php:25-60 | after a forget the key is absent and every other key reads as before |
| ContentCache.DisabledInert | src/Support/ContentCache.php:27-29 | on a disabled cache put, forget and flush change nothing and get finds nothing |
| ContentCache.FlushGet | src/Support/ContentCache.php:65-74 | after a flush no key is found |
| ManifestLoader.DevManifest | src/Support/ManifestLoader.php:38-44 | the stand-in manifest used in local development is valid and has no entries |
| ManifestLoader.Load | src/Support/ManifestLoader.php:22-61 | a successful load is memoised, and a memoised manifest is returned without touching file or cache |
| ManifestLoader.LoadValid | src/Support/ManifestLoader.php:50-58 | on a first load from a valid cache, every manifest that loads passes the validity check |
| ManifestLoader.LoadKeepsCacheValid | src/Support/ManifestLoader.php:58 | loading only ever caches valid manifests |
| ManifestLoader.MissingFileProduction | src/Support/ManifestLoader.php:36-48 | outside local development a missing file is a not-found error and nothing changes |
| ManifestLoader.MissingFileLocal | tests/Unit/ManifestLoaderTest.php:30-38 | in local development a missing file yields the empty `dev` manifest, uncached |
| ManifestLoader.InvalidManifestSticks | src/Support/ManifestLoader.php:50-55 | an invalid manifest fails the load, yet it is memoised, so the next load returns it |
| ManifestLoader.ValidManifestCached | src/Support/ManifestLoader.php:28-58 | a valid manifest is cached, and a fresh loader is then served from the cache whatever the file holds |
| ManifestLoader.CachedAdopted | src/Support/ManifestLoader.php:28-33 | a cached manifest is adopted without looking at the file or the environment |
| ManifestLoader.GetEntry | src/Support/ManifestLoader.php:66-70 | an entry lookup answers the loaded manifest's entry for exactly that path |
| ManifestLoader.Exists | src/Support/ManifestLoader.php:75-78 | existence agrees with the entry lookup |
| ManifestLoader.ExistsIffKey | tests/Unit/ManifestLoaderTest.php:51-57 | a path exists exactly when it is a key of the loaded manifest's entries |
| ManifestLoader.GetVersion | src/Support/ManifestLoader.php:83-87 | the version is the manifest's string, or `unknown` when it is null |
| ManifestLoader.GetAllPaths | src/Support/ManifestLoader.php:92-96 | the paths are the entry keys in manifest order |
| ManifestLoader.ClearCache | src/Support/ManifestLoader.php:101-105 | clearing drops the memo and the cached manifest |
| ManifestLoader.ClearCacheReloads | src/Support/ManifestLoader.php:101-105 | after clearing, the next load reads the file again |
| ContentEntry.FromManifestEntry | src/ContentEntry.php:20-23 | an entry's attributes are the manifest entry's metadata, or empty without one |
| ContentEntry.Get | src/ContentEntry.php:156-159 | a stored non-null attribute is returned; otherwise the default is |
| ContentEntry.HasIffGetStored | src/ContentEntry.php:156-167 | `has` holds exactly when the stored value is not null, that is, exactly when no default can show through |
| ContentEntry.StringAttr | src/ContentEntry.php:28-66 | a string getter yields the stored string or its default, and fails only on a list, which violates the return type |
| ContentEntry.NullableIntAttr | src/ContentEntry.php:108-111 | `order` yields the stored integer or nothing, and can fail only on a list or a string |
| ContentEntry.GetHeadings | src/ContentEntry.php:100-103 | missing headings read as an empty list, and anything but a list fails |
| ContentEntry.GetterDefaults | src/ContentEntry.php:28-135 | an entry without attributes has the documented defaults, including extension `md` |
| ContentEntry.IsDraftIff | src/ContentEntry.php:140-143 | an entry is a draft exactly when `draft` is stored as boolean true |
| ContentEntry.IsNavigableIff | src/ContentEntry.php:148-151 | an entry is hidden from navigation exactly when `navigation` is stored as boolean false |
| ContentEntry.ToInertiaProps | src/ContentEntry.php:188-194 | the props carry the entry's path as key and all its attributes as metadata |
| ContentEntry.OffsetSet | src/ContentEntry.php:231-236 | writing through array access always fails: entries are immutable |
| ContentEntry.OffsetUnset | src/ContentEntry.php:238-242 | unsetting through array access always fails |
| ContentEntry.FromManifestEntryGet | tests/Unit/ContentEntryTest.php:37-52 | every non-null metadata value is readable by its key |
| ContentQuery.NewQuery | src/ContentManager.php:75-81 | a fresh query has no clauses, orders or paging and carries the draft setting |
| ContentQuery.Where | src/ContentQuery.php:25-39 | `where(f, v)` adds an equality clause; `where(f, op, v)` adds that operator; earlier clauses are kept |
| ContentQuery.WhereIn | src/ContentQuery.php:44-54 | adds an `in` clause over the given list |
| ContentQuery.WhereInMatches | src/ContentQuery.php:44-54 | the added `in` clause admits an entry exactly when its field is loosely in the list |
| ContentQuery.WhereNotAsWritten | src/ContentQuery.php:59-62 | as written (Findings row 1): a non-null value adds a `!=` clause; null adds the clause `= '!='` instead; nothing else in the query changes |
| ContentQuery.WhereNotNullMisfiled | src/ContentQuery.php:59-62 | as written, `whereNot(f, null)` files `f = '!='`: it agrees with the intended `f != null` on a missing field and on `'!='`, rejects a field holding `'x'` that the intended clause keeps, and keeps a field holding `true` |
| ContentQuery.WhereNot | src/ContentQuery.php:59-62 | the corrected half of Findings row 1: adds a `!=` clause for every value, null included, and agrees with the code for every non-null value |
| ContentQuery.WhereNotMatches | src/ContentQuery.php:59-62 | the added clause admits an entry exactly when its field is not loosely equal to the value |
| ContentQuery.ProjectionIgnored | src/ContentQuery.php:67-84 | `only` and `without` are recorded but change no query result |
| ContentQuery.BuilderLastWins | src/ContentQuery.php:89-117 | a later `limit` or `skip` replaces an earlier one, while orderings accumulate in call order |
| ContentQuery.Match | src/ContentQuery.php:214-235 | `=` and `!=` are PHP loose equality; `in` needs a list; a non-string operator matches nothing |
| ContentQuery.StringOperatorsNeedString | src/ContentQuery.php:230-232 | `contains`, `startsWith` and `endsWith` never match a field that is not a string |
| ContentQuery.EmptyNeedleMatchesStrings | src/ContentQuery.php:230-232 | those operators with an empty needle match every string field |
| ContentQuery.MatchesAll | src/ContentQuery.php:200-209 | an entry passes exactly when every clause matches it, and an error comes from some clause |
| ContentQuery.Filter | src/ContentQuery.php:166-180 | the kept entries are exactly the admitted rows, and the filter fails exactly when some row raises an error |
| ContentQuery.FilterIsSubsequence | src/ContentQuery.php:166-180 | a successful filter returns the admitted entries as a subsequence of the manifest, in manifest order |
| Seqs.FilterIsPicked | src/ContentQuery.php:166-180 | the filtered sequence is the input read at an ascending list of positions, exactly those where the predicate holds |
| ContentQuery.OrderCmpAntisymmetric | src/ContentQuery.php:240-265 | the multi-key comparison is antisymmetric, with `desc` flipping each key |
| ContentQuery.Ordered | src/ContentQuery.php:240-265 | ordering permutes the entries and leaves them alone when there is no order |
| ContentQuery.OrderedAdjacent | src/ContentQuery.php:240-265 | after ordering, every adjacent pair is in order under the comparison |
| ContentQuery.OrderedTiesStable | src/ContentQuery.php:240-265 | entries that all compare equal keep their manifest order |
| ContentQuery.ArraySlice | src/ContentQuery.php:186-192 | `array_slice` semantics: a negative offset counts from the end, a negative length stops short of the end, and a missing length runs to the end |
| ContentQuery.SkipDropsPrefix | src/ContentQuery.php:186-188 | `skip(k)` drops the first k entries |
| ContentQuery.NegativeSkipKeepsSuffix | src/ContentQuery.php:186-188 | a negative skip keeps only that many trailing entries |
| ContentQuery.LimitKeepsPrefix | src/ContentQuery.php:190-192 | `limit(n)` keeps the first n entries |
| ContentQuery.NegativeLimitDropsSuffix | src/ContentQuery.php:190-192 | a negative limit drops that many trailing entries |
| ContentQuery.PipelineKeeps | src/ContentQuery.php:161-195 | ordering and paging only ever keep entries that passed the filter |
| ContentQuery.Execute | src/ContentQuery.php:161-195 | the query fails exactly when the filter does; the result is the admitted entries in manifest order, ordered and then paged, and with no orders, skip or limit it is exactly that subsequence |
| ContentQuery.FilterIgnoresPaging | src/ContentQuery.php:166-180 | which entries pass depends only on the clauses and the draft setting |
| ContentQuery.GetEntries | src/ContentQuery.php:122-127 | a load failure is passed on; otherwise the result is the query run on the loaded manifest |
| ContentQuery.FirstIsHead | src/ContentQuery.php:132-137 | `first` is the head of the unlimited result, or nothing when it is empty |
| ContentQuery.Count | src/ContentQuery.php:142-145 | `count` is the length of the paged result |
| ContentQuery.Paths | src/ContentQuery.php:150-156 | `paths()` fails exactly when the query fails or some result's path getter fails; otherwise the paths are the results' `_path` values, one per result in order |
| ContentQuery.PathsCount | src/ContentQuery.php:142-156 | there are as many paths as `count` reports |
| ContentCollection.Paths | src/ContentCollection.php:12-15 | one path per entry in order; fails exactly when some entry's path getter fails |
| ContentCollection.FilterDrafts | src/ContentCollection.php:66-73 | with drafts excluded the result is exactly the non-draft entries |
| ContentCollection.FilterDraftsIsSubsequence | src/ContentCollection.php:66-73 | with drafts excluded the result is the non-draft entries in their original order |
| ContentCollection.Segments | src/ContentCollection.php:29-31 | directory parts are non-empty, never `0` and slash-free, mirroring `array_filter` |
| ContentCollection.LeafOf | src/ContentCollection.php:44-49 | a leaf carries the entry's title, path, order and description, and fails exactly when a getter does |
| ContentCollection.PlaceLeaves | src/ContentCollection.php:29-49 | placing a leaf adds exactly that leaf to the tree |
| ContentCollection.PlaceAt | src/ContentCollection.php:29-49 | the leaf lands at the end of the level named by its directory parts |
| ContentCollection.BuildLeaves | src/ContentCollection.php:20-53 | the tree holds exactly the leaves of the navigable entries, as a multiset |
| ContentCollection.NonNavigableIgnored | src/ContentCollection.php:25-27 | an entry hidden from navigation changes nothing in the tree |
| ContentCollection.NavCmp | src/ContentCollection.php:92-101 | items order by `order`, missing order counting as 999, and ties fall back to PHP string comparison of titles |
| ContentCollection.NavCmpAntisymmetric | src/ContentCollection.php:92-101 | the navigation comparison is antisymmetric |
| ContentCollection.ConvertSorted | src/ContentCollection.php:86-106 | every group's children are sorted, at every depth |
| ContentCollection.ConvertLeaves | src/ContentCollection.php:86-106 | sorting and converting a subtree keeps its leaves |
| ContentCollection.ItemsLeavesPermutation | src/ContentCollection.php:92-101 | reordering siblings keeps the leaves |
| ContentCollection.ToNavigation | src/ContentCollection.php:20-53 | the navigation fails exactly when building the tree does, with one top item per top-level key |
| ContentCollection.ToNavigationLeaves | src/ContentCollection.php:20-53 | the navigation lists exactly the navigable entries' leaves, none lost or duplicated |
| ContentCollection.NavigationKeysUnique | src/ContentCollection.php:29-42 | no two top-level items share a key |
| ContentCollection.NavigationSorted | src/ContentCollection.php:86-106 | top-level items keep insertion order, while all nested children are sorted |
| ContentManager.Find | src/ContentManager.php:24-46 | a traversal path finds nothing; a found entry has a valid path and is not a hidden draft |
| ContentManager.FindSpec | src/ContentManager.php:24-46 | an entry is found exactly when its key is stored and it is not a draft hidden by configuration |
| ContentManager.FindRejectsTraversal | src/ContentManager.php:26-30 | a path with `..` finds nothing without loading the manifest |
| ContentManager.FindOrFail | src/ContentManager.php:53-62 | fails with not-found exactly when `find` finds nothing, and otherwise returns what `find` found |
| ContentManager.Exists | src/ContentManager.php:67-70 | existence agrees with `find` |
| ContentManager.ExistsIffFindOrFail | src/ContentManager.php:53-70 | a path exists exactly when `findOrFail` succeeds |
| ContentManager.DraftVisibility | src/ContentManager.php:32-36 | a stored draft exists exactly when drafts are shown |
| ContentManager.Query | src/ContentManager.php:75-81 | a query starts empty with the manager's draft setting |
| ContentManager.NavigationOrdering | src/ContentManager.php:126-134 | navigation orders by `order` then `title`, and a directory adds a `startsWith` clause on `_dir` |
| ContentManager.NavigationQueryAsWritten | src/ContentManager.php:126 | as written (Findings row 2): the navigation query's first clause is `navigation != false` |
| ContentManager.NavigationQuery | src/ContentManager.php:123-135 | the corrected half of Findings row 2: the navigation query filters only by directory, leaving hidden entries to the tree builder |
| ContentManager.NavigationAsWritten | src/ContentManager.php:123-135 | `navigation()` as written folds the entries of the as-written query into the tree: it succeeds exactly when loading, querying and building do, and then yields that tree |
| ContentManager.Navigation | src/ContentManager.php:123-135 | the corrected `navigation()`: the same fold over the query without the loose `navigation` clause |
| ContentManager.Fold | src/ContentManager.php:134 | navigation succeeds exactly when the query and the tree building do, and yields the tree of the query's entries |
| ContentManager.NavigationDropsUnset | src/ContentManager.php:126 | an entry without a `navigation` key is navigable yet rejected by the query as written |
| ContentManager.NavigationAdmitsNavigable | src/ContentManager.php:123-135 | the query with that clause removed admits every visible entry |
| ContentManager.NavigationAgreesWhenSet | src/ContentManager.php:126 | both queries agree on entries whose `navigation` is true |
| ContentManager.ClearCache | src/ContentManager.php:140-144 | clearing drops the memo and every cached value and keeps the draft setting |
| ContentManager.ClearCacheForcesReload | src/ContentManager.php:140-144 | after clearing, a load behaves as if from a fresh loader with no cached manifest |
| ContentManager.GetVersion | src/ContentManager.php:149-152 | the version is the loader's, with a load failure passed on |
| Values.CompareAntisymmetric | src/ContentQuery.php:254 | PHP 8 `<=>` on stored values is antisymmetric |
| Values.CompareNotTransitive | src/ContentQuery.php:254 | PHP 8 `<=>` is not transitive on mixed values: numeric and non-numeric strings, and null against integers |
| Values.LooseEqSymmetric | src/ContentQuery.php:223-224 | PHP loose equality is symmetric |
| Values.ToPhpString | src/ContentQuery.php:230-232 | string conversion fails only on arrays, and an integer's text parses back to it |
| Values.JsStringScalars | resources/js/vite/manifest.ts:25 | JavaScript string conversion keeps a string, and an integer's text parses back to it |
| Sorting.Sort | src/ContentCollection.php:92-101 | the sort is a permutation of its input |
| Sorting.SortSorted | src/ContentCollection.php:92-101 | under an antisymmetric, transitive comparison the result is sorted |
| Sorting.SortPermutationInvariant | resources/js/vite/manifest.ts:30-33 | under a total order, permutations of the same items sort to the same sequence |
| Sorting.SortOfSorted | src/ContentQuery.php:240-265 | an already ordered sequence is left unchanged |
| Assoc.KSortSpec | src/Support/PackageJson.php:31 | `ksort` keeps keys unique and every key's value |
| Assoc.KSortOrdered | src/Console/InstallCommand.php:84 | after `ksort` adjacent keys are in order |
| Assoc.MergeSpec | src/Console/InstallCommand.php:81 | `array_merge` on string keys: a key of the right table wins, and other keys keep the left value |
| Assoc.SetGet | src/Support/PackageJson.php:31 | assigning a key binds it and leaves every other key alone |
| Assoc.RemoveSpec | resources/js/vite/hmr.ts:128-131 | deleting a key removes it and leaves every other key alone |
| Headings.MatchAt | resources/js/vite/compiler.ts:67 | a match has two to four `#`, a non-empty gap after them, and a capture running to the end of its line |
| Headings.Scan | resources/js/vite/compiler.ts:70-81 | every heading found has depth two to four and non-empty single-line text |
| Headings.HeadingLine | resources/js/vite/compiler.ts:67 | a line of 2-4 hashes, spaces and text yields exactly one heading with that depth and text |
| Headings.PlainLine | resources/js/vite/compiler.ts:67 | a line not starting with `#` yields no heading |
| Headings.FiveHashesNoHeading | resources/js/vite/compiler.ts:67 | five hashes are not a heading |
| Headings.AllowedDepths | resources/js/vite/compiler.ts:63 | the depth filter defaults to 2, 3 and 4 |
| Headings.KeepAllowed | resources/js/vite/compiler.ts:74 | only headings of allowed depths are kept, and all are kept when all are allowed |
| Headings.ToHeading | resources/js/vite/compiler.ts:71-79 | a heading's text is trimmed and its id is the slug of that text |
| Headings.CollectHeadingsAsWritten | resources/js/vite/compiler.ts:59-85 | as written (Findings row 3): the flat list holds allowed depths only, with trimmed single-line text and slug ids; the default keeps every match and an empty depth list keeps none |
| Headings.CollectHeadings | resources/js/vite/compiler.ts:59-85 | the corrected half of Findings row 3: the same guarantees with a heading's text kept on its own line |
| Headings.ExtractHeadingsAsWritten | resources/js/vite/compiler.ts:59-85 | as written: the tree flattens back to the as-written flat list and is properly nested |
| Headings.ExtractHeadings | resources/js/vite/compiler.ts:59-85 | the corrected half: the tree flattens back to the corrected flat list and is properly nested |
| Headings.BuildHeadingTreeFlatten | resources/js/vite/compiler.ts:90-112 | the tree keeps every heading once, in document order |
| Headings.BuildHeadingTreeNested | resources/js/vite/compiler.ts:90-112 | every child is deeper than its parent |
| Headings.AttachIsStackStep | resources/js/vite/compiler.ts:96-106 | attaching a heading pops the shallower-or-equal open headings and pushes the new one, as the source's stack does |
| Headings.TreeExample | resources/js/vite/compiler.ts:90-112 | `## A`, `### B`, `### C`, `## D` give A with children B and C, then D |
| Headings.HeadingValue | resources/js/vite/compiler.ts:90-112 | a heading is stored as depth, text and id, plus children only when it has some |
| Excerpt.MaxLength | resources/js/vite/compiler.ts:121 | the length limit defaults to 200 when absent or zero |
| Excerpt.Separator | resources/js/vite/compiler.ts:122 | the separator defaults to a blank line when absent or empty |
| Excerpt.FirstParagraph | resources/js/vite/compiler.ts:125 | the paragraph is the longest prefix before the first separator, or all of the text |
| Excerpt.ParagraphBeforeSeparator | resources/js/vite/compiler.ts:125 | text before the first separator is exactly the paragraph |
| Excerpt.StripHeadingMarker | resources/js/vite/compiler.ts:129 | text that does not start with `#` is left alone, and stripping never lengthens the text |
| Excerpt.StripHeadingMarkerSuffix | resources/js/vite/compiler.ts:129 | what remains after stripping is a suffix of the text: only a leading marker is removed |
| Excerpt.StripHeadingMarkerSpec | resources/js/vite/compiler.ts:129 | hashes then spaces then text leave exactly the text |
| Excerpt.SingleLink | resources/js/vite/compiler.ts:130 | a Markdown link becomes its text |
| Excerpt.NoLinkUnchanged | resources/js/vite/compiler.ts:130 | text without `[` is unchanged by link removal |
| Excerpt.Clean | resources/js/vite/compiler.ts:128-132 | the cleaned text has no `*`, `_`, `~` or backtick, and no surrounding whitespace |
| Excerpt.CleanPlain | resources/js/vite/compiler.ts:128-132 | a paragraph with no leading `#`, no `[` and no emphasis characters cleans to its trimmed self |
| Excerpt.CleanHeading | resources/js/vite/compiler.ts:128-132 | a heading line without links or emphasis cleans to its trimmed text, the marker dropped |
| Excerpt.Truncate | resources/js/vite/compiler.ts:135-137 | truncation keeps a contiguous piece of the first `limit` characters, missing only whitespace at either end, trimmed, then `...`; it adds no emphasis characters |
| Excerpt.ExtractExcerpt | resources/js/vite/compiler.ts:117-140 | a short cleaned paragraph is kept whole; a long one is the trimmed first `limit` characters of it followed by `...` |
| Excerpt.ExcerptOfFirstParagraph | resources/js/vite/compiler.ts:125 | the excerpt depends only on the first paragraph |
| Compiler.StripMd | resources/js/vite/compiler.ts:188 | only a trailing `.md` is removed |
| Compiler.SplitPath | resources/js/vite/compiler.ts:188-191 | the file name is the last segment of the path without `.md`, and a path without separators has no directory |
| Compiler.ContentPath | resources/js/vite/compiler.ts:197 | a content path never holds a backslash |
| Compiler.PathIsDirPlusFile | resources/js/vite/compiler.ts:188-199 | `_path` is the slash-joined directory plus the file name, or the file alone at top level |
| Compiler.GeneratedKeysDistinct | resources/js/vite/compiler.ts:196-206 | the generated metadata keys are distinct |
| Compiler.FrontmatterWins | resources/js/vite/compiler.ts:208 | frontmatter is spread last, so every frontmatter key overrides its generated value |
| Compiler.GeneratedField | resources/js/vite/compiler.ts:196-206 | a generated key the frontmatter lacks keeps its generated value |
| Compiler.IdentityFields | resources/js/vite/compiler.ts:196-206 | id is the hash of the path without `.md`; path, slug, file, extension and source hash follow from the file |
| Compiler.DefaultTitle | resources/js/vite/compiler.ts:207 | a truthy frontmatter title is kept; otherwise the title is the file name |
| Compiler.EmptyTitleKept | resources/js/vite/compiler.ts:207-208 | an empty frontmatter title survives, because the spread overrides the default |
| Compiler.TitleDefaultsToFile | resources/js/vite/compiler.ts:207 | without a frontmatter title, the title is the file name |
| Compiler.ChooseExcerpt | resources/js/vite/compiler.ts:41 | a truthy frontmatter excerpt wins over the extracted one |
| Compiler.ExcerptOverride | resources/js/vite/compiler.ts:41 | the compiled `_excerpt` is the frontmatter excerpt when truthy, else the extracted excerpt |
| Compiler.Compile | resources/js/vite/compiler.ts:24-54 | the compiled headings are those extracted from the body with the heading pattern as written, the metadata is built from the file, frontmatter, those headings and the chosen excerpt, and the component is rendered from the body and metadata |
| ManifestBuilder.Chunk | resources/js/vite/manifest.ts:25 | the chunk name is the fixed prefix, the entry's hash, then the fixed suffix |
| ManifestBuilder.Entries | resources/js/vite/manifest.ts:21-27 | the manifest has the compiled map's keys, and each entry is built from its file |
| ManifestBuilder.EntriesGet | resources/js/vite/manifest.ts:21-27 | every compiled key maps to the entry built from its file |
| ManifestBuilder.GenerateManifest | resources/js/vite/manifest.ts:15-42 | the manifest's keys are exactly the compiled map's |
| ManifestBuilder.VersionOrderIndependent | resources/js/vite/manifest.ts:30-35 | the version does not depend on the order of the compiled entries or on the time |
| ManifestBuilder.VersionFromHashes | resources/js/vite/manifest.ts:30-35 | the version depends only on the multiset of content hashes |
| ManifestBuilder.EmptyVersion | resources/js/vite/manifest.ts:30-35 | an empty build has no entries and the hash of the empty string as version |
| Hmr.HandleChange | resources/js/vite/hmr.ts:59-111 | a failed compile changes nothing; a success stores the entry under its path in both maps and touches no other key or the version |
| Hmr.HandleRemove | resources/js/vite/hmr.ts:116-151 | removal deletes the path from both maps, keeps every other key and the version, and announces the path |
| Hmr.ChangeAndRemoveAgree | resources/js/vite/hmr.ts:124-125 | without a frontmatter `_path`, the key a change stores under is the key a removal deletes |
| Hmr.AddThenRemove | resources/js/vite/hmr.ts:59-151 | adding then removing a file leaves every other key as before and the file's key absent |
| Plugin.Configure | resources/js/vite/plugin.ts:23-25 | empty or missing paths fall back to their defaults, while a given ignore list is kept even if empty |
| Plugin.ResolveId | resources/js/vite/plugin.ts:54-61 | the plugin claims exactly the manifest id and the entry ids, marking them with a NUL prefix |
| Plugin.Load | resources/js/vite/plugin.ts:63-74 | the manifest id loads the manifest module; an entry id loads that path's component or nothing |
| Plugin.LoadResolvedEntry | resources/js/vite/plugin.ts:54-74 | resolving then loading an entry id answers from exactly the path in the id |
| Plugin.LoadResolvedManifest | resources/js/vite/plugin.ts:54-74 | resolving then loading the manifest id yields the manifest module |
| Plugin.ManifestModuleExportsVersion | resources/js/vite/plugin.ts:159-172 | the manifest module exports the manifest's version |
| Plugin.ScanAndCompile | resources/js/vite/plugin.ts:130-154 | each stored entry is a scanned file under its own key, and keys are unique |
| Plugin.ScanLaterWins | resources/js/vite/plugin.ts:144-151 | a file not shadowed by a later file with the same key is the one stored |
| Plugin.ScanKeys | resources/js/vite/plugin.ts:144-151 | the scan stores exactly the scanned files' keys |
| Plugin.BuildStart | resources/js/vite/plugin.ts:41-52 | the manifest's keys are the compiled entries' keys |
| Plugin.EveryManifestPathLoads | resources/js/vite/plugin.ts:41-74 | after the initial scan every manifest path loads a component |
| PackageJson.DepsAt | src/Console/InstallCommand.php:71 | an absent or null field is an empty table, and any other non-table, `false` included, is an error, as for `array_merge` and `array_diff_key` |
| PackageJson.WritableDeps | src/Support/PackageJson.php:27-31 | an unset, null or `false` field starts an empty table, a table is read as is, and anything else is an error |
| PackageJson.AddDevDependency | src/Support/PackageJson.php:25-34 | other top-level fields are untouched; `devDependencies` is created when unset, null or `false` and stays well formed |
| PackageJson.AddDevDependencySpec | src/Support/PackageJson.php:25-34 | the new table binds the name to the version, keeps every other name and is sorted |
| Install.PackageDependencies | src/Console/InstallCommand.php:98-112 | a missing file gives no dependencies; otherwise dependencies merged with dev dependencies |
| Install.DevDependenciesWin | src/Console/InstallCommand.php:108-111 | a package in both lists takes its dev-dependency version |
| Install.DiffKey | src/Console/InstallCommand.php:73 | `array_diff_key`: exactly the entries whose key the second table lacks |
| Install.MergedDev | src/Console/InstallCommand.php:81-84 | the host's versions win, new packages are added, and the result is name-sorted |
| Install.UpdateNodeDependencies | src/Console/InstallCommand.php:58-96 | the file is rewritten exactly when some package is missing; only `devDependencies` changes |
| Install.UpdateNodeDependenciesIdempotent | tests/Feature/InstallCommandTest.php:98-110 | running the update on its own output rewrites nothing |
| Install.ImportAnchorIsLast | src/Console/InstallCommand.php:175-181 | the anchor is the last line whose trimmed text starts with `import` |
| Install.AddViteImport | src/Console/InstallCommand.php:170-190 | the import becomes its own line after the last import line, or the first line when there is none |
| Install.AddVitePlugin | src/Console/InstallCommand.php:192-203 | the plugin call is inserted into the first `plugins: [` list; without one nothing changes |
| Install.AddViteAlias | src/Console/InstallCommand.php:205-229 | the alias appears when a `resolve` block or a `}),` exists; otherwise nothing changes |
| Install.ImportStep | src/Console/InstallCommand.php:133-135 | the import is added only when the marker is absent, and the marker is present afterwards |
| Install.PluginStep | src/Console/InstallCommand.php:138-140 | the plugin is added only when the marker is absent, and is present afterwards when a plugin list exists |
| Install.AliasStep | src/Console/InstallCommand.php:143-145 | the alias is added only when the marker is absent, and is present afterwards when an anchor exists |
| Install.PluginEditKeeps | src/Console/InstallCommand.php:192-203 | the plugin edit keeps every text that holds no `[` |
| Install.AliasEditKeeps | src/Console/InstallCommand.php:205-229 | the alias edit keeps every text that holds no `{` or `,` |
| Install.AliasEditAddsNoPlugins | src/Console/InstallCommand.php:205-229 | the alias edit never creates a `plugins: [` list |
| Install.UpdateViteConfigurationIdempotent | src/Console/InstallCommand.php:133-145 | running the whole Vite update on its own output changes nothing |

## Left out

- `PathResolver::getFilePath` and `fileToContentKey` depend on `realpath` and the file system.
- ContentCache: the TTL is stored but never expires entries. The configured store name is recorded but has no effect, because the store is a map.
- `ContentCollection::groupByDir` and `toInertiaProps` are thin wrappers over Laravel collections, so they are not modelled.
- `ContentManager::page` and `pageOrFail` build an Inertia response: a framework call.
- `show_drafts` and the environment name are parameters, not configuration reads.
- PHP turns numeric-string array keys into integers. The model keeps every key a string.
- JavaScript enumerates integer-like object keys first. The model keeps insertion order for every key.
- String comparison works on code points. JavaScript sorts UTF-16 code units and PHP compares bytes, so the two can differ outside ASCII.
- Values.ToPhpString: arrays are the only failure. Objects and floats are not part of the value model.
- ManifestBuilder.HashText: only string hashes are stated. Other `_hash` values go through JavaScript string conversion unconstrained.
- A frontmatter `_path` that is not a string becomes a key through JavaScript string conversion.
- The development watcher's `add` event passes no output directory (resources/js/vite/hmr.ts:37). The maps update, then writing the component fails. The write is not modelled, so this path is the same as a change.
- `setupHMR` is called with one argument fewer than it declares (resources/js/vite/plugin.ts:78). The handlers are modelled with explicit parameters.
- Writing component files, module invalidation, WebSocket timestamps and logging are effects, so they are not modelled.
- Plugin.ScanAndCompile: a compile error aborts the whole scan in the code, so the model receives only successfully compiled files.
- JSON printing (`JSON.stringify`), Markdown rendering (markdown-it), frontmatter parsing (gray-matter), SHA-256 and slugify are function parameters without properties.
- `path.relative`, `statSync` and globbing are inputs.
- Install: reading, backing up and writing files, `findViteConfigPath`, the missing-file branches and console prompts are I/O.
- PackageJson.DepsAt: a JSON list (an integer-keyed PHP array) is an error in the model, though `array_merge`, `array_diff_key` and `addDevDependency` accept one; integer keys are outside the model.
- Install.AddViteAlias: when the alias is added is stated, and that it adds nothing else. The exact placement of the inserted lines is not stated; the idempotence lemmas prove the properties that placement matters for.
- ContentQuery.Count: it counts after `skip` and `limit`, as the code does.
- ContentQuery.Ordered: ordering follows PHP 8 `<=>` as written. A null field compares with an integer as booleans do, so null ties with 0 and sorts before every other integer, negative ones included.
- Values.IsNumeric: a numeric string is a plain signed decimal integer. Leading or trailing whitespace, decimals and exponents are not recognised, which affects LooseEq, Compare, the `in` operator and the `?int` coercion of `order`.
- Sorting.Sort: PHP's `zend_sort` uses sorting networks for 2-5 elements, binary insertion sort up to 16 and a hybrid beyond. Stable sorts agree only for a consistent comparison, and Values.CompareNotTransitive shows that `orderBy`'s is not one, so for mixed values the model's order can differ from PHP's.
- ContentCollection.FilterDrafts: Laravel's `filter` keeps the original keys, so after `filterDrafts(false)` the collection is not a list when a draft was dropped. The model renumbers.
- Excerpt.Truncate: a negative `maxLength` yields just `...`, as `substring` with a negative end does. Lengths count code points, not UTF-16 units.

## Findings

| source | as written | input that shows it | evidently intended | confidence | as-written member | corrected member |
|---|---|---|---|---|---|---|
| src/ContentQuery.php:59-62 | `whereNot(f, null)` calls `where(f, '!=', null)`; a null third argument makes `where` take `'!='` as the value of an `=` clause | `whereNot('draft', null)` keeps only entries whose `draft` is loosely equal to the string `!=` (that string, or `true`), and drops one whose `draft` is `'x'`, which `!= null` keeps | a `!=` clause against null, keeping entries whose field is set | not executed | ContentQuery.WhereNotNullMisfiled | ContentQuery.WhereNotMatches |
| src/ContentManager.php:126 | `navigation != false` with loose comparison rejects entries whose `navigation` key is absent, since `null == false` | an entry without a `navigation` key is navigable but missing from `navigation()` | entries are listed unless `navigation` is explicitly false | not executed | ContentManager.NavigationDropsUnset | ContentManager.NavigationAdmitsNavigable |
| resources/js/vite/compiler.ts:67 | the heading pattern's `\s+` also matches line breaks | `##` on a line of its own followed by `Intro` yields the heading `Intro` of depth 2 | a heading's text stays on the heading's own line | not executed | Headings.BareHashesCaptureNextLine | Headings.BareHashesStayBare |

=== FILE: assoc.dfy ===
/**
 * Ordered string-keyed tables: PHP associative arrays, JavaScript objects
 * and `Map`s. Entries keep insertion order; assigning to an existing key
 * replaces its value in place, assigning to a new key appends.
 */
module Assoc {
  import opened Wrappers
  import Sorting

  type Table<V> = seq<(string, V)>

  function Keys<V>(t: Table<V>): (r: seq<string>)
    ensures |r| == |t|
    ensures forall i :: 0 <= i < |t| ==> r[i] == t[i].0
  {
    seq(|t|, i requires 0 <= i < |t| => t[i].0)
  }

  /** No key appears twice: every table the programs build has this shape. */
  ghost predicate UniqueKeys<V>(t: Table<V>) {
    forall i, j :: 0 <= i < j < |t| ==> t[i].0 != t[j].0
  }

  /** No element appears twice. */
  ghost predicate NoDuplicates<T>(s: seq<T>) {
    forall i, j :: 0 <= i < j < |s| ==> s[i] != s[j]
  }

  /** `$t[$k] ?? null`, `map.get(k)`: the value of the first entry with key `k`. */
  function Get<V>(t: Table<V>, k: string): (r: Option<V>)
    ensures r.None? <==> k !in Keys(t)
    ensures r.Some? ==> (k, r.value) in t
    decreases |t|
  {
    if |t| == 0 then None
    else if t[0].0 == k then Some(t[0].1)
    else
      var r := Get(t[1..], k);
      assert Keys(t) == [t[0].0] + Keys(t[1..]);
      r
  }

  /** `$t[$k] = $v`, `map.set(k, v)`. */
  function Set<V>(t: Table<V>, k: string, v: V): (r: Table<V>)
    decreases |t|
  {
    if |t| == 0 then [(k, v)]
    else if t[0].0 == k then [(k, v)] + t[1..]
    else [t[0]] + Set(t[1..], k, v)
  }

  /** `unset($t[$k])`, `map.delete(k)`. */
  function Remove<V>(t: Table<V>, k: string): (r: Table<V>)
    decreases |t|
  {
    if |t| == 0 then []
    else if t[0].0 == k then Remove(t[1..], k)
    else [t[0]] + Remove(t[1..], k)
  }

  /** `array_merge($a, $b)` on string keys, `{...a, ...b}`: entries of `b` assigned into `a` in order. */
  function Merge<V>(a: Table<V>, b: Table<V>): (r: Table<V>)
    decreases |b|
  {
    if |b| == 0 then a else Merge(Set(a, b[0].0, b[0].1), b[1..])
  }

  /** Entries in key order under `cmp` (PHP `ksort`). */
  function KSort<V>(t: Table<V>, cmp: (string, string) -> int): (r: Table<V>)
    ensures multiset(r) == multiset(t)
  {
    Sorting.Sort(t, (x: (string, V), y: (string, V)) => cmp(x.0, y.0))
  }

  // ---------------------------------------------------------------------
  // Lemmas
  // ---------------------------------------------------------------------

  lemma KeysConcat<V>(a: Table<V>, b: Table<V>)
    ensures Keys(a + b) == Keys(a) + Keys(b)
  {
  }

  lemma EntryKey<V>(t: Table<V>, k: string, v: V)
    requires (k, v) in t
    ensures k in Keys(t)
  {
    var i :| 0 <= i < |t| && t[i] == (k, v);
    assert Keys(t)[i] == k;
  }

  lemma KeysCons<V>(t: Table<V>)
    requires |t| > 0
    ensures Keys(t) == [t[0].0] + Keys(t[1..])
  {
  }

  lemma UniqueTail<V>(t: Table<V>)
    requires |t| > 0 && UniqueKeys(t)
    ensures UniqueKeys(t[1..])
    ensures t[0].0 !in Keys(t[1..])
  {
    forall i, j | 0 <= i < j < |t| - 1 ensures t[1..][i].0 != t[1..][j].0 {
      assert t[1..][i] == t[i + 1] && t[1..][j] == t[j + 1];
    }
    forall i | 0 <= i < |t| - 1 ensures Keys(t[1..])[i] != t[0].0 {
      assert t[1..][i] == t[i + 1];
    }
  }

  lemma UniqueCons<V>(e: (string, V), t: Table<V>)
    requires UniqueKeys(t) && e.0 !in Keys(t)
    ensures UniqueKeys([e] + t)
  {
    var r := [e] + t;
    forall i, j | 0 <= i < j < |r| ensures r[i].0 != r[j].0 {
      assert r[j] == t[j - 1];
      if i == 0 {
        assert Keys(t)[j - 1] == t[j - 1].0;
      } else {
        assert r[i] == t[i - 1];
      }
    }
  }

  /** Assignment: the key now holds `v` and no other key changes. */
  lemma {:induction false} SetGet<V>(t: Table<V>, k: string, v: V)
    ensures Get(Set(t, k, v), k) == Some(v)
    ensures forall k' :: k' != k ==> Get(Set(t, k, v), k') == Get(t, k')
    decreases |t|
  {
    if |t| > 0 && t[0].0 != k {
      SetGet(t[1..], k, v);
      var r := Set(t, k, v);
      assert r[1..] == Set(t[1..], k, v);
    }
  }

  /** Assignment keeps the key order and appends a new key at the end. */
  lemma {:induction false} SetKeys<V>(t: Table<V>, k: string, v: V)
    ensures k in Keys(t) ==> Keys(Set(t, k, v)) == Keys(t)
    ensures k !in Keys(t) ==> Keys(Set(t, k, v)) == Keys(t) + [k]
    decreases |t|
  {
    if |t| > 0 {
      KeysCons(t);
      var r := Set(t, k, v);
      KeysCons(r);
      if t[0].0 != k {
        SetKeys(t[1..], k, v);
        assert r[1..] == Set(t[1..], k, v);
      } else {
        assert r[1..] == t[1..];
      }
    }
  }

  /** An entry of an assignment's result is the assigned pair or an entry of the old table at the same index. */
  lemma {:induction false} SetEntryFrom<V>(t: Table<V>, k: string, v: V, i: nat)
    requires i < |Set(t, k, v)|
    ensures Set(t, k, v)[i] == (k, v) || (i < |t| && Set(t, k, v)[i] == t[i])
    decreases |t|
  {
    if |t| > 0 && t[0].0 != k && i > 0 {
      SetEntryFrom(t[1..], k, v, i - 1);
    }
  }

  /** Assignment keeps keys unique. */
  lemma SetUnique<V>(t: Table<V>, k: string, v: V)
    requires UniqueKeys(t)
    ensures UniqueKeys(Set(t, k, v))
  {
    SetKeys(t, k, v);
    var r := Set(t, k, v);
    forall i, j | 0 <= i < j < |r| ensures r[i].0 != r[j].0 {
      assert Keys(r)[i] == r[i].0 && Keys(r)[j] == r[j].0;
    }
  }

  /** Removal: the key is gone and no other key changes. */
  lemma {:induction false} RemoveSpec<V>(t: Table<V>, k: string)
    ensures Get(Remove(t, k), k) == None
    ensures forall k' :: k' != k ==> Get(Remove(t, k), k') == Get(t, k')
    decreases |t|
  {
    if |t| > 0 {
      RemoveSpec(t[1..], k);
      if t[0].0 != k {
        var r := Remove(t, k);
        assert r[1..] == Remove(t[1..], k);
      }
    }
  }

  /** Removing a key that is not there changes nothing. */
  lemma {:induction false} RemoveAbsent<V>(t: Table<V>, k: string)
    requires k !in Keys(t)
    ensures Remove(t, k) == t
    decreases |t|
  {
    if |t| > 0 {
      KeysCons(t);
      RemoveAbsent(t[1..], k);
    }
  }

  /** Merging: keys of `b` take `b`'s value, every other key keeps `a`'s. */
  lemma {:induction false} MergeSpec<V>(a: Table<V>, b: Table<V>, k: string)
    requires UniqueKeys(b)
    ensures Get(Merge(a, b), k) == (if k in Keys(b) then Get(b, k) else Get(a, k))
    decreases |b|
  {
    if |b| > 0 {
      var a' := Set(a, b[0].0, b[0].1);
      SetGet(a, b[0].0, b[0].1);
      UniqueTail(b);
      MergeSpec(a', b[1..], k);
      KeysCons(b);
    }
  }

  /** Merging into a table with unique keys keeps keys unique. */
  lemma {:induction false} MergeUnique<V>(a: Table<V>, b: Table<V>)
    requires UniqueKeys(a)
    ensures UniqueKeys(Merge(a, b))
    decreases |b|
  {
    if |b| > 0 {
      SetUnique(a, b[0].0, b[0].1);
      MergeUnique(Set(a, b[0].0, b[0].1), b[1..]);
    }
  }

  /** In a table with unique keys, `Get` finds exactly the entries. */
  lemma {:induction false} GetMember<V>(t: Table<V>, k: string, v: V)
    requires UniqueKeys(t)
    ensures Get(t, k) == Some(v) <==> (k, v) in t
    decreases |t|
  {
    if |t| > 0 {
      UniqueTail(t);
      assert t == [t[0]] + t[1..];
      if t[0].0 == k {
        if (k, v) in t[1..] {
          EntryKey(t[1..], k, v);
        }
      } else {
        GetMember(t[1..], k, v);
      }
    }
  }

  lemma KeysRemoveAt<V>(r: Table<V>, i: nat)
    requires i < |r|
    ensures multiset(Keys(r)) == multiset(Keys(r[..i] + r[i + 1..])) + multiset{r[i].0}
  {
    var a, b := r[..i], r[i + 1..];
    assert r == a + [r[i]] + b;
    KeysConcat(a + [r[i]], b);
    KeysConcat(a, [r[i]]);
    KeysConcat(a, b);
    assert Keys([r[i]]) == [r[i].0];
    assert Keys(r) == Keys(a) + [r[i].0] + Keys(b);
    assert multiset(Keys(r)) == multiset(Keys(a)) + multiset{r[i].0} + multiset(Keys(b));
  }

  /** Reordering a table keeps the multiset of its keys. */
  lemma {:induction false} PermutationKeys<V>(t: Table<V>, r: Table<V>)
    requires multiset(t) == multiset(r)
    ensures multiset(Keys(t)) == multiset(Keys(r))
    decreases |t|
  {
    if |t| == 0 {
      Sorting.PermutationEmpty(t, r);
    } else {
      var i := Sorting.PermutationHead(t, r);
      var r' := r[..i] + r[i + 1..];
      PermutationKeys(t[1..], r');
      KeysRemoveAt(r, i);
      KeysCons(t);
    }
  }

  /** Without duplicates every element occurs once. */
  lemma {:induction false} NoDuplicatesCount<T>(s: seq<T>)
    ensures NoDuplicates(s) <==> forall x :: multiset(s)[x] <= 1
    decreases |s|
  {
    if !NoDuplicates(s) {
      var i, j :| 0 <= i < j < |s| && s[i] == s[j];
      DuplicateCount(s, i, j);
    } else if |s| > 0 {
      NoDuplicatesTail(s);
      NoDuplicatesCount(s[1..]);
      Sorting.MultisetTail(s);
      assert multiset(s[1..])[s[0]] == 0;
    }
  }

  /** A repeated element occurs at least twice. */
  lemma DuplicateCount<T>(s: seq<T>, i: nat, j: nat)
    requires i < j < |s| && s[i] == s[j]
    ensures multiset(s)[s[i]] >= 2
  {
    assert s == s[..j] + s[j..];
    assert s[i] in multiset(s[..j]) by { assert s[..j][i] == s[i]; }
    assert s[j] in multiset(s[j..]) by { assert s[j..][0] == s[j]; }
    assert multiset(s)[s[i]] == multiset(s[..j])[s[i]] + multiset(s[j..])[s[i]];
  }

  /** The tail of a sequence without duplicates has none, and does not hold the head. */
  lemma NoDuplicatesTail<T>(s: seq<T>)
    requires |s| > 0 && NoDuplicates(s)
    ensures NoDuplicates(s[1..]) && s[0] !in s[1..]
  {
    forall i, j | 0 <= i < j < |s| - 1 ensures s[1..][i] != s[1..][j] {
      assert s[1..][i] == s[i + 1] && s[1..][j] == s[j + 1];
    }
    forall i | 0 <= i < |s| - 1 ensures s[1..][i] != s[0] {
      assert s[1..][i] == s[i + 1];
    }
  }

  /** Reordering a table with unique keys keeps its keys unique. */
  lemma PermutationUnique<V>(t: Table<V>, r: Table<V>)
    requires multiset(t) == multiset(r) && UniqueKeys(t)
    ensures UniqueKeys(r)
  {
    PermutationKeys(t, r);
    assert NoDuplicates(Keys(t)) by {
      forall i, j | 0 <= i < j < |t| ensures Keys(t)[i] != Keys(t)[j] {
      }
    }
    NoDuplicatesCount(Keys(t));
    NoDuplicatesCount(Keys(r));
    forall i, j | 0 <= i < j < |r| ensures r[i].0 != r[j].0 {
      assert Keys(r)[i] == r[i].0 && Keys(r)[j] == r[j].0;
    }
  }

  /** Sorting by key changes the order of entries and nothing else. */
  lemma KSortSpec<V>(t: Table<V>, cmp: (string, string) -> int, k: string)
    requires UniqueKeys(t)
    ensures UniqueKeys(KSort(t, cmp))
    ensures Get(KSort(t, cmp), k) == Get(t, k)
  {
    var r := KSort(t, cmp);
    PermutationUnique(t, r);
    match Get(t, k)
    case Some(v) =>
      GetMember(t, k, v);
      assert (k, v) in multiset(r);
      GetMember(r, k, v);
    case None =>
      PermutationKeys(t, r);
      assert k !in multiset(Keys(r));
  }

  /** Neighbouring keys of the sorted table are in order. */
  lemma KSortOrdered<V(!new)>(t: Table<V>, cmp: (string, string) -> int)
    requires forall a, b :: cmp(a, b) == -cmp(b, a)
    ensures forall i :: 0 <= i < |t| - 1 ==> cmp(KSort(t, cmp)[i].0, KSort(t, cmp)[i + 1].0) <= 0
  {
    var c := (x: (string, V), y: (string, V)) => cmp(x.0, y.0);
    assert Sorting.Antisymmetric(c) by {
      forall x: (string, V), y: (string, V) ensures c(x, y) == -c(y, x) {
        assert cmp(x.0, y.0) == -cmp(y.0, x.0);
      }
    }
    Sorting.SortAdjacentSorted(t, c);
    assert KSort(t, cmp) == Sorting.Sort(t, c);
  }
}

=== FILE: compiler.dfy ===
/**
 * One Markdown file compiled into its metadata record (`compileMarkdown`,
 * `buildMeta`). Frontmatter parsing, Markdown rendering and the Vue
 * single-file component are not modelled: the frontmatter arrives as a
 * table, the body as a string, and the component text comes from a
 * `render` parameter. `createHash` and `slugify` are parameters as well.
 * The path of the file relative to the content directory and the platform
 * path separator are inputs, as are the two file timestamps.
 */
module Compiler {
  import opened Wrappers
  import opened Strings
  import opened Values
  import opened Headings
  import opened Excerpt
  import Assoc

  type Meta = Assoc.Table<Value>

  datatype CompileOptions = CompileOptions(headingDepth: Option<seq<int>>, excerpt: ExcerptOptions)

  /** What `compileMarkdown` returns. */
  datatype Compiled = Compiled(meta: Meta, headings: seq<Heading>, vueComponent: string)

  /** The file system facts `buildMeta` reads: the relative path and the floored timestamps. */
  datatype FileInfo = FileInfo(relativePath: string, createdAt: int, updatedAt: int)

  /** The functions the compiler calls but that are not part of the model. */
  datatype Services = Services(hash: string -> string, slug: string -> string, render: (string, Meta) -> string)

  const MdSuffix: string := ".md"

  /** `.replace(/\.md$/, '')`: one trailing `.md` is dropped. */
  function StripMd(p: string): (r: string)
    ensures EndsWith(p, ".md") ==> r + ".md" == p
    ensures !EndsWith(p, ".md") ==> r == p
  {
    if EndsWith(p, MdSuffix) then p[..|p| - 3] else p
  }

  /** The pieces `buildMeta` derives from the relative path. */
  datatype PathInfo = PathInfo(withoutExt: string, file: string, dir: string)

  /**
   * `pathWithoutExt`, `file` (the last `sep`-separated part) and `dir` (the
   * other parts joined by `/`).
   */
  function SplitPath(relativePath: string, sep: char): (pi: PathInfo)
    ensures pi.withoutExt == StripMd(relativePath)
    ensures sep !in pi.file
    ensures sep !in pi.withoutExt ==> pi.file == pi.withoutExt && pi.dir == ""
  {
    var pwe := StripMd(relativePath);
    var parts := Split(pwe, sep);
    assert sep !in pwe ==> parts == [pwe] by {
      if sep !in pwe {
        SplitNoSep(pwe, sep);
      }
    }
    PathInfo(pwe, parts[|parts| - 1], Join(parts[..|parts| - 1], '/'))
  }

  /** `_path`: the path without `.md`, with every backslash made a slash. */
  function ContentPath(relativePath: string): (p: string)
    ensures '\\' !in p
  {
    ReplaceChar(StripMd(relativePath), '\\', '/')
  }

  /** `frontmatter.title || file`. */
  function DefaultTitle(fm: Meta, file: string): (v: Value)
    ensures JsTruthy(v)  || v == Str(file)
    ensures JsTruthy(Assoc.Get(fm, "title").GetOr(Null)) ==> v == Assoc.Get(fm, "title").value
  {
    var t := Assoc.Get(fm, "title").GetOr(Null);
    if JsTruthy(t) then t else Str(file)
  }

  /** The keys `buildMeta` generates, in their literal order. */
  const GeneratedKeys: seq<string> :=
    ["_id", "_path", "_slug", "_dir", "_file", "_extension", "_excerpt",
     "_headings", "_hash", "_createdAt", "_updatedAt", "title"]

  function Zip<V>(ks: seq<string>, vs: seq<V>): (t: Assoc.Table<V>)
    requires |ks| == |vs|
    ensures |t| == |ks| && forall i :: 0 <= i < |ks| ==> t[i] == (ks[i], vs[i])
  {
    seq(|ks|, i requires 0 <= i < |ks| => (ks[i], vs[i]))
  }

  /** The generated fields of `buildMeta`, before the frontmatter spread. */
  function Generated(pi: PathInfo, info: FileInfo, fm: Meta, headings: seq<Heading>, excerpt: Value,
                     source: string, hash: string -> string): (g: Meta)
  {
    Zip(GeneratedKeys,
        [ Str(hash(pi.withoutExt)),
          Str(ReplaceChar(pi.withoutExt, '\\', '/')),
          Str(pi.file),
          Str(ReplaceChar(pi.dir, '\\', '/')),
          Str(pi.file),
          Str("md"),
          excerpt,
          HeadingsValue(headings),
          Str(hash(source)),
          Int(info.createdAt),
          Int(info.updatedAt),
          DefaultTitle(fm, pi.file) ])
  }

  /** No generated key is repeated. */
  lemma GeneratedKeysDistinct()
    ensures forall i, j :: 0 <= i < j < |GeneratedKeys| ==> GeneratedKeys[i] != GeneratedKeys[j]
  {
    var ks := GeneratedKeys;
    forall i, j | 0 <= i < j < |ks|
      ensures ks[i] != ks[j]
    {
      if |ks[i]| == |ks[j]| {
        assert ks[i][1] != ks[j][1] || ks[i][2] != ks[j][2];
      }
    }
  }

  /** `buildMeta`: the generated fields with the frontmatter spread over them. */
  function BuildMeta(info: FileInfo, sep: char, fm: Meta, headings: seq<Heading>, excerpt: Value,
                     source: string, hash: string -> string): (m: Meta)
  {
    Assoc.Merge(Generated(SplitPath(info.relativePath, sep), info, fm, headings, excerpt, source, hash), fm)
  }

  /** `frontmatter.excerpt || extractExcerpt(content, options.excerpt)`. */
  function ChooseExcerpt(fm: Meta, content: string, o: ExcerptOptions): (v: Value)
    ensures JsTruthy(Assoc.Get(fm, "excerpt").GetOr(Null)) ==> v == Assoc.Get(fm, "excerpt").value
    ensures !JsTruthy(Assoc.Get(fm, "excerpt").GetOr(Null)) ==> v == Str(ExtractExcerpt(content, o))
  {
    var given := Assoc.Get(fm, "excerpt").GetOr(Null);
    if JsTruthy(given) then given else Str(ExtractExcerpt(content, o))
  }

  /** `compileMarkdown` for a file whose frontmatter and body have been separated. */
  function Compile(source: string, fm: Meta, content: string, info: FileInfo, sep: char,
                   options: CompileOptions, svc: Services): (c: Compiled)
    ensures c.headings == ExtractHeadingsAsWritten(content, options.headingDepth, svc.slug)
    ensures c.meta == BuildMeta(info, sep, fm, c.headings, ChooseExcerpt(fm, content, options.excerpt), source, svc.hash)
    ensures c.vueComponent == svc.render(content, c.meta)
  {
    var headings := ExtractHeadingsAsWritten(content, options.headingDepth, svc.slug);
    var excerpt := ChooseExcerpt(fm, content, options.excerpt);
    var meta := BuildMeta(info, sep, fm, headings, excerpt, source, svc.hash);
    Compiled(meta, headings, svc.render(content, meta))
  }

  /** The meta value at `key`, `Null` when absent. */
  function Field(m: Meta, key: string): Value {
    Assoc.Get(m, key).GetOr(Null)
  }

  // ---------------------------------------------------------------------
  // Lemmas
  // ---------------------------------------------------------------------

  /** Frontmatter is spread last: every frontmatter key wins, every other key keeps its generated value. */
  lemma FrontmatterWins(info: FileInfo, sep: char, fm: Meta, headings: seq<Heading>, excerpt: Value,
                        source: string, hash: string -> string, key: string)
    requires Assoc.UniqueKeys(fm)
    ensures key in Assoc.Keys(fm) ==>
              Assoc.Get(BuildMeta(info, sep, fm, headings, excerpt, source, hash), key) == Assoc.Get(fm, key)
    ensures key !in Assoc.Keys(fm) ==>
              Assoc.Get(BuildMeta(info, sep, fm, headings, excerpt, source, hash), key)
              == Assoc.Get(Generated(SplitPath(info.relativePath, sep), info, fm, headings, excerpt, source, hash), key)
  {
    Assoc.MergeSpec(Generated(SplitPath(info.relativePath, sep), info, fm, headings, excerpt, source, hash), fm, key);
  }

  /** A generated field that the frontmatter does not set keeps its generated value. */
  lemma GeneratedField(info: FileInfo, sep: char, fm: Meta, headings: seq<Heading>, excerpt: Value,
                       source: string, hash: string -> string, i: nat)
    requires Assoc.UniqueKeys(fm)
    requires i < 12 && GeneratedKeys[i] !in Assoc.Keys(fm)
    ensures var g := Generated(SplitPath(info.relativePath, sep), info, fm, headings, excerpt, source, hash);
            Field(BuildMeta(info, sep, fm, headings, excerpt, source, hash), GeneratedKeys[i]) == g[i].1
  {
    var g := Generated(SplitPath(info.relativePath, sep), info, fm, headings, excerpt, source, hash);
    GeneratedKeysDistinct();
    FrontmatterWins(info, sep, fm, headings, excerpt, source, hash, GeneratedKeys[i]);
    GetAt(g, i);
  }

  /**
   * The identity fields without frontmatter overrides: `_path` is the
   * relative path without `.md` and with slashes, `_slug` and `_file` are
   * the last segment, `_extension` is 'md', `_id` hashes the path without
   * extension and `_hash` hashes the whole source.
   */
  lemma IdentityFields(info: FileInfo, sep: char, fm: Meta, headings: seq<Heading>, excerpt: Value,
                       source: string, hash: string -> string)
    requires Assoc.UniqueKeys(fm)
    requires "_id" !in Assoc.Keys(fm) && "_path" !in Assoc.Keys(fm) && "_slug" !in Assoc.Keys(fm)
    requires "_file" !in Assoc.Keys(fm) && "_extension" !in Assoc.Keys(fm) && "_hash" !in Assoc.Keys(fm)
    ensures var m := BuildMeta(info, sep, fm, headings, excerpt, source, hash);
            var pi := SplitPath(info.relativePath, sep);
            && Field(m, "_id") == Str(hash(StripMd(info.relativePath)))
            && Field(m, "_path") == Str(ContentPath(info.relativePath))
            && Field(m, "_slug") == Str(pi.file) && Field(m, "_file") == Str(pi.file)
            && Field(m, "_extension") == Str("md")
            && Field(m, "_hash") == Str(hash(source))
  {
    var ks := GeneratedKeys;
    assert ks[0] == "_id" && ks[1] == "_path" && ks[2] == "_slug";
    assert ks[4] == "_file" && ks[5] == "_extension" && ks[8] == "_hash";
    var pi := SplitPath(info.relativePath, sep);
    var g := Generated(pi, info, fm, headings, excerpt, source, hash);
    assert g[0].1 == Str(hash(pi.withoutExt)) && g[1].1 == Str(ReplaceChar(pi.withoutExt, '\\', '/'));
    assert g[2].1 == Str(pi.file) && g[4].1 == Str(pi.file);
    assert g[5].1 == Str("md") && g[8].1 == Str(hash(source));
    GeneratedField(info, sep, fm, headings, excerpt, source, hash, 0);
    GeneratedField(info, sep, fm, headings, excerpt, source, hash, 1);
    GeneratedField(info, sep, fm, headings, excerpt, source, hash, 2);
    GeneratedField(info, sep, fm, headings, excerpt, source, hash, 4);
    GeneratedField(info, sep, fm, headings, excerpt, source, hash, 5);
    GeneratedField(info, sep, fm, headings, excerpt, source, hash, 8);
  }

  /**
   * `_path` is `_dir`, a slash and the file name, or just the file name at
   * the top level. On POSIX (`/`) this needs a file name without a
   * backslash; on Windows (`\`) it always holds.
   */
  lemma PathIsDirPlusFile(relativePath: string, sep: char)
    requires sep == '/' || sep == '\\'
    requires sep == '\\' || '\\' !in relativePath
    ensures var pi := SplitPath(relativePath, sep);
            var dir := ReplaceChar(pi.dir, '\\', '/');
            && (sep !in pi.withoutExt ==> ContentPath(relativePath) == pi.file && dir == "")
            && (sep in pi.withoutExt ==> ContentPath(relativePath) == dir + "/" + pi.file)
  {
    if sep !in StripMd(relativePath) {
      PathWithoutDir(relativePath, sep);
    } else {
      PathWithDir(relativePath, sep);
    }
  }

  lemma PathWithoutDir(relativePath: string, sep: char)
    requires sep == '/' || sep == '\\'
    requires sep == '\\' || '\\' !in relativePath
    requires sep !in StripMd(relativePath)
    ensures ContentPath(relativePath) == SplitPath(relativePath, sep).file
  {
    if sep == '/' {
      StripMdInside(relativePath);
    }
    ReplaceCharAbsent(StripMd(relativePath), '\\', '/');
  }

  lemma PathWithDir(relativePath: string, sep: char)
    requires sep == '/' || sep == '\\'
    requires sep == '\\' || '\\' !in relativePath
    requires sep in StripMd(relativePath)
    ensures var pi := SplitPath(relativePath, sep);
            ContentPath(relativePath) == ReplaceChar(pi.dir, '\\', '/') + "/" + pi.file
  {
    var front, file := LastPart(StripMd(relativePath), sep);
    if sep == '\\' {
      WindowsPath(front, file);
    } else {
      StripMdInside(relativePath);
      PosixPath(front, file);
    }
  }

  /** A text holding `sep` is its parts but the last, joined, then `sep`, then the last part. */
  lemma LastPart(s: string, sep: char) returns (front: seq<string>, file: string)
    requires sep in s
    ensures |Split(s, sep)| >= 2
    ensures front == Split(s, sep)[..|Split(s, sep)| - 1] && file == Split(s, sep)[|Split(s, sep)| - 1]
    ensures s == Join(front, sep) + [sep] + file
    ensures forall i :: 0 <= i < |front| ==> sep !in front[i]
  {
    var parts := Split(s, sep);
    JoinSplit(s, sep);
    front := parts[..|parts| - 1];
    file := parts[|parts| - 1];
    assert parts == front + [file];
    JoinAppend(front, file, sep);
    assert forall i :: 0 <= i < |front| ==> front[i] == parts[i];
  }

  lemma WindowsPath(front: seq<string>, file: string)
    requires forall i :: 0 <= i < |front| ==> '\\' !in front[i]
    requires '\\' !in file
    ensures ReplaceChar(Join(front, '\\') + ['\\'] + file, '\\', '/')
            == ReplaceChar(Join(front, '/'), '\\', '/') + "/" + file
  {
    ReplaceCharConcat(Join(front, '\\') + ['\\'], file, '\\', '/');
    ReplaceCharConcat(Join(front, '\\'), ['\\'], '\\', '/');
    ReplaceCharAbsent(file, '\\', '/');
    ReplaceCharJoin(front, '\\', '/');
    JoinNoChar(front, '/', '\\');
    ReplaceCharAbsent(Join(front, '/'), '\\', '/');
  }

  lemma PosixPath(front: seq<string>, file: string)
    requires '\\' !in Join(front, '/') + ['/'] + file
    ensures ReplaceChar(Join(front, '/') + ['/'] + file, '\\', '/')
            == ReplaceChar(Join(front, '/'), '\\', '/') + "/" + file
  {
    var s := Join(front, '/') + ['/'] + file;
    ReplaceCharAbsent(s, '\\', '/');
    assert forall c :: c in Join(front, '/') ==> c in s;
    ReplaceCharAbsent(Join(front, '/'), '\\', '/');
  }

  /** Dropping `.md` keeps only characters of the path. */
  lemma StripMdInside(p: string)
    ensures forall c :: c in StripMd(p) ==> c in p
  {
    if EndsWith(p, ".md") {
      assert forall i :: 0 <= i < |p| - 3 ==> StripMd(p)[i] == p[i];
    }
  }

  /** Joining pieces free of `c` with a separator other than `c` gives a string free of `c`. */
  lemma {:induction false} JoinNoChar(ps: seq<string>, sep: char, c: char)
    requires sep != c
    requires forall i :: 0 <= i < |ps| ==> c !in ps[i]
    ensures c !in Join(ps, sep)
    decreases |ps|
  {
    if |ps| > 1 {
      JoinNoChar(ps[1..], sep, c);
      assert Join(ps, sep) == ps[0] + [sep] + Join(ps[1..], sep);
    }
  }

  /** A title that is empty in the frontmatter first falls back to the file name and is then overwritten with ''. */
  lemma EmptyTitleKept(info: FileInfo, sep: char, fm: Meta, headings: seq<Heading>, excerpt: Value,
                       source: string, hash: string -> string)
    requires Assoc.UniqueKeys(fm) && Assoc.Get(fm, "title") == Some(Str(""))
    ensures Field(BuildMeta(info, sep, fm, headings, excerpt, source, hash), "title") == Str("")
  {
    FrontmatterWins(info, sep, fm, headings, excerpt, source, hash, "title");
  }

  /** Without a frontmatter title the title is the file name. */
  lemma TitleDefaultsToFile(info: FileInfo, sep: char, fm: Meta, headings: seq<Heading>, excerpt: Value,
                            source: string, hash: string -> string)
    requires Assoc.UniqueKeys(fm) && "title" !in Assoc.Keys(fm)
    ensures Field(BuildMeta(info, sep, fm, headings, excerpt, source, hash), "title")
            == Str(SplitPath(info.relativePath, sep).file)
  {
    assert GeneratedKeys[11] == "title";
    var pi := SplitPath(info.relativePath, sep);
    var g := Generated(pi, info, fm, headings, excerpt, source, hash);
    assert g[11].1 == DefaultTitle(fm, pi.file);
    GeneratedField(info, sep, fm, headings, excerpt, source, hash, 11);
  }

  /** In a table whose earlier keys differ, `Get` finds the entry at index `i`. */
  lemma {:induction false} GetAt<V>(t: Assoc.Table<V>, i: nat)
    requires i < |t|
    requires forall j :: 0 <= j < i ==> t[j].0 != t[i].0
    ensures Assoc.Get(t, t[i].0) == Some(t[i].1)
    decreases i
  {
    if i > 0 {
      GetAt(t[1..], i - 1);
    }
  }

  /** The compiled excerpt is the frontmatter's when truthy, else the derived one. */
  lemma ExcerptOverride(source: string, fm: Meta, content: string, info: FileInfo, sep: char,
                        options: CompileOptions, svc: Services)
    requires Assoc.UniqueKeys(fm) && "_excerpt" !in Assoc.Keys(fm)
    ensures var m := Compile(source, fm, content, info, sep, options, svc).meta;
            JsTruthy(Field(fm, "excerpt")) ==> Field(m, "_excerpt") == Field(fm, "excerpt")
    ensures var m := Compile(source, fm, content, info, sep, options, svc).meta;
            !JsTruthy(Field(fm, "excerpt")) ==> Field(m, "_excerpt") == Str(ExtractExcerpt(content, options.excerpt))
  {
    var headings := ExtractHeadingsAsWritten(content, options.headingDepth, svc.slug);
    var excerpt := ChooseExcerpt(fm, content, options.excerpt);
    assert Compile(source, fm, content, info, sep, options, svc).meta
        == BuildMeta(info, sep, fm, headings, excerpt, source, svc.hash);
    ExcerptField(info, sep, fm, headings, excerpt, source, svc.hash);
  }

  /** Without a frontmatter `_path`, a compiled file's `_path` is its content path. */
  lemma CompiledPath(source: string, fm: Meta, content: string, info: FileInfo, sep: char,
                     options: CompileOptions, svc: Services)
    requires Assoc.UniqueKeys(fm) && "_path" !in Assoc.Keys(fm)
    ensures Field(Compile(source, fm, content, info, sep, options, svc).meta, "_path")
            == Str(ContentPath(info.relativePath))
  {
    var headings := ExtractHeadingsAsWritten(content, options.headingDepth, svc.slug);
    var excerpt := ChooseExcerpt(fm, content, options.excerpt);
    assert Compile(source, fm, content, info, sep, options, svc).meta
        == BuildMeta(info, sep, fm, headings, excerpt, source, svc.hash);
    PathField(info, sep, fm, headings, excerpt, source, svc.hash);
  }

  /** Without a frontmatter `_path`, the meta `_path` is the content path of the file. */
  lemma PathField(info: FileInfo, sep: char, fm: Meta, headings: seq<Heading>, excerpt: Value,
                  source: string, hash: string -> string)
    requires Assoc.UniqueKeys(fm) && "_path" !in Assoc.Keys(fm)
    ensures Field(BuildMeta(info, sep, fm, headings, excerpt, source, hash), "_path")
            == Str(ContentPath(info.relativePath))
  {
    assert GeneratedKeys[1] == "_path";
    var pi := SplitPath(info.relativePath, sep);
    var g := Generated(pi, info, fm, headings, excerpt, source, hash);
    assert g[1].1 == Str(ReplaceChar(pi.withoutExt, '\\', '/'));
    GeneratedField(info, sep, fm, headings, excerpt, source, hash, 1);
  }

  /** Without a frontmatter `_excerpt`, the meta `_excerpt` is the chosen excerpt. */
  lemma ExcerptField(info: FileInfo, sep: char, fm: Meta, headings: seq<Heading>, excerpt: Value,
                     source: string, hash: string -> string)
    requires Assoc.UniqueKeys(fm) && "_excerpt" !in Assoc.Keys(fm)
    ensures Field(BuildMeta(info, sep, fm, headings, excerpt, source, hash), "_excerpt") == excerpt
  {
    assert GeneratedKeys[6] == "_excerpt";
    var g := Generated(SplitPath(info.relativePath, sep), info, fm, headings, excerpt, source, hash);
    assert g[6].1 == excerpt;
    GeneratedField(info, sep, fm, headings, excerpt, source, hash, 6);
  }
}

=== FILE: content_cache.dfy ===
/**
 * The enable-gated, key-prefixed cache in front of the framework's cache
 * store (`ContentCache`). The store is a map from full keys to values and is
 * shared: `flush` empties all of it. Expiry after `ttl` seconds is not part
 * of the model.
 */
module ContentCache {
  import opened Wrappers
  import opened Strings

  /** The `inertia-content.cache` configuration array; a missing or null setting is `None`. */
  datatype Config = Config(enabled: Option<bool>, store: Option<string>, ttl: Option<int>, prefix: Option<string>)

  datatype Cache<V> = Cache(enabled: bool, storeName: string, ttl: int, prefix: string, store: map<string, V>)

  const DefaultStore: string := "file"
  const DefaultTtl: int := 3600
  const DefaultPrefix: string := "inertia_content_"

  /** The constructor: each setting falls back to its default (`??`). */
  function New<V>(config: Config, store: map<string, V>): (c: Cache<V>)
    ensures c.enabled == config.enabled.GetOr(true)
    ensures config.store.None? ==> c.storeName == "file"
    ensures config.store.Some? ==> c.storeName == config.store.value
    ensures config.ttl.None? ==> c.ttl == 3600
    ensures config.ttl.Some? ==> c.ttl == config.ttl.value
    ensures config.prefix.None? ==> c.prefix == "inertia_content_"
    ensures config.prefix.Some? ==> c.prefix == config.prefix.value
    ensures c.store == store
  {
    Cache(config.enabled.GetOr(true), config.store.GetOr(DefaultStore),
          config.ttl.GetOr(DefaultTtl), config.prefix.GetOr(DefaultPrefix), store)
  }

  /** `makeCacheKey`: the configured prefix followed by the key. */
  function MakeKey<V>(c: Cache<V>, key: string): (k: string)
    ensures StartsWith(k, c.prefix) && k[|c.prefix|..] == key
  {
    c.prefix + key
  }

  function Get<V>(c: Cache<V>, key: string): (r: Option<V>)
    ensures !c.enabled ==> r.None?
    ensures c.enabled ==> (r.Some? <==> MakeKey(c, key) in c.store)
    ensures r.Some? ==> r.value == c.store[MakeKey(c, key)]
  {
    if !c.enabled then None
    else if MakeKey(c, key) in c.store then Some(c.store[MakeKey(c, key)])
    else None
  }

  function Put<V>(c: Cache<V>, key: string, v: V): (r: Cache<V>)
    ensures !c.enabled ==> r == c
    ensures c.enabled ==> r.store == c.store[MakeKey(c, key) := v]
    ensures r.enabled == c.enabled && r.prefix == c.prefix
  {
    if !c.enabled then c else c.(store := c.store[MakeKey(c, key) := v])
  }

  function Forget<V>(c: Cache<V>, key: string): (r: Cache<V>)
    ensures !c.enabled ==> r == c
    ensures c.enabled ==> r.store == c.store - {MakeKey(c, key)}
    ensures r.enabled == c.enabled && r.prefix == c.prefix
  {
    if !c.enabled then c else c.(store := c.store - {MakeKey(c, key)})
  }

  /** `flush`: the whole backing store is emptied, keys of other users included. */
  function Flush<V>(c: Cache<V>): (r: Cache<V>)
    ensures !c.enabled ==> r == c
    ensures c.enabled ==> r.store == map[]
    ensures r.enabled == c.enabled && r.prefix == c.prefix
  {
    if !c.enabled then c else c.(store := map[])
  }

  // ---------------------------------------------------------------------
  // Lemmas
  // ---------------------------------------------------------------------

  /** Distinct keys land on distinct store keys. */
  lemma MakeKeyInjective<V>(c: Cache<V>, k1: string, k2: string)
    ensures MakeKey(c, k1) == MakeKey(c, k2) <==> k1 == k2
  {
    if MakeKey(c, k1) == MakeKey(c, k2) {
      assert k1 == MakeKey(c, k1)[|c.prefix|..];
    }
  }

  /** An enabled cache returns what was put, and only that key changes. */
  lemma PutGet<V>(c: Cache<V>, key: string, v: V, other: string)
    requires c.enabled
    ensures Get(Put(c, key, v), key) == Some(v)
    ensures other != key ==> Get(Put(c, key, v), other) == Get(c, other)
  {
    MakeKeyInjective(c, key, other);
  }

  /** After `forget` the key reads as missing, and only that key changes. */
  lemma ForgetGet<V>(c: Cache<V>, key: string, other: string)
    ensures Get(Forget(c, key), key).None?
    ensures other != key ==> Get(Forget(c, key), other) == Get(c, other)
  {
    MakeKeyInjective(c, key, other);
  }

  /** A disabled cache never holds anything, whatever is done to it. */
  lemma DisabledInert<V>(c: Cache<V>, key: string, v: V)
    requires !c.enabled
    ensures Get(Put(c, key, v), key).None?
    ensures Put(c, key, v) == c && Forget(c, key) == c && Flush(c) == c
  {
  }

  /** After an enabled flush nothing can be read back. */
  lemma FlushGet<V>(c: Cache<V>, key: string)
    ensures Get(Flush(c), key).None?
  {
  }
}

=== FILE: content_collection.dfy ===
/**
 * A list of entries and what can be derived from it (`ContentCollection`):
 * their paths, the draft filter, and the navigation tree. The tree is built
 * as nested nodes keyed by directory name, with leaves appended under
 * integer keys; then every `children` list, at every depth, is sorted by
 * `order` (999 when missing) and then `title`. Sorting re-indexes a list,
 * so below the top level the directory names are gone.
 */
module ContentCollection {
  import opened Wrappers
  import opened Strings
  import opened Values
  import opened ContentEntry
  import Sorting
  import Seqs

  /** The `{title, path, order, description}` record of one navigable entry. */
  datatype Leaf = Leaf(title: string, path: string, order: Option<int>, description: Option<string>)

  /** A key of the PHP array that holds a level of the tree. */
  datatype NavKey = Name(name: string) | Index(index: nat)

  /** One keyed element of a level. */
  datatype Slot = Slot(key: NavKey, node: Node)

  /** A node while the tree is being built. */
  datatype Node = Item(leaf: Leaf) | Dir(children: seq<Slot>)

  /** A node after sorting: child lists are plain lists. */
  datatype NavItem = NavLeaf(leaf: Leaf) | NavGroup(items: seq<NavItem>)

  type Level = seq<Slot>

  /** One keyed element of the sorted top level. */
  datatype TopSlot = TopSlot(key: NavKey, item: NavItem)

  // ---------------------------------------------------------------------
  // paths() and filterDrafts()
  // ---------------------------------------------------------------------

  /** `paths()`: `getPath()` of every entry, in order. */
  function Paths(es: seq<Entry>): (r: Result<seq<string>, EntryError>)
    ensures r.Success? ==> |r.value| == |es| && forall i :: 0 <= i < |es| ==> GetPath(es[i]) == Success(r.value[i])
    ensures r.Failure? <==> exists i :: 0 <= i < |es| && GetPath(es[i]).Failure?
  {
    if es == [] then Success([])
    else match GetPath(es[0])
      case Failure(err) => Failure(err)
      case Success(p) =>
        var rest := Paths(es[1..]);
        assert forall i :: 1 <= i < |es| ==> es[i] == es[1..][i - 1];
        match rest
        case Failure(err) => Failure(err)
        case Success(ps) => Success([p] + ps)
  }

  /** `filterDrafts($includeDrafts)`. */
  function FilterDrafts(es: seq<Entry>, includeDrafts: bool): (r: seq<Entry>)
    ensures includeDrafts ==> r == es
    ensures !includeDrafts ==> forall e :: e in r <==> e in es && !IsDraft(e)
    ensures |r| <= |es|
  {
    if includeDrafts || es == [] then es
    else if IsDraft(es[0]) then FilterDrafts(es[1..], false)
    else [es[0]] + FilterDrafts(es[1..], false)
  }

  /** An entry `filterDrafts(false)` keeps. */
  predicate Published(e: Entry) {
    !IsDraft(e)
  }

  /**
   * Without drafts, the filter is exactly the published entries in their
   * original order.
   */
  lemma {:induction false} FilterDraftsIsSubsequence(es: seq<Entry>)
    ensures FilterDrafts(es, false) == Seqs.FilterSeq(es, Published)
  {
    if es != [] {
      FilterDraftsIsSubsequence(es[1..]);
    }
  }

  // ---------------------------------------------------------------------
  // Building the tree
  // ---------------------------------------------------------------------

  /** The directory segments that create levels: `explode('/')` without the ones `empty()` skips. */
  function Segments(dir: string): (r: seq<string>)
    ensures forall i :: 0 <= i < |r| ==> r[i] != "" && r[i] != "0" && '/' !in r[i]
  {
    Keep(Split(dir, '/'))
  }

  function Keep(parts: seq<string>): (r: seq<string>)
    requires forall i :: 0 <= i < |parts| ==> '/' !in parts[i]
    ensures forall i :: 0 <= i < |r| ==> r[i] != "" && r[i] != "0" && '/' !in r[i]
    ensures forall p :: p in r <==> p in parts && p != "" && p != "0"
  {
    if parts == [] then []
    else
      var rest := Keep(parts[1..]);
      if parts[0] == "" || parts[0] == "0" then rest else [parts[0]] + rest
  }

  /** The position of the first slot with key `k`, if any. */
  function FindKey(t: Level, k: NavKey): (r: Option<nat>)
    ensures r.Some? ==> r.value < |t| && t[r.value].key == k
    ensures r.Some? ==> forall j :: 0 <= j < r.value ==> t[j].key != k
    ensures r.None? ==> forall i :: 0 <= i < |t| ==> t[i].key != k
  {
    if t == [] then None
    else if t[0].key == k then Some(0)
    else match FindKey(t[1..], k)
      case Some(i) => Some(i + 1)
      case None => None
  }

  /** The key `$current[] = ...` uses: one more than the largest integer key so far. */
  function NextIndex(t: Level): (r: nat)
    ensures forall i :: 0 <= i < |t| && t[i].key.Index? ==> t[i].key.index < r
  {
    if t == [] then 0
    else
      var rest := NextIndex(t[1..]);
      assert forall i :: 1 <= i < |t| ==> t[i] == t[1..][i - 1];
      if t[0].key.Index? && t[0].key.index >= rest then t[0].key.index + 1 else rest
  }

  function ChildrenOf(n: Node): Level {
    if n.Dir? then n.children else []
  }

  /** Walk the directory levels named by `segs`, creating missing ones, then append the leaf. */
  function Place(t: Level, segs: seq<string>, leaf: Leaf): (r: Level)
    ensures |r| == |t| || |r| == |t| + 1
    decreases |segs|
  {
    if segs == [] then t + [Slot(Index(NextIndex(t)), Item(leaf))]
    else
      var k := Name(segs[0]);
      match FindKey(t, k)
      case Some(i) => t[i := Slot(k, Dir(Place(ChildrenOf(t[i].node), segs[1..], leaf)))]
      case None => t + [Slot(k, Dir(Place([], segs[1..], leaf)))]
  }

  /** The leaf record of a navigable entry, read through the typed getters. */
  function LeafOf(e: Entry): (r: Result<Leaf, EntryError>)
    ensures r.Success? ==> GetTitle(e) == Success(r.value.title) && GetPath(e) == Success(r.value.path)
    ensures r.Success? ==> GetOrder(e) == Success(r.value.order) && GetDescription(e) == Success(r.value.description)
    ensures r.Failure? <==> GetTitle(e).Failure? || GetPath(e).Failure? || GetOrder(e).Failure? || GetDescription(e).Failure?
  {
    var title :- GetTitle(e);
    var path :- GetPath(e);
    var order :- GetOrder(e);
    var description :- GetDescription(e);
    Success(Leaf(title, path, order, description))
  }

  /** The `foreach` of `toNavigation`, continuing from the tree built so far. */
  function Build(t: Level, es: seq<Entry>): (r: Result<Level, EntryError>)
    decreases |es|
  {
    if es == [] then Success(t)
    else if !IsNavigable(es[0]) then Build(t, es[1..])
    else match GetDir(es[0])
      case Failure(err) => Failure(err)
      case Success(dir) =>
        match LeafOf(es[0])
        case Failure(err) => Failure(err)
        case Success(leaf) => Build(Place(t, Segments(dir), leaf), es[1..])
  }

  // ---------------------------------------------------------------------
  // Sorting the tree
  // ---------------------------------------------------------------------

  const DefaultOrder: int := 999

  function NavOrder(n: NavItem): int {
    if n.NavLeaf? then n.leaf.order.GetOr(DefaultOrder) else DefaultOrder
  }

  function NavTitle(n: NavItem): string {
    if n.NavLeaf? then n.leaf.title else ""
  }

  /** The `usort` callback of `sortNavigationTree`: order first, titles (PHP `<=>`) on a tie. */
  function NavCmp(a: NavItem, b: NavItem): (r: int)
    ensures -1 <= r <= 1
    ensures NavOrder(a) < NavOrder(b) ==> r < 0
    ensures NavOrder(a) > NavOrder(b) ==> r > 0
    ensures NavOrder(a) == NavOrder(b) ==> r == StrCmp(NavTitle(a), NavTitle(b))
  {
    if NavOrder(a) == NavOrder(b) then StrCmp(NavTitle(a), NavTitle(b))
    else IntCmp(NavOrder(a), NavOrder(b))
  }

  /** A node with every child list below it sorted and its keys dropped. */
  function Convert(n: Node): (r: NavItem)
    ensures n.Item? ==> r == NavLeaf(n.leaf)
    ensures n.Dir? ==> r.NavGroup? && |r.items| == |n.children|
    decreases n
  {
    match n
    case Item(l) => NavLeaf(l)
    case Dir(cs) => NavGroup(Sorting.Sort(ConvertAll(cs), NavCmp))
  }

  function ConvertAll(cs: Level): (r: seq<NavItem>)
    ensures |r| == |cs|
    decreases cs
  {
    if cs == [] then [] else [ConvertSlot(cs[0])] + ConvertAll(cs[1..])
  }

  function ConvertSlot(s: Slot): NavItem
    decreases s
  {
    Convert(s.node)
  }

  /** `sortNavigationTree` on the top level: keys and order kept, every node below sorted. */
  function SortTop(t: Level): (r: seq<TopSlot>)
    ensures |r| == |t|
    ensures forall i :: 0 <= i < |t| ==> r[i].key == t[i].key && r[i].item == Convert(t[i].node)
  {
    if t == [] then []
    else
      assert forall i :: 1 <= i < |t| ==> t[i] == t[1..][i - 1];
      [TopSlot(t[0].key, Convert(t[0].node))] + SortTop(t[1..])
  }

  /** `toNavigation()`. */
  function ToNavigation(es: seq<Entry>): (r: Result<seq<TopSlot>, EntryError>)
    ensures r.Success? <==> Build([], es).Success?
    ensures r.Success? ==> |r.value| == |Build([], es).value|
  {
    var t :- Build([], es);
    Success(SortTop(t))
  }

  // ---------------------------------------------------------------------
  // Leaves of trees
  // ---------------------------------------------------------------------

  function NodeLeaves(n: Node): multiset<Leaf>
    decreases n
  {
    match n
    case Item(l) => multiset{l}
    case Dir(cs) => LevelLeaves(cs)
  }

  function LevelLeaves(t: Level): multiset<Leaf>
    decreases t
  {
    if t == [] then multiset{} else SlotLeaves(t[0]) + LevelLeaves(t[1..])
  }

  function SlotLeaves(s: Slot): multiset<Leaf>
    decreases s
  {
    NodeLeaves(s.node)
  }

  function ItemLeaves(n: NavItem): multiset<Leaf>
    decreases n, 0
  {
    match n
    case NavLeaf(l) => multiset{l}
    case NavGroup(xs) => ItemsLeaves(xs)
  }

  function ItemsLeaves(xs: seq<NavItem>): multiset<Leaf>
    decreases xs, 1
  {
    if xs == [] then multiset{} else ItemLeaves(xs[0]) + ItemsLeaves(xs[1..])
  }

  function TopLeaves(t: seq<TopSlot>): multiset<Leaf> {
    if t == [] then multiset{} else ItemLeaves(t[0].item) + TopLeaves(t[1..])
  }

  /** The leaves of the navigable entries whose getters succeed. */
  function NavigableLeaves(es: seq<Entry>): multiset<Leaf> {
    if es == [] then multiset{}
    else
      var rest := NavigableLeaves(es[1..]);
      if IsNavigable(es[0]) && LeafOf(es[0]).Success? then multiset{LeafOf(es[0]).value} + rest else rest
  }

  /** The leaves stored directly in the level reached by following directory names. */
  function LeavesAt(t: Level, segs: seq<string>): seq<Leaf>
    decreases |segs|
  {
    if segs == [] then LevelItems(t)
    else match FindKey(t, Name(segs[0]))
      case Some(i) => LeavesAt(ChildrenOf(t[i].node), segs[1..])
      case None => []
  }

  function LevelItems(t: Level): (r: seq<Leaf>)
    ensures forall l :: l in r <==> exists i :: 0 <= i < |t| && t[i].node == Item(l)
  {
    if t == [] then []
    else
      var rest := LevelItems(t[1..]);
      assert forall i :: 1 <= i < |t| ==> t[i] == t[1..][i - 1];
      if t[0].node.Item? then [t[0].node.leaf] + rest else rest
  }

  /**
   * Directory names name directories and integer keys name leaves, and no
   * key repeats within a level, at every depth.
   */
  ghost predicate WellFormed(t: Level)
    decreases t
  {
    && (forall i, j :: 0 <= i < j < |t| ==> t[i].key != t[j].key)
    && (forall i :: 0 <= i < |t| ==> (t[i].key.Name? <==> t[i].node.Dir?))
    && (forall i :: 0 <= i < |t| && t[i].node.Dir? ==> WellFormedSlot(t[i]))
  }

  ghost predicate WellFormedSlot(s: Slot)
    decreases s, 0
  {
    s.node.Dir? ==> WellFormed(s.node.children)
  }

  // ---------------------------------------------------------------------
  // Lemmas
  // ---------------------------------------------------------------------

  lemma {:induction false} LevelLeavesConcat(a: Level, b: Level)
    ensures LevelLeaves(a + b) == LevelLeaves(a) + LevelLeaves(b)
  {
    if a != [] {
      assert (a + b)[0] == a[0];
      assert (a + b)[1..] == a[1..] + b;
      LevelLeavesConcat(a[1..], b);
    } else {
      assert a + b == b;
    }
  }

  /** Replacing one slot swaps exactly that slot's leaves. */
  lemma {:induction false} LevelLeavesUpdate(t: Level, i: nat, s: Slot)
    requires i < |t|
    ensures LevelLeaves(t[i := s]) + NodeLeaves(t[i].node) == LevelLeaves(t) + NodeLeaves(s.node)
  {
    var u := t[i := s];
    if i == 0 {
      assert u[1..] == t[1..];
      assert LevelLeaves(u) == SlotLeaves(s) + LevelLeaves(t[1..]);
    } else {
      assert u[0] == t[0];
      assert t[1..][i - 1] == t[i];
      assert u[1..] == t[1..][i - 1 := s];
      LevelLeavesUpdate(t[1..], i - 1, s);
      calc {
        LevelLeaves(u) + NodeLeaves(t[i].node);
        (SlotLeaves(t[0]) + LevelLeaves(t[1..][i - 1 := s])) + NodeLeaves(t[i].node);
        SlotLeaves(t[0]) + (LevelLeaves(t[1..][i - 1 := s]) + NodeLeaves(t[1..][i - 1].node));
        SlotLeaves(t[0]) + (LevelLeaves(t[1..]) + NodeLeaves(s.node));
        (SlotLeaves(t[0]) + LevelLeaves(t[1..])) + NodeLeaves(s.node);
        LevelLeaves(t) + NodeLeaves(s.node);
      }
    }
  }

  lemma MultisetCancel<T>(a: multiset<T>, b: multiset<T>, c: multiset<T>)
    requires a + c == b + c
    ensures a == b
  {
    assert a == (a + c) - c;
    assert b == (b + c) - c;
  }

  /** A level of one slot holds that slot's leaves. */
  lemma LevelLeavesSingle(s: Slot)
    ensures LevelLeaves([s]) == NodeLeaves(s.node)
  {
    assert [s][1..] == [];
    assert LevelLeaves([s]) == SlotLeaves(s) + LevelLeaves([]);
  }

  lemma {:induction false} ItemsLeavesConcat(a: seq<NavItem>, b: seq<NavItem>)
    ensures ItemsLeaves(a + b) == ItemsLeaves(a) + ItemsLeaves(b)
  {
    if a != [] {
      Seqs.ConcatHead(a, b);
      ItemsLeavesConcat(a[1..], b);
    } else {
      assert a + b == b;
    }
  }

  /** Removing one element of a list removes exactly its leaves. */
  lemma ItemsLeavesRemoveAt(xs: seq<NavItem>, i: nat)
    requires i < |xs|
    ensures ItemsLeaves(xs) == ItemsLeaves(xs[..i] + xs[i + 1..]) + ItemLeaves(xs[i])
  {
    Seqs.SplitAt(xs, i);
    ItemsLeavesConcat(xs[..i], [xs[i]] + xs[i + 1..]);
    ItemsLeavesConcat(xs[..i], xs[i + 1..]);
    Seqs.ConsTail(xs[i], xs[i + 1..]);
  }

  /** The leaves of a list depend only on its elements, not on their order. */
  lemma {:induction false} ItemsLeavesPermutation(xs: seq<NavItem>, ys: seq<NavItem>)
    requires multiset(xs) == multiset(ys)
    ensures ItemsLeaves(xs) == ItemsLeaves(ys)
    decreases |xs|
  {
    if xs != [] {
      var i := Sorting.PermutationHead(xs, ys);
      var ys' := ys[..i] + ys[i + 1..];
      ItemsLeavesPermutation(xs[1..], ys');
      ItemsLeavesRemoveAt(ys, i);
    } else {
      Sorting.PermutationEmpty(xs, ys);
    }
  }

  /** Converting a node keeps its leaves, though sorting moves them. */
  lemma {:induction false} ConvertLeaves(n: Node)
    ensures ItemLeaves(Convert(n)) == NodeLeaves(n)
    decreases n
  {
    if n.Dir? {
      ConvertAllLeaves(n.children);
      ItemsLeavesPermutation(Sorting.Sort(ConvertAll(n.children), NavCmp), ConvertAll(n.children));
    }
  }

  lemma {:induction false} ConvertAllLeaves(cs: Level)
    ensures ItemsLeaves(ConvertAll(cs)) == LevelLeaves(cs)
    decreases cs
  {
    if cs != [] {
      ConvertSlotLeaves(cs[0]);
      ConvertAllLeaves(cs[1..]);
      assert ConvertAll(cs)[1..] == ConvertAll(cs[1..]);
    }
  }

  lemma {:induction false} ConvertSlotLeaves(s: Slot)
    ensures ItemLeaves(ConvertSlot(s)) == SlotLeaves(s)
    decreases s
  {
    ConvertLeaves(s.node);
  }

  lemma {:induction false} SortTopLeaves(t: Level)
    ensures TopLeaves(SortTop(t)) == LevelLeaves(t)
  {
    if t != [] {
      ConvertLeaves(t[0].node);
      SortTopLeaves(t[1..]);
      assert SortTop(t)[1..] == SortTop(t[1..]);
    }
  }

  /** Placing a leaf adds exactly that leaf to the tree. */
  lemma {:induction false} PlaceLeaves(t: Level, segs: seq<string>, leaf: Leaf)
    requires WellFormed(t)
    ensures LevelLeaves(Place(t, segs, leaf)) == LevelLeaves(t) + multiset{leaf}
    decreases |segs|
  {
    if segs == [] {
      LevelLeavesSingle(Slot(Index(NextIndex(t)), Item(leaf)));
      LevelLeavesConcat(t, [Slot(Index(NextIndex(t)), Item(leaf))]);
    } else {
      var k := Name(segs[0]);
      match FindKey(t, k)
      case Some(i) =>
        assert t[i].node.Dir? && WellFormedSlot(t[i]);
        var cs := t[i].node.children;
        var sub := Place(cs, segs[1..], leaf);
        PlaceLeaves(cs, segs[1..], leaf);
        LevelLeavesUpdate(t, i, Slot(k, Dir(sub)));
        assert NodeLeaves(t[i].node) == LevelLeaves(cs);
        assert NodeLeaves(Dir(sub)) == LevelLeaves(cs) + multiset{leaf};
        var r := t[i := Slot(k, Dir(sub))];
        MultisetCancel(LevelLeaves(r), LevelLeaves(t) + multiset{leaf}, LevelLeaves(cs));
      case None =>
        var sub := Place([], segs[1..], leaf);
        PlaceLeaves([], segs[1..], leaf);
        LevelLeavesSingle(Slot(k, Dir(sub)));
        LevelLeavesConcat(t, [Slot(k, Dir(sub))]);
    }
  }

  /** Placing keeps the tree well formed. */
  lemma {:induction false} PlaceWellFormed(t: Level, segs: seq<string>, leaf: Leaf)
    requires WellFormed(t)
    ensures WellFormed(Place(t, segs, leaf))
    decreases |segs|
  {
    var r := Place(t, segs, leaf);
    if segs == [] {
      assert forall i :: 0 <= i < |t| ==> r[i] == t[i];
    } else {
      var k := Name(segs[0]);
      match FindKey(t, k)
      case Some(i) =>
        assert t[i].node.Dir? && WellFormedSlot(t[i]);
        PlaceWellFormed(t[i].node.children, segs[1..], leaf);
        assert WellFormedSlot(r[i]);
        assert forall j :: 0 <= j < |t| && j != i ==> r[j] == t[j];
      case None =>
        PlaceWellFormed([], segs[1..], leaf);
        assert WellFormedSlot(r[|t|]);
        assert forall j :: 0 <= j < |t| ==> r[j] == t[j];
    }
  }

  lemma {:induction false} FindKeyAt(t: Level, k: NavKey, i: nat)
    requires i < |t| && t[i].key == k
    requires forall j :: 0 <= j < i ==> t[j].key != k
    ensures FindKey(t, k) == Some(i)
  {
    if i > 0 {
      FindKeyAt(t[1..], k, i - 1);
    }
  }

  lemma {:induction false} LevelItemsConcat(a: Level, b: Level)
    ensures LevelItems(a + b) == LevelItems(a) + LevelItems(b)
  {
    if a != [] {
      assert (a + b)[0] == a[0];
      assert (a + b)[1..] == a[1..] + b;
      LevelItemsConcat(a[1..], b);
    } else {
      assert a + b == b;
    }
  }

  /**
   * A leaf placed under `segs` lands in the level those names lead to,
   * after the leaves already there.
   */
  lemma {:induction false} PlaceAt(t: Level, segs: seq<string>, leaf: Leaf)
    ensures LeavesAt(Place(t, segs, leaf), segs) == LeavesAt(t, segs) + [leaf]
    decreases |segs|
  {
    var r := Place(t, segs, leaf);
    if segs == [] {
      LevelItemsConcat(t, [Slot(Index(NextIndex(t)), Item(leaf))]);
    } else {
      var k := Name(segs[0]);
      match FindKey(t, k)
      case Some(i) =>
        FindKeyAt(r, k, i);
        PlaceAt(ChildrenOf(t[i].node), segs[1..], leaf);
      case None =>
        FindKeyAt(r, k, |t|);
        PlaceAt([], segs[1..], leaf);
        assert LeavesAt([], segs[1..]) == [] by {
          if segs[1..] != [] {
            assert FindKey([], Name(segs[1..][0])) == None;
          }
        }
    }
  }

  /** Building adds exactly one leaf per navigable entry and keeps the tree well formed. */
  lemma {:induction false} BuildLeaves(t: Level, es: seq<Entry>)
    requires WellFormed(t)
    requires Build(t, es).Success?
    ensures WellFormed(Build(t, es).value)
    ensures LevelLeaves(Build(t, es).value) == LevelLeaves(t) + NavigableLeaves(es)
    decreases |es|
  {
    if es != [] {
      var e := es[0];
      if IsNavigable(e) {
        var segs := Segments(GetDir(e).value);
        var leaf := LeafOf(e).value;
        PlaceLeaves(t, segs, leaf);
        PlaceWellFormed(t, segs, leaf);
        BuildLeaves(Place(t, segs, leaf), es[1..]);
      } else {
        BuildLeaves(t, es[1..]);
      }
    }
  }

  /** The tree lists exactly the leaves of the navigable entries, each once. */
  lemma ToNavigationLeaves(es: seq<Entry>)
    requires ToNavigation(es).Success?
    ensures TopLeaves(ToNavigation(es).value) == NavigableLeaves(es)
  {
    BuildLeaves([], es);
    SortTopLeaves(Build([], es).value);
  }

  /** Entries marked `navigation: false` contribute nothing. */
  lemma NonNavigableIgnored(e: Entry, es: seq<Entry>)
    requires !IsNavigable(e)
    ensures ToNavigation([e] + es) == ToNavigation(es)
  {
    assert ([e] + es)[1..] == es;
  }

  /** The top-level keys of the tree are distinct. */
  lemma NavigationKeysUnique(es: seq<Entry>)
    requires ToNavigation(es).Success?
    ensures var nav := ToNavigation(es).value;
            forall i, j :: 0 <= i < j < |nav| ==> nav[i].key != nav[j].key
  {
    BuildLeaves([], es);
  }

  /** Every child list in a node is ordered between neighbours, at every depth. */
  ghost predicate ChildrenSorted(n: NavItem)
    decreases n
  {
    match n
    case NavLeaf(_) => true
    case NavGroup(xs) =>
      Sorting.AdjacentSorted(xs, NavCmp) && forall i :: 0 <= i < |xs| ==> ChildrenSorted(xs[i])
  }

  lemma NavCmpAntisymmetric(a: NavItem, b: NavItem)
    ensures NavCmp(a, b) == -NavCmp(b, a)
  {
    StrCmpAntisymmetric(NavTitle(a), NavTitle(b));
  }

  /** After conversion every child list, at every depth, is sorted by order and title. */
  lemma {:induction false} ConvertSorted(n: Node)
    ensures ChildrenSorted(Convert(n))
    decreases n
  {
    if n.Dir? {
      forall a, b ensures NavCmp(a, b) == -NavCmp(b, a) {
        NavCmpAntisymmetric(a, b);
      }
      var xs := ConvertAll(n.children);
      Sorting.SortAdjacentSorted(xs, NavCmp);
      ConvertAllSorted(n.children);
      var s := Sorting.Sort(xs, NavCmp);
      forall i | 0 <= i < |s| ensures ChildrenSorted(s[i]) {
        assert s[i] in multiset(xs);
      }
    }
  }

  lemma {:induction false} ConvertAllSorted(cs: Level)
    ensures forall x :: x in ConvertAll(cs) ==> ChildrenSorted(x)
    decreases cs
  {
    if cs != [] {
      ConvertSlotSorted(cs[0]);
      ConvertAllSorted(cs[1..]);
    }
  }

  lemma {:induction false} ConvertSlotSorted(s: Slot)
    ensures ChildrenSorted(ConvertSlot(s))
    decreases s
  {
    ConvertSorted(s.node);
  }

  /** The top level keeps its keys in insertion order; every list beneath it is sorted. */
  lemma NavigationSorted(es: seq<Entry>)
    requires ToNavigation(es).Success?
    ensures var nav := ToNavigation(es).value;
            forall i :: 0 <= i < |nav| ==> ChildrenSorted(nav[i].item) && nav[i].key == Build([], es).value[i].key
  {
    var t := Build([], es).value;
    forall i | 0 <= i < |t| ensures ChildrenSorted(Convert(t[i].node)) {
      ConvertSorted(t[i].node);
    }
  }
}

=== FILE: content_entry.dfy ===
/**
 * One piece of content as the PHP side sees it: an immutable bag of
 * attributes taken from a manifest entry's `meta`, with null-aware lookup,
 * typed getters and the draft/navigation flags (`ContentEntry`).
 */
module ContentEntry {
  import opened Wrappers
  import opened Strings
  import opened Values
  import Assoc

  type Attributes = Assoc.Table<Value>

  /** A manifest entry as decoded by PHP: `path`, optional `meta`, `chunk`. */
  datatype ManifestEntry = ManifestEntry(path: Value, meta: Option<Attributes>, chunk: Value)

  datatype Entry = Entry(attributes: Attributes)

  /** Why an entry operation failed. */
  datatype EntryError =
    | ReturnTypeError      // a typed getter's value could not be coerced to its return type
    | Immutable            // `offsetSet` / `offsetUnset`: BadMethodCallException

  /** `ContentEntry::fromManifestEntry`: the entry's `meta`, or no attributes when it is missing. */
  function FromManifestEntry(m: ManifestEntry): (e: Entry)
    ensures m.meta.Some? ==> e.attributes == m.meta.value
    ensures m.meta.None? ==> e.attributes == []
  {
    Entry(m.meta.GetOr([]))
  }

  /** `get($key, $default)`: the stored value unless it is missing or null (`??`). */
  function Get(e: Entry, key: string, default: Value): (r: Value)
    ensures Has(e, key) ==> Assoc.Get(e.attributes, key) == Some(r)
    ensures !Has(e, key) ==> r == default
  {
    match Assoc.Get(e.attributes, key)
    case Some(v) => if v.Null? then default else v
    case None => default
  }

  /** `has($key)`: `isset`, so a key bound to null counts as absent. */
  predicate Has(e: Entry, key: string) {
    var v := Assoc.Get(e.attributes, key);
    v.Some? && !v.value.Null?
  }

  // ---------------------------------------------------------------------
  // Typed getters: PHP coerces the value to the declared return type
  // ---------------------------------------------------------------------

  /** A `string` getter with a default. */
  function StringAttr(e: Entry, key: string, default: string): (r: Result<string, EntryError>)
    ensures !Has(e, key) ==> r == Success(default)
    ensures Get(e, key, Null).Str? ==> r == Success(Get(e, key, Null).s)
    ensures r.Failure? <==> Get(e, key, Null).List?
  {
    var v := Get(e, key, Str(default));
    match ToPhpString(v)
    case Some(s) => Success(s)
    case None => Failure(ReturnTypeError)
  }

  /** A `?string` getter. */
  function NullableStringAttr(e: Entry, key: string): (r: Result<Option<string>, EntryError>)
    ensures !Has(e, key) ==> r == Success(None)
    ensures Get(e, key, Null).Str? ==> r == Success(Some(Get(e, key, Null).s))
    ensures r.Failure? <==> Get(e, key, Null).List?
  {
    var v := Get(e, key, Null);
    if v.Null? then Success(None)
    else match ToPhpString(v)
      case Some(s) => Success(Some(s))
      case None => Failure(ReturnTypeError)
  }

  /** A `?int` getter: booleans become 0/1 and integer strings their value. */
  function NullableIntAttr(e: Entry, key: string): (r: Result<Option<int>, EntryError>)
    ensures !Has(e, key) ==> r == Success(None)
    ensures Get(e, key, Null).Int? ==> r == Success(Some(Get(e, key, Null).i))
    ensures r.Failure? ==> Get(e, key, Null).List? || Get(e, key, Null).Str?
  {
    match Get(e, key, Null)
    case Null => Success(None)
    case Bool(b) => Success(Some(if b then 1 else 0))
    case Int(i) => Success(Some(i))
    case Str(s) => if ParseInt(s).Some? then Success(Some(ParseInt(s).value)) else Failure(ReturnTypeError)
    case List(_) => Failure(ReturnTypeError)
  }

  function GetId(e: Entry): Result<string, EntryError> { StringAttr(e, "_id", "") }
  function GetPath(e: Entry): Result<string, EntryError> { StringAttr(e, "_path", "") }
  function GetSlug(e: Entry): Result<string, EntryError> { StringAttr(e, "_slug", "") }
  function GetDir(e: Entry): Result<string, EntryError> { StringAttr(e, "_dir", "") }
  function GetFile(e: Entry): Result<string, EntryError> { StringAttr(e, "_file", "") }
  function GetExtension(e: Entry): Result<string, EntryError> { StringAttr(e, "_extension", "md") }
  function GetTitle(e: Entry): Result<string, EntryError> { StringAttr(e, "title", "") }
  function GetHash(e: Entry): Result<string, EntryError> { StringAttr(e, "_hash", "") }
  function GetDescription(e: Entry): Result<Option<string>, EntryError> { NullableStringAttr(e, "description") }
  function GetExcerpt(e: Entry): Result<Option<string>, EntryError> { NullableStringAttr(e, "_excerpt") }
  function GetOrder(e: Entry): Result<Option<int>, EntryError> { NullableIntAttr(e, "order") }
  function GetCreatedAt(e: Entry): Result<Option<int>, EntryError> { NullableIntAttr(e, "_createdAt") }
  function GetUpdatedAt(e: Entry): Result<Option<int>, EntryError> { NullableIntAttr(e, "_updatedAt") }

  /** `getHeadings(): array`: the stored list, `[]` when missing; any other value fails the return type. */
  function GetHeadings(e: Entry): (r: Result<seq<Value>, EntryError>)
    ensures !Has(e, "_headings") ==> r == Success([])
    ensures r.Success? <==> Get(e, "_headings", List([])).List?
  {
    match Get(e, "_headings", List([]))
    case List(hs) => Success(hs)
    case _ => Failure(ReturnTypeError)
  }

  /** `isDraft()`: `draft` is exactly `true`. */
  predicate IsDraft(e: Entry) {
    Get(e, "draft", Bool(false)) == Bool(true)
  }

  /** `isNavigable()`: `navigation` is anything but exactly `false`. */
  predicate IsNavigable(e: Entry) {
    Get(e, "navigation", Bool(true)) != Bool(false)
  }

  /** `toInertiaProps()`: the content key and every attribute. */
  datatype InertiaProps = InertiaProps(contentKey: string, contentMeta: Attributes)

  function ToInertiaProps(e: Entry): (r: Result<InertiaProps, EntryError>)
    ensures r.Success? <==> GetPath(e).Success?
    ensures r.Success? ==> r.value.contentKey == GetPath(e).value && r.value.contentMeta == e.attributes
  {
    var key :- GetPath(e);
    Success(InertiaProps(key, e.attributes))
  }

  /** `offsetSet`: entries are immutable, so assignment always throws. */
  function OffsetSet(e: Entry, key: string, v: Value): (r: Result<Entry, EntryError>)
    ensures r == Failure(Immutable)
  {
    Failure(Immutable)
  }

  /** `offsetUnset`: always throws. */
  function OffsetUnset(e: Entry, key: string): (r: Result<Entry, EntryError>)
    ensures r == Failure(Immutable)
  {
    Failure(Immutable)
  }

  // ---------------------------------------------------------------------
  // Lemmas
  // ---------------------------------------------------------------------

  /** `has` is false exactly when `get` falls back to its default, for every default. */
  lemma HasIffGetStored(e: Entry, key: string)
    ensures Has(e, key) <==> Get(e, key, Null) != Null
    ensures !Has(e, key) <==> (forall d :: Get(e, key, d) == d)
  {
    if Has(e, key) {
      var v := Get(e, key, Null);
      assert Get(e, key, Bool(v.Null?)) == v;
    }
  }

  /** A draft is an entry whose stored `draft` is the boolean `true`; `1` or `"true"` are not drafts. */
  lemma IsDraftIff(e: Entry)
    ensures IsDraft(e) <==> Assoc.Get(e.attributes, "draft") == Some(Bool(true))
  {
  }

  /** Only a stored boolean `false` hides an entry from navigation; missing or null keeps it. */
  lemma IsNavigableIff(e: Entry)
    ensures !IsNavigable(e) <==> Assoc.Get(e.attributes, "navigation") == Some(Bool(false))
  {
  }

  /** The string getters default to `''`, the extension to `'md'`. */
  lemma GetterDefaults(e: Entry)
    requires e.attributes == []
    ensures GetId(e) == Success("") && GetPath(e) == Success("") && GetSlug(e) == Success("")
    ensures GetDir(e) == Success("") && GetFile(e) == Success("") && GetTitle(e) == Success("")
    ensures GetHash(e) == Success("") && GetExtension(e) == Success("md")
    ensures GetDescription(e) == Success(None) && GetOrder(e) == Success(None)
    ensures GetHeadings(e) == Success([])
  {
  }

  /** Every entry built from a manifest entry reads back its `meta` through `get`. */
  lemma FromManifestEntryGet(m: ManifestEntry, key: string, v: Value)
    requires m.meta.Some? && Assoc.UniqueKeys(m.meta.value)
    requires (key, v) in m.meta.value && !v.Null?
    ensures Get(FromManifestEntry(m), key, Null) == v
  {
    Assoc.GetMember(m.meta.value, key, v);
  }
}

=== FILE: content_manager.dfy ===
/**
 * The lookup facade (`ContentManager`): resolve a request path, look the
 * entry up in the manifest, hide drafts unless configured otherwise, and
 * the canned navigation query. The `show_drafts` setting is a field.
 */
module ContentManager {
  import opened Wrappers
  import opened Values
  import opened ContentEntry
  import Assoc
  import PathResolver
  import ContentCache
  import ManifestLoader
  import ContentQuery
  import ContentCollection

  datatype Manager = Manager(loader: ManifestLoader.Loader, cache: ManifestLoader.Cache, showDrafts: bool)

  datatype ManagerError =
    | LoadFailed(error: ManifestLoader.LoadError)
    | ContentNotFound(path: string)           // ContentNotFoundException, a 404

  /** The outcome of a call together with the state it leaves behind. */
  datatype Outcome<T> = Outcome(manager: Manager, result: Result<T, ManagerError>)

  function WithStep<T>(m: Manager, s: ManifestLoader.Step<T>): (o: Outcome<T>)
    ensures o.manager == m.(loader := s.loader, cache := s.cache)
    ensures s.result.Success? ==> o.result == Success(s.result.value)
    ensures s.result.Failure? ==> o.result == Failure(LoadFailed(s.result.error))
  {
    var m' := m.(loader := s.loader, cache := s.cache);
    match s.result
    case Success(v) => Outcome(m', Success(v))
    case Failure(e) => Outcome(m', Failure(LoadFailed(e)))
  }

  /** `find($path)`. */
  function Find(m: Manager, env: ManifestLoader.Env, path: string): (o: Outcome<Option<Entry>>)
    ensures PathResolver.Resolve(path).None? ==> o == Outcome(m, Success(None))
    ensures o.result.Success? && o.result.value.Some? ==>
              PathResolver.Resolve(path).Some? && (m.showDrafts || !IsDraft(o.result.value.value))
  {
    match PathResolver.Resolve(path)
    case None => Outcome(m, Success(None))
    case Some(key) =>
      var g := ManifestLoader.GetEntry(m.loader, m.cache, env, key);
      var m' := m.(loader := g.loader, cache := g.cache);
      match g.result
      case Failure(e) => Outcome(m', Failure(LoadFailed(e)))
      case Success(None) => Outcome(m', Success(None))
      case Success(Some(me)) =>
        var e := FromManifestEntry(me);
        if IsDraft(e) && !m.showDrafts then Outcome(m', Success(None))
        else Outcome(m', Success(Some(e)))
  }

  /** `findOrFail($path)`: `find`, with a missing entry turned into a not-found error. */
  function FindOrFail(m: Manager, env: ManifestLoader.Env, path: string): (o: Outcome<Entry>)
    ensures o.manager == Find(m, env, path).manager
    ensures o.result == Failure(ContentNotFound(path)) <==> Find(m, env, path).result == Success(None)
    ensures o.result.Success? <==> Find(m, env, path).result.Success? && Find(m, env, path).result.value.Some?
    ensures o.result.Success? ==> Find(m, env, path).result == Success(Some(o.result.value))
  {
    var f := Find(m, env, path);
    match f.result
    case Failure(e) => Outcome(f.manager, Failure(e))
    case Success(None) => Outcome(f.manager, Failure(ContentNotFound(path)))
    case Success(Some(e)) => Outcome(f.manager, Success(e))
  }

  /** `exists($path)`: `find($path) !== null`. */
  function Exists(m: Manager, env: ManifestLoader.Env, path: string): (o: Outcome<bool>)
    ensures o.manager == Find(m, env, path).manager
    ensures o.result.Success? <==> Find(m, env, path).result.Success?
    ensures o.result.Success? ==> (o.result.value <==> Find(m, env, path).result.value.Some?)
  {
    var f := Find(m, env, path);
    match f.result
    case Failure(e) => Outcome(f.manager, Failure(e))
    case Success(r) => Outcome(f.manager, Success(r.Some?))
  }

  /** `query()`: a fresh builder carrying the draft setting. */
  function Query(m: Manager): (q: ContentQuery.Query)
    ensures q.wheres == [] && q.orders == [] && q.limit.None? && q.skip.None?
    ensures q.showDrafts == m.showDrafts
  {
    ContentQuery.NewQuery(m.showDrafts)
  }

  /** The directory clause `navigation($dir)` adds, if any, then the two sort keys. */
  function NavigationOrdering(q: ContentQuery.Query, dir: Option<string>): (r: ContentQuery.Query)
    ensures r.showDrafts == q.showDrafts
    ensures r.orders == q.orders + [ContentQuery.Order("order", "asc"), ContentQuery.Order("title", "asc")]
    ensures dir.None? ==> r.wheres == q.wheres
    ensures dir.Some? ==> r.wheres == q.wheres + [ContentQuery.Clause("_dir", Str("startsWith"), Str(dir.value))]
  {
    var q1 := ContentQuery.OrderBy(ContentQuery.OrderBy(q, "order", "asc"), "title", "asc");
    if dir.Some? then ContentQuery.Where(q1, "_dir", Str("startsWith"), Str(dir.value)) else q1
  }

  /** The query `navigation($dir)` runs as written: first `navigation != false` (loose). */
  function NavigationQueryAsWritten(m: Manager, dir: Option<string>): (q: ContentQuery.Query)
    ensures q.showDrafts == m.showDrafts
    ensures |q.wheres| >= 1 && q.wheres[0] == ContentQuery.Clause("navigation", Str("!="), Bool(false))
  {
    NavigationOrdering(ContentQuery.Where(Query(m), "navigation", Str("!="), Bool(false)), dir)
  }

  /** The navigation query as intended: `toNavigation` already skips entries that are not navigable. */
  function NavigationQuery(m: Manager, dir: Option<string>): (q: ContentQuery.Query)
    ensures q.showDrafts == m.showDrafts
    ensures dir.None? ==> q.wheres == []
    ensures dir.Some? ==> q.wheres == [ContentQuery.Clause("_dir", Str("startsWith"), Str(dir.value))]
  {
    NavigationOrdering(Query(m), dir)
  }

  /** Run a query and fold its entries into the navigation tree. */
  function Fold(m: Manager, env: ManifestLoader.Env, q: ContentQuery.Query): (o: Outcome<seq<ContentCollection.TopSlot>>)
    ensures var g := ContentQuery.GetEntries(q, m.loader, m.cache, env);
            o.manager == m.(loader := g.loader, cache := g.cache) &&
            (o.result.Success? <==> g.result.Success? && ContentCollection.ToNavigation(g.result.value).Success?) &&
            (o.result.Success? ==> o.result.value == ContentCollection.ToNavigation(g.result.value).value)
  {
    var g := ContentQuery.GetEntries(q, m.loader, m.cache, env);
    var m' := m.(loader := g.loader, cache := g.cache);
    match g.result
    case Failure(e) => Outcome(m', Failure(LoadFailed(e)))
    case Success(es) =>
      match ContentCollection.ToNavigation(es)
      case Success(nav) => Outcome(m', Success(nav))
      case Failure(_) => Outcome(m', Failure(LoadFailed(ManifestLoader.LoadError.TypeError)))
  }

  /**
   * `navigation($dir)` as written: the entries of the navigation query,
   * folded into the tree; a failed load or a malformed entry fails the call.
   */
  function NavigationAsWritten(m: Manager, env: ManifestLoader.Env, dir: Option<string>): (o: Outcome<seq<ContentCollection.TopSlot>>)
    ensures var g := ContentQuery.GetEntries(NavigationQueryAsWritten(m, dir), m.loader, m.cache, env);
            o.manager == m.(loader := g.loader, cache := g.cache) &&
            (o.result.Success? <==> g.result.Success? && ContentCollection.ToNavigation(g.result.value).Success?) &&
            (o.result.Success? ==> o.result.value == ContentCollection.ToNavigation(g.result.value).value)
  {
    Fold(m, env, NavigationQueryAsWritten(m, dir))
  }

  /** `navigation($dir)` as intended: the same fold over the query without the loose `navigation` clause. */
  function Navigation(m: Manager, env: ManifestLoader.Env, dir: Option<string>): (o: Outcome<seq<ContentCollection.TopSlot>>)
    ensures var g := ContentQuery.GetEntries(NavigationQuery(m, dir), m.loader, m.cache, env);
            o.manager == m.(loader := g.loader, cache := g.cache) &&
            (o.result.Success? <==> g.result.Success? && ContentCollection.ToNavigation(g.result.value).Success?) &&
            (o.result.Success? ==> o.result.value == ContentCollection.ToNavigation(g.result.value).value)
  {
    Fold(m, env, NavigationQuery(m, dir))
  }

  /** `clearCache()`: reset the loader, then flush the whole cache store. */
  function ClearCache(m: Manager): (m': Manager)
    ensures m'.loader.memo.None?
    ensures forall k :: ContentCache.Get(m'.cache, k).None?
    ensures m'.showDrafts == m.showDrafts
  {
    var r := ManifestLoader.ClearCache(m.loader, m.cache);
    m.(loader := r.0, cache := ContentCache.Flush(r.1))
  }

  /** `getVersion()`: the loader's version. */
  function GetVersion(m: Manager, env: ManifestLoader.Env): (o: Outcome<string>)
    ensures o == WithStep(m, ManifestLoader.GetVersion(m.loader, m.cache, env))
  {
    WithStep(m, ManifestLoader.GetVersion(m.loader, m.cache, env))
  }

  // ---------------------------------------------------------------------
  // Lemmas
  // ---------------------------------------------------------------------

  /** A path with `..` in it is never looked up: the answer is null and nothing is loaded. */
  lemma FindRejectsTraversal(m: Manager, env: ManifestLoader.Env, path: string)
    requires Strings.Contains(path, "..")
    ensures Find(m, env, path) == Outcome(m, Success(None))
  {
    PathResolver.ResolveRejectsDots(path);
  }

  /** `find` is null exactly when the resolved key is missing or the entry is a hidden draft. */
  lemma FindSpec(m: Manager, env: ManifestLoader.Env, path: string)
    requires PathResolver.Resolve(path).Some?
    requires ManifestLoader.Load(m.loader, m.cache, env).result.Success?
    ensures var key := PathResolver.Resolve(path).value;
            var doc := ManifestLoader.Load(m.loader, m.cache, env).result.value;
            var stored := Assoc.Get(ManifestLoader.Rows(doc), key);
            && Find(m, env, path).result.Success?
            && (Find(m, env, path).result.value.None? <==>
                  stored.None? || (IsDraft(FromManifestEntry(stored.value)) && !m.showDrafts))
            && (Find(m, env, path).result.value.Some? ==>
                  Find(m, env, path).result.value.value == FromManifestEntry(stored.value))
  {
  }

  /** `exists` agrees with `findOrFail` succeeding. */
  lemma ExistsIffFindOrFail(m: Manager, env: ManifestLoader.Env, path: string)
    requires Exists(m, env, path).result.Success?
    ensures Exists(m, env, path).result.value <==> FindOrFail(m, env, path).result.Success?
  {
  }

  /** Drafts are visible exactly when the manager is configured to show them. */
  lemma DraftVisibility(m: Manager, env: ManifestLoader.Env, path: string)
    requires PathResolver.Resolve(path).Some?
    requires ManifestLoader.Load(m.loader, m.cache, env).result.Success?
    requires var doc := ManifestLoader.Load(m.loader, m.cache, env).result.value;
             var stored := Assoc.Get(ManifestLoader.Rows(doc), PathResolver.Resolve(path).value);
             stored.Some? && IsDraft(FromManifestEntry(stored.value))
    ensures Exists(m, env, path).result == Success(m.showDrafts)
  {
  }

  /**
   * As written, `navigation()` drops every entry that has no `navigation`
   * attribute, although such an entry is navigable: PHP's loose `null !=
   * false` is false.
   */
  lemma NavigationDropsUnset(m: Manager, dir: Option<string>, e: Entry)
    requires Assoc.Get(e.attributes, "navigation").None?
    ensures IsNavigable(e)
    ensures !ContentQuery.Admitted(NavigationQueryAsWritten(m, dir), e)
  {
    var q := NavigationQueryAsWritten(m, dir);
    assert ContentQuery.Match(e, q.wheres[0]) == Success(false);
  }

  /** Under the intended query every navigable entry in the directory is admitted, set or not. */
  lemma NavigationAdmitsNavigable(m: Manager, e: Entry)
    requires m.showDrafts || !IsDraft(e)
    ensures ContentQuery.Admitted(NavigationQuery(m, None), e)
  {
  }

  /** The as-written and intended navigation agree on entries that set `navigation: true`. */
  lemma NavigationAgreesWhenSet(m: Manager, dir: Option<string>, e: Entry)
    requires Assoc.Get(e.attributes, "navigation") == Some(Bool(true))
    ensures ContentQuery.Admitted(NavigationQueryAsWritten(m, dir), e) <==>
            ContentQuery.Admitted(NavigationQuery(m, dir), e)
  {
    var qi := NavigationQuery(m, dir);
    var c := ContentQuery.Clause("navigation", Str("!="), Bool(false));
    AsWrittenWheres(m, dir);
    NavigationClausePasses(e);
    ContentQuery.MatchesAllCons(e, c, qi.wheres);
  }

  /** The as-written query is the intended one with `navigation != false` in front. */
  lemma AsWrittenWheres(m: Manager, dir: Option<string>)
    ensures NavigationQueryAsWritten(m, dir).showDrafts == NavigationQuery(m, dir).showDrafts
    ensures NavigationQueryAsWritten(m, dir).wheres
         == [ContentQuery.Clause("navigation", Str("!="), Bool(false))] + NavigationQuery(m, dir).wheres
  {
    var c := ContentQuery.Clause("navigation", Str("!="), Bool(false));
    var base := ContentQuery.Where(Query(m), "navigation", Str("!="), Bool(false));
    assert base.wheres == [c];
  }

  lemma NavigationClausePasses(e: Entry)
    requires Assoc.Get(e.attributes, "navigation") == Some(Bool(true))
    ensures ContentQuery.Match(e, ContentQuery.Clause("navigation", Str("!="), Bool(false))) == Success(true)
  {
  }

  /** After `clearCache` the next lookup reloads the manifest from the file. */
  lemma ClearCacheForcesReload(m: Manager, env: ManifestLoader.Env)
    ensures var m' := ClearCache(m);
            ManifestLoader.Load(m'.loader, m'.cache, env) ==
            ManifestLoader.Load(ManifestLoader.Loader(None), m'.cache, env)
    ensures var m' := ClearCache(m);
            ContentCache.Get(m'.cache, ManifestLoader.CacheKey).None?
  {
  }
}

=== FILE: content_query.dfy ===
/**
 * The immutable query builder over the manifest's entries and its
 * execution pipeline (`ContentQuery`): draft filter, where clauses,
 * multi-key ordering with PHP's `<=>`, then `array_slice` paging.
 */
module ContentQuery {
  import opened Wrappers
  import opened Strings
  import opened Values
  import opened ContentEntry
  import Assoc
  import Sorting
  import Seqs
  import ManifestLoader
  import ContentCollection

  type QueryError = ManifestLoader.LoadError

  /** One where clause; `operator` is whatever the caller passed. */
  datatype Clause = Clause(field: string, operator: Value, value: Value)

  datatype Order = Order(field: string, direction: string)

  /**
   * The builder state. `only` and `without` are recorded but no step of the
   * execution reads them.
   */
  datatype Query = Query(
    wheres: seq<Clause>,
    orders: seq<Order>,
    limit: Option<int>,
    skip: Option<int>,
    only: seq<string>,
    without: seq<string>,
    showDrafts: bool)

  function NewQuery(showDrafts: bool): (q: Query)
    ensures q.wheres == [] && q.orders == [] && q.limit.None? && q.skip.None?
    ensures q.showDrafts == showDrafts
  {
    Query([], [], None, None, [], [], showDrafts)
  }

  // ---------------------------------------------------------------------
  // Builder: every call returns a modified copy
  // ---------------------------------------------------------------------

  /**
   * `where($field, $operatorOrValue, $value = null)`: with no (or a null)
   * third argument the second is the value and the operator is `=`.
   */
  function Where(q: Query, field: string, operatorOrValue: Value, value: Value): (r: Query)
    ensures r == q.(wheres := r.wheres)
    ensures |r.wheres| == |q.wheres| + 1 && r.wheres[..|q.wheres|] == q.wheres
    ensures value.Null? ==> r.wheres[|q.wheres|] == Clause(field, Str("="), operatorOrValue)
    ensures !value.Null? ==> r.wheres[|q.wheres|] == Clause(field, operatorOrValue, value)
  {
    if value.Null? then q.(wheres := q.wheres + [Clause(field, Str("="), operatorOrValue)])
    else q.(wheres := q.wheres + [Clause(field, operatorOrValue, value)])
  }

  function WhereIn(q: Query, field: string, values: seq<Value>): (r: Query)
    ensures r == q.(wheres := q.wheres + [Clause(field, Str("in"), List(values))])
  {
    q.(wheres := q.wheres + [Clause(field, Str("in"), List(values))])
  }

  /** `whereNot` as written: it forwards to `where`, which reads a null value as "no operator given". */
  function WhereNotAsWritten(q: Query, field: string, value: Value): (r: Query)
    ensures r == q.(wheres := r.wheres)
    ensures !value.Null? ==> r.wheres == q.wheres + [Clause(field, Str("!="), value)]
    ensures value.Null? ==> r.wheres == q.wheres + [Clause(field, Str("="), Str("!="))]
  {
    Where(q, field, Str("!="), value)
  }

  /** `whereNot` as intended: a `!=` clause for every value, null included. */
  function WhereNot(q: Query, field: string, value: Value): (r: Query)
    ensures r == q.(wheres := q.wheres + [Clause(field, Str("!="), value)])
    ensures !value.Null? ==> r == WhereNotAsWritten(q, field, value)
  {
    q.(wheres := q.wheres + [Clause(field, Str("!="), value)])
  }

  function Only(q: Query, fields: seq<string>): (r: Query)
    ensures r == q.(only := fields)
  {
    q.(only := fields)
  }

  function Without(q: Query, fields: seq<string>): (r: Query)
    ensures r == q.(without := fields)
  {
    q.(without := fields)
  }

  /** `orderBy($field, $direction = 'asc')`: appended, so earlier keys take precedence. */
  function OrderBy(q: Query, field: string, direction: string): (r: Query)
    ensures r == q.(orders := q.orders + [Order(field, direction)])
  {
    q.(orders := q.orders + [Order(field, direction)])
  }

  function Limit(q: Query, n: int): (r: Query)
    ensures r == q.(limit := Some(n))
  {
    q.(limit := Some(n))
  }

  function Skip(q: Query, n: int): (r: Query)
    ensures r == q.(skip := Some(n))
  {
    q.(skip := Some(n))
  }

  // ---------------------------------------------------------------------
  // Matching
  // ---------------------------------------------------------------------

  /**
   * `matchesWhere`: the operator is selected by strict comparison, the
   * comparison operators are PHP's loose ones, `in` needs an array, and the
   * three string operators require a string on the entry side and coerce the
   * clause value to a string. An unknown operator matches nothing.
   */
  function Match(e: Entry, w: Clause): (r: Result<bool, QueryError>)
    ensures r.Failure? ==> w.operator == Str("in") || w.value.List?
    ensures w.operator == Str("=") ==> r == Success(LooseEq(Get(e, w.field, Null), w.value))
    ensures w.operator == Str("!=") ==> r == Success(!LooseEq(Get(e, w.field, Null), w.value))
    ensures w.operator == Str("in") ==> (r.Success? <==> w.value.List?)
    ensures !w.operator.Str? ==> r == Success(false)
  {
    var v := Get(e, w.field, Null);
    var op := w.operator;
    if op == Str("=") then Success(LooseEq(v, w.value))
    else if op == Str("!=") then Success(!LooseEq(v, w.value))
    else if op == Str(">") then Success(Compare(v, w.value) > 0)
    else if op == Str("<") then Success(Compare(v, w.value) < 0)
    else if op == Str(">=") then Success(Compare(v, w.value) >= 0)
    else if op == Str("<=") then Success(Compare(v, w.value) <= 0)
    else if op == Str("in") then
      if w.value.List? then Success(InArray(v, w.value.items)) else Failure(ManifestLoader.LoadError.TypeError)
    else if op == Str("contains") || op == Str("startsWith") || op == Str("endsWith") then
      if !v.Str? then Success(false)
      else match ToPhpString(w.value)
        case None => Failure(ManifestLoader.LoadError.TypeError)
        case Some(needle) =>
          Success(if op == Str("contains") then Contains(v.s, needle)
                  else if op == Str("startsWith") then StartsWith(v.s, needle)
                  else EndsWith(v.s, needle))
    else Success(false)
  }

  /** `matchesWheres`: the clauses in order, stopping at the first that does not match. */
  function MatchesAll(e: Entry, ws: seq<Clause>): (r: Result<bool, QueryError>)
    ensures r == Success(true) <==> forall i :: 0 <= i < |ws| ==> Match(e, ws[i]) == Success(true)
    ensures r.Failure? ==> exists i :: 0 <= i < |ws| && Match(e, ws[i]).Failure?
  {
    if ws == [] then Success(true)
    else
      var m :- Match(e, ws[0]);
      if !m then Success(false)
      else
        var rest := MatchesAll(e, ws[1..]);
        assert forall i :: 1 <= i < |ws| ==> ws[i] == ws[1..][i - 1];
        rest
  }

  /** A clause the entry passes can be dropped from the front of a conjunction. */
  lemma MatchesAllCons(e: Entry, c: Clause, ws: seq<Clause>)
    requires Match(e, c) == Success(true)
    ensures MatchesAll(e, [c] + ws) == MatchesAll(e, ws)
  {
    Seqs.ConsTail(c, ws);
  }

  /** An entry survives the filtering stage. */
  predicate Admitted(q: Query, e: Entry) {
    (q.showDrafts || !IsDraft(e)) && MatchesAll(e, q.wheres) == Success(true)
  }

  /** Evaluating the clauses on an entry that is not skipped as a draft raises an error. */
  predicate Raises(q: Query, e: Entry) {
    (q.showDrafts || !IsDraft(e)) && MatchesAll(e, q.wheres).Failure?
  }

  // ---------------------------------------------------------------------
  // Execution
  // ---------------------------------------------------------------------

  /** The `foreach` of `executeQuery`: build each entry, drop drafts, keep the matching ones. */
  function Filter(q: Query, rows: seq<ManifestEntry>): (r: Result<seq<Entry>, QueryError>)
    ensures r.Success? ==> |r.value| <= |rows|
    ensures r.Success? ==> forall e :: e in r.value ==> Admitted(q, e)
    ensures r.Success? ==> forall i :: 0 <= i < |rows| && Admitted(q, FromManifestEntry(rows[i])) ==>
                             FromManifestEntry(rows[i]) in r.value
    ensures r.Failure? <==> exists i :: 0 <= i < |rows| && Raises(q, FromManifestEntry(rows[i]))
  {
    if rows == [] then Success([])
    else
      var e := FromManifestEntry(rows[0]);
      assert forall i :: 1 <= i < |rows| ==> rows[i] == rows[1..][i - 1];
      if !q.showDrafts && IsDraft(e) then Filter(q, rows[1..])
      else match MatchesAll(e, q.wheres)
        case Failure(err) => Failure(err)
        case Success(m) =>
          var tail := Filter(q, rows[1..]);
          match tail
          case Failure(err) => Failure(err)
          case Success(rest) => Success(if m then [e] + rest else rest)
  }

  /** The entries the rows describe, in manifest order. */
  function EntriesOf(rows: seq<ManifestEntry>): (r: seq<Entry>)
    ensures |r| == |rows| && forall i :: 0 <= i < |rows| ==> r[i] == FromManifestEntry(rows[i])
  {
    if rows == [] then []
    else
      assert forall i :: 1 <= i < |rows| ==> rows[i] == rows[1..][i - 1];
      [FromManifestEntry(rows[0])] + EntriesOf(rows[1..])
  }

  /** `Admitted` for a fixed query, as a filter condition. */
  function AdmittedOf(q: Query): Entry -> bool {
    e => Admitted(q, e)
  }

  /**
   * A successful filter is exactly the admitted entries in manifest order:
   * nothing is reordered, repeated or dropped beyond the non-admitted ones.
   */
  lemma {:induction false} FilterIsSubsequence(q: Query, rows: seq<ManifestEntry>)
    requires Filter(q, rows).Success?
    ensures Filter(q, rows).value == Seqs.FilterSeq(EntriesOf(rows), AdmittedOf(q))
  {
    if rows != [] {
      Seqs.ConsTail(FromManifestEntry(rows[0]), EntriesOf(rows[1..]));
      var e := FromManifestEntry(rows[0]);
      if q.showDrafts || !IsDraft(e) {
        assert Filter(q, rows[1..]).Success?;
      }
      FilterIsSubsequence(q, rows[1..]);
    }
  }

  /** The row values of an entries table, in manifest order. */
  function RowValues(t: Assoc.Table<ManifestEntry>): (r: seq<ManifestEntry>)
    ensures |r| == |t| && forall i :: 0 <= i < |t| ==> r[i] == t[i].1
  {
    seq(|t|, i requires 0 <= i < |t| => t[i].1)
  }

  /** One ordering key's comparison; `desc` in any letter case reverses it. */
  function KeyCmp(o: Order, a: Entry, b: Entry): (r: int)
    ensures -1 <= r <= 1
  {
    var c := Compare(Get(a, o.field, Null), Get(b, o.field, Null));
    if Lower(o.direction) == "desc" then -c else c
  }

  /** The `usort` callback: the first key that does not tie decides. */
  function OrderCmp(orders: seq<Order>, a: Entry, b: Entry): (r: int)
    ensures -1 <= r <= 1
    ensures orders == [] ==> r == 0
  {
    if orders == [] then 0
    else
      var c := KeyCmp(orders[0], a, b);
      if c != 0 then c else OrderCmp(orders[1..], a, b)
  }

  /** `applyOrdering`: untouched without keys, otherwise a stable sort by `OrderCmp`. */
  function Ordered(q: Query, es: seq<Entry>): (r: seq<Entry>)
    ensures multiset(r) == multiset(es)
    ensures q.orders == [] ==> r == es
  {
    if q.orders == [] then es else Sorting.Sort(es, OrderCmpOf(q.orders))
  }

  /** The comparator `applyOrdering` hands to `usort` for the given keys. */
  function OrderCmpOf(orders: seq<Order>): (Entry, Entry) -> int {
    (a, b) => OrderCmp(orders, a, b)
  }

  /** The bounds `array_slice` computes: a negative offset counts from the end, a negative length stops short of it. */
  function SliceBounds(n: nat, offset: int, length: Option<int>): (b: (nat, nat))
    ensures b.0 <= b.1 <= n
  {
    if offset > n then (n, n)
    else
      var start := if offset < 0 then (if n + offset < 0 then 0 else n + offset) else offset;
      var len := match length
        case None => n - start
        case Some(l) => if l < 0 then n - start + l else if start + l > n then n - start else l;
      if len <= 0 then (start, start) else (start, start + len)
  }

  /** `array_slice($xs, $offset, $length)` on a list. */
  function ArraySlice<T>(xs: seq<T>, offset: int, length: Option<int>): (r: seq<T>)
    ensures |r| <= |xs|
    ensures forall x :: x in r ==> x in xs
    ensures 0 <= offset && length.None? ==> r == xs[if offset <= |xs| then offset else |xs|..]
    ensures 0 <= offset && length.Some? && 0 <= length.value && offset <= |xs| ==>
              r == xs[offset..if offset + length.value <= |xs| then offset + length.value else |xs|]
    ensures offset < 0 && -offset <= |xs| && length.None? ==> r == xs[|xs| + offset..]
    ensures length.Some? && length.value < 0 && 0 <= offset && offset - length.value <= |xs| ==>
              r == xs[offset..|xs| + length.value]
  {
    var b := SliceBounds(|xs|, offset, length);
    xs[b.0..b.1]
  }

  /** Skip, then limit. */
  function Page(q: Query, es: seq<Entry>): (r: seq<Entry>)
    ensures q.skip.None? && q.limit.None? ==> r == es
    ensures q.limit.Some? && q.limit.value >= 0 ==> |r| <= q.limit.value
    ensures forall e :: e in r ==> e in es
  {
    var skipped := if q.skip.Some? then ArraySlice(es, q.skip.value, None) else es;
    if q.limit.Some? then ArraySlice(skipped, 0, Some(q.limit.value)) else skipped
  }

  /** Ordering and paging only drop or move entries. */
  lemma PipelineKeeps(q: Query, kept: seq<Entry>)
    ensures forall e :: e in Page(q, Ordered(q, kept)) ==> e in kept
  {
    forall e | e in Page(q, Ordered(q, kept)) ensures e in kept {
      assert e in Ordered(q, kept);
      assert e in multiset(Ordered(q, kept));
    }
  }

  /** `executeQuery` on a loaded manifest. */
  function Execute(q: Query, doc: ManifestLoader.ManifestDoc): (r: Result<seq<Entry>, QueryError>)
    ensures r.Success? <==> Filter(q, RowValues(ManifestLoader.Rows(doc))).Success?
    ensures r.Success? ==> forall e :: e in r.value ==> Admitted(q, e)
    ensures r.Success? ==>
              r.value == Page(q, Ordered(q, Seqs.FilterSeq(EntriesOf(RowValues(ManifestLoader.Rows(doc))), AdmittedOf(q))))
    ensures r.Success? && q.orders == [] && q.skip.None? && q.limit.None? ==>
              r.value == Seqs.FilterSeq(EntriesOf(RowValues(ManifestLoader.Rows(doc))), AdmittedOf(q))
  {
    var kept :- Filter(q, RowValues(ManifestLoader.Rows(doc)));
    FilterIsSubsequence(q, RowValues(ManifestLoader.Rows(doc)));
    PipelineKeeps(q, kept);
    Success(Page(q, Ordered(q, kept)))
  }

  /** `get()`: the entries of the executed query. */
  function GetEntries(q: Query, l: ManifestLoader.Loader, c: ManifestLoader.Cache, env: ManifestLoader.Env)
    : (s: ManifestLoader.Step<seq<Entry>>)
    ensures var ld := ManifestLoader.Load(l, c, env);
            s.loader == ld.loader && s.cache == ld.cache &&
            (ld.result.Failure? ==> s.result == Failure(ld.result.error)) &&
            (ld.result.Success? ==> s.result == Execute(q, ld.result.value))
  {
    var ld := ManifestLoader.Load(l, c, env);
    match ld.result
    case Failure(err) => ManifestLoader.Step(ld.loader, ld.cache, Failure(err))
    case Success(doc) => ManifestLoader.Step(ld.loader, ld.cache, Execute(q, doc))
  }

  /** `first()`: the first entry of the query limited to one result. */
  function First(q: Query, doc: ManifestLoader.ManifestDoc): (r: Result<Option<Entry>, QueryError>)
    ensures r.Success? <==> Execute(q, doc).Success?
  {
    var es :- Execute(Limit(q, 1), doc);
    Success(if es == [] then None else Some(es[0]))
  }

  /** `count()`: the number of entries after paging. */
  function Count(q: Query, doc: ManifestLoader.ManifestDoc): (r: Result<nat, QueryError>)
    ensures r.Success? <==> Execute(q, doc).Success?
    ensures r.Success? ==> r.value == |Execute(q, doc).value|
  {
    var es :- Execute(q, doc);
    Success(|es|)
  }

  /** `paths()`: `getPath()` of every entry, in result order. */
  function Paths(q: Query, doc: ManifestLoader.ManifestDoc): (r: Result<seq<string>, QueryError>)
    ensures r.Failure? <==> Execute(q, doc).Failure? || ContentCollection.Paths(Execute(q, doc).value).Failure?
    ensures r.Success? ==> Execute(q, doc).Success? && |r.value| == |Execute(q, doc).value|
    ensures r.Success? ==> forall i :: 0 <= i < |r.value| ==> GetPath(Execute(q, doc).value[i]) == Success(r.value[i])
  {
    var es :- Execute(q, doc);
    match ContentCollection.Paths(es)
    case Success(ps) => Success(ps)
    case Failure(_) => Failure(ManifestLoader.LoadError.TypeError)
  }

  // ---------------------------------------------------------------------
  // Lemmas
  // ---------------------------------------------------------------------

  /**
   * `whereNot($field, null)` as written files the clause `$field = '!='`.
   * The intended clause `$field != null` keeps every entry whose field is
   * not loosely equal to null. The two agree on a missing field (both reject it)
   * and on the string `'!='` (both keep it). They disagree on any other
   * set string, such as `'x'`, which the code rejects. The code keeps any
   * field loosely equal to `'!='`, such as boolean true.
   */
  lemma WhereNotNullMisfiled(q: Query, field: string)
    ensures WhereNotAsWritten(q, field, Null).wheres == q.wheres + [Clause(field, Str("="), Str("!="))]
    ensures Match(Entry([]), Clause(field, Str("="), Str("!="))) == Success(false)
    ensures Match(Entry([]), Clause(field, Str("!="), Null)) == Success(false)
    ensures Match(Entry([(field, Str("!="))]), Clause(field, Str("="), Str("!="))) == Success(true)
    ensures Match(Entry([(field, Str("!="))]), Clause(field, Str("!="), Null)) == Success(true)
    ensures Match(Entry([(field, Str("x"))]), Clause(field, Str("="), Str("!="))) == Success(false)
    ensures Match(Entry([(field, Str("x"))]), Clause(field, Str("!="), Null)) == Success(true)
    ensures Match(Entry([(field, Bool(true))]), Clause(field, Str("="), Str("!="))) == Success(true)
  {
    var e := Entry([(field, Str("!="))]);
    assert Assoc.Get(e.attributes, field) == Some(Str("!="));
    assert LexCmp("!=", "") == 1;
    assert LexCmp("!=", "!=") == 0 by { LexCmpZero("!=", "!="); }
    var x := Entry([(field, Str("x"))]);
    assert Assoc.Get(x.attributes, field) == Some(Str("x"));
    assert LexCmp("x", "") == 1;
    assert LexCmp("x", "!=") == 1;
    var t := Entry([(field, Bool(true))]);
    assert Assoc.Get(t.attributes, field) == Some(Bool(true));
  }

  /** The corrected `whereNot` keeps exactly the entries whose field is not loosely equal to the value. */
  lemma WhereNotMatches(q: Query, field: string, value: Value, e: Entry)
    ensures var w := WhereNot(q, field, value).wheres[|q.wheres|];
            Match(e, w) == Success(!LooseEq(Get(e, field, Null), value))
  {
  }

  /** `whereIn` keeps an entry exactly when its value is loosely in the list. */
  lemma WhereInMatches(q: Query, field: string, values: seq<Value>, e: Entry)
    ensures var w := WhereIn(q, field, values).wheres[|q.wheres|];
            Match(e, w) == Success(InArray(Get(e, field, Null), values))
  {
  }

  /** The string operators never match a non-string field, even when the needle is empty. */
  lemma StringOperatorsNeedString(e: Entry, field: string, op: string, needle: Value)
    requires op == "contains" || op == "startsWith" || op == "endsWith"
    requires !Get(e, field, Null).Str?
    ensures Match(e, Clause(field, Str(op), needle)) == Success(false)
  {
  }

  /** An empty needle matches every string field. */
  lemma EmptyNeedleMatchesStrings(e: Entry, field: string, op: string)
    requires op == "contains" || op == "startsWith" || op == "endsWith"
    requires Get(e, field, Null).Str?
    ensures Match(e, Clause(field, Str(op), Str(""))) == Success(true)
  {
    var s := Get(e, field, Null).s;
    assert OccursAt(s, "", 0);
    assert s[..0] == "" && s[|s|..] == "";
  }

  /** `OrderCmp` is antisymmetric because `<=>` is. */
  lemma {:induction false} OrderCmpAntisymmetric(orders: seq<Order>, a: Entry, b: Entry)
    ensures OrderCmp(orders, a, b) == -OrderCmp(orders, b, a)
  {
    if orders != [] {
      var o := orders[0];
      CompareAntisymmetric(Get(a, o.field, Null), Get(b, o.field, Null));
      OrderCmpAntisymmetric(orders[1..], a, b);
    }
  }

  /** After ordering, each entry is ordered before its successor under the query's keys. */
  lemma OrderedAdjacent(q: Query, es: seq<Entry>)
    requires q.orders != []
    ensures forall i :: 0 <= i < |Ordered(q, es)| - 1 ==>
              OrderCmp(q.orders, Ordered(q, es)[i], Ordered(q, es)[i + 1]) <= 0
  {
    var cmp := OrderCmpOf(q.orders);
    forall a, b ensures cmp(a, b) == -cmp(b, a) {
      OrderCmpAntisymmetric(q.orders, a, b);
    }
    Sorting.SortAdjacentSorted(es, cmp);
  }

  /** Entries that tie on every key keep their manifest order. */
  lemma OrderedTiesStable(q: Query, es: seq<Entry>)
    requires forall i, j :: 0 <= i < |es| && 0 <= j < |es| ==> OrderCmp(q.orders, es[i], es[j]) == 0
    ensures Ordered(q, es) == es
  {
    if q.orders != [] {
      Sorting.SortOfSorted(es, OrderCmpOf(q.orders));
    }
  }

  /** Skipping `k >= 0` entries drops exactly the first `k`. */
  lemma SkipDropsPrefix(q: Query, es: seq<Entry>, k: nat)
    requires q.skip == Some(k) && q.limit.None? && k <= |es|
    ensures Page(q, es) == es[k..]
  {
  }

  /** A negative skip keeps only the last `-k` entries. */
  lemma NegativeSkipKeepsSuffix(q: Query, es: seq<Entry>, k: int)
    requires q.skip == Some(k) && q.limit.None? && k < 0 && -k <= |es|
    ensures Page(q, es) == es[|es| + k..]
  {
  }

  /** A limit `n >= 0` without skip keeps the first `n` entries. */
  lemma LimitKeepsPrefix(q: Query, es: seq<Entry>, n: nat)
    requires q.limit == Some(n) && q.skip.None? && n <= |es|
    ensures Page(q, es) == es[..n]
  {
  }

  /** A negative limit drops entries from the end instead of limiting. */
  lemma NegativeLimitDropsSuffix(q: Query, es: seq<Entry>, n: int)
    requires q.limit == Some(n) && q.skip.None? && n < 0 && -n <= |es|
    ensures Page(q, es) == es[..|es| + n]
  {
  }

  /** `first()` is the head of the unlimited result, whatever the query's own limit. */
  lemma FirstIsHead(q: Query, doc: ManifestLoader.ManifestDoc)
    requires Execute(q.(limit := None), doc).Success?
    ensures var all := Execute(q.(limit := None), doc).value;
            First(q, doc) == Success(if all == [] then None else Some(all[0]))
  {
    var rows := RowValues(ManifestLoader.Rows(doc));
    FilterIgnoresPaging(q, q.(limit := None), rows);
    FilterIgnoresPaging(q, Limit(q, 1), rows);
    var kept := Filter(q, rows).value;
    var ord := Ordered(q, kept);
    assert Ordered(q.(limit := None), kept) == ord;
    assert Ordered(Limit(q, 1), kept) == ord;
    PageFirst(q, ord);
  }

  /** A limit of one keeps the head of what the unlimited query returns. */
  lemma PageFirst(q: Query, es: seq<Entry>)
    ensures var all := Page(q.(limit := None), es);
            var one := Page(Limit(q, 1), es);
            (one == [] <==> all == []) && (one != [] ==> one[0] == all[0])
  {
  }

  /** Filtering reads only the clauses and the draft switch. */
  lemma {:induction false} FilterIgnoresPaging(q: Query, q': Query, rows: seq<ManifestEntry>)
    requires q'.wheres == q.wheres && q'.showDrafts == q.showDrafts
    ensures Filter(q', rows) == Filter(q, rows)
  {
    if rows != [] {
      FilterIgnoresPaging(q, q', rows[1..]);
    }
  }

  /** `paths()` and `count()` agree on the number of results. */
  lemma PathsCount(q: Query, doc: ManifestLoader.ManifestDoc)
    requires Paths(q, doc).Success?
    ensures Count(q, doc) == Success(|Paths(q, doc).value|)
  {
  }

  /** `only` and `without` are recorded but change no result. */
  lemma ProjectionIgnored(q: Query, fields: seq<string>, doc: ManifestLoader.ManifestDoc)
    ensures Execute(Only(q, fields), doc) == Execute(q, doc)
    ensures Execute(Without(q, fields), doc) == Execute(q, doc)
  {
    ExecuteIgnoresProjection(q, Only(q, fields), doc);
    ExecuteIgnoresProjection(q, Without(q, fields), doc);
  }

  /** Queries that differ only in their projection fields give the same results. */
  lemma ExecuteIgnoresProjection(q: Query, q': Query, doc: ManifestLoader.ManifestDoc)
    requires q' == q.(only := q'.only, without := q'.without)
    ensures Execute(q', doc) == Execute(q, doc)
  {
    var rows := RowValues(ManifestLoader.Rows(doc));
    FilterIgnoresPaging(q, q', rows);
    if Filter(q, rows).Success? {
      var kept := Filter(q, rows).value;
      assert Ordered(q', kept) == Ordered(q, kept);
      assert Page(q', Ordered(q, kept)) == Page(q, Ordered(q, kept));
    }
  }

  /** `limit` and `skip` overwrite, so the last call wins; `orderBy` appends, so the first key leads. */
  lemma BuilderLastWins(q: Query, a: int, b: int, f: string, d: string, f': string, d': string)
    ensures Limit(Limit(q, a), b) == Limit(q, b)
    ensures Skip(Skip(q, a), b) == Skip(q, b)
    ensures OrderBy(OrderBy(q, f, d), f', d').orders == q.orders + [Order(f, d), Order(f', d')]
  {
  }
}

=== FILE: excerpt.dfy ===
/**
 * The excerpt the compiler derives from a Markdown body (`extractExcerpt`):
 * the text before the first separator, with a leading heading marker, link
 * syntax and emphasis characters removed, trimmed, and truncated with an
 * ellipsis. Lengths count characters.
 */
module Excerpt {
  import opened Wrappers
  import opened Strings
  import opened Values

  /** The `excerpt` options; an absent option is `None`. */
  datatype ExcerptOptions = ExcerptOptions(maxLength: Option<int>, separator: Option<string>)

  const DefaultMaxLength: int := 200
  const DefaultSeparator: string := "\n\n"
  const Ellipsis: string := "..."

  /** `options?.maxLength || 200`: an absent or zero length means 200. */
  function MaxLength(o: ExcerptOptions): (m: int)
    ensures m != 0
    ensures o.maxLength.None? || o.maxLength == Some(0) ==> m == 200
    ensures o.maxLength.Some? && o.maxLength.value != 0 ==> m == o.maxLength.value
  {
    if o.maxLength.Some? && o.maxLength.value != 0 then o.maxLength.value else DefaultMaxLength
  }

  /** `options?.separator || '\n\n'`: an absent or empty separator means a blank line. */
  function Separator(o: ExcerptOptions): (sep: string)
    ensures |sep| > 0
    ensures o.separator.None? || o.separator == Some("") ==> sep == "\n\n"
    ensures o.separator.Some? && o.separator.value != "" ==> sep == o.separator.value
  {
    if o.separator.Some? && o.separator.value != "" then o.separator.value else DefaultSeparator
  }

  /** `content.split(sep)[0]` for a non-empty separator: everything before its first occurrence. */
  function FirstParagraph(content: string, sep: string): (r: string)
    requires |sep| > 0
    ensures StartsWith(content, r)
    ensures !Contains(r, sep)
    ensures !Contains(content, sep) ==> r == content
    ensures Contains(content, sep) ==> OccursAt(content, sep, |r|)
    ensures forall j :: 0 <= j < |r| ==> !OccursAt(content, sep, j)
  {
    match IndexOf(content, sep)
    case None => content
    case Some(i) =>
      var r := content[..i];
      forall j | 0 <= j <= |r| && OccursAt(r, sep, j)
        ensures false
      {
        assert content[j..j + |sep|] == r[j..j + |sep|];
        assert OccursAt(content, sep, j);
      }
      r
  }

  // ---------------------------------------------------------------------
  // Cleaning
  // ---------------------------------------------------------------------

  predicate IsHash(c: char) {
    c == '#'
  }

  /** `.replace(/^#+\s+/, '')`: a leading run of `#` and the white space after it. */
  function StripHeadingMarker(s: string): (r: string)
    ensures |r| <= |s|
    ensures |s| == 0 || s[0] != '#' ==> r == s
  {
    var h := Run(s, 0, IsHash);
    if h == 0 then s
    else
      var w := Run(s, h, IsJsSpace);
      if w == 0 then s else s[h + w..]
  }

  /** Stripping only ever removes a prefix. */
  lemma StripHeadingMarkerSuffix(s: string)
    ensures var r := StripHeadingMarker(s); r == s[|s| - |r|..]
  {
  }

  /** The link `[text](url)` starting at `i`, if any: its text and the index after `)`. */
  function LinkAt(s: string, i: nat): (r: Option<(string, nat)>)
    requires i < |s|
    ensures r.Some? ==> s[i] == '[' && i + 4 <= r.value.1 <= |s|
    ensures r.Some? ==> |r.value.0| > 0 && ']' !in r.value.0
    ensures r.Some? ==> |r.value.0| + 3 < r.value.1 - i
  {
    if s[i] != '[' then None
    else
      var t := Run(s, i + 1, NotCloseBracket);
      var j := i + 1 + t;
      if t == 0 || j + 1 >= |s| || s[j + 1] != '(' then None
      else
        var u := Run(s, j + 2, NotCloseParen);
        var k := j + 2 + u;
        if u == 0 || k >= |s| then None
        else
          RunSpec(s, i + 1, NotCloseBracket);
          Some((s[i + 1..j], k + 1))
  }

  predicate NotCloseBracket(c: char) {
    c != ']'
  }

  predicate NotCloseParen(c: char) {
    c != ')'
  }

  /** `.replace(/\[([^\]]+)\]\([^\)]+\)/g, '$1')` from index `i`: each link becomes its text. */
  function ReplaceLinksFrom(s: string, i: nat): (r: string)
    requires i <= |s|
    ensures |r| <= |s| - i
    decreases |s| - i
  {
    if i == |s| then ""
    else match LinkAt(s, i)
      case Some((text, next)) => text + ReplaceLinksFrom(s, next)
      case None => [s[i]] + ReplaceLinksFrom(s, i + 1)
  }

  function ReplaceLinks(s: string): (r: string)
    ensures |r| <= |s|
  {
    ReplaceLinksFrom(s, 0)
  }

  predicate IsEmphasis(c: char) {
    c == '*' || c == '_' || c == '~' || c == '`'
  }

  /** The cleaned paragraph: heading marker, links and emphasis removed, then trimmed. */
  function Clean(p: string): (r: string)
    ensures |r| <= |p|
    ensures forall i :: 0 <= i < |r| ==> !IsEmphasis(r[i])
    ensures |r| > 0 ==> !IsJsSpace(r[0]) && !IsJsSpace(r[|r| - 1])
  {
    var kept := RemoveChars(ReplaceLinks(StripHeadingMarker(p)), IsEmphasis);
    var r := JsTrim(kept);
    JsTrimKeeps(kept, NotEmphasis);
    r
  }

  predicate NotEmphasis(c: char) {
    !IsEmphasis(c)
  }

  /** Every character of `s` from `a` to `b` is JavaScript white space. */
  predicate SpaceBetween(s: string, a: nat, b: nat)
    requires a <= b <= |s|
  {
    forall k :: a <= k < b ==> IsJsSpace(s[k])
  }

  /** `body` sits at index `i` of the first `cut` characters of `e`, with only white space around it. */
  predicate SliceAt(e: string, cut: nat, body: string, i: nat)
    requires cut <= |e|
  {
    i + |body| <= cut && body == e[i..i + |body|] && SpaceBetween(e, 0, i) && SpaceBetween(e, i + |body|, cut)
  }

  /**
   * `r` is a slice of the first `cut` characters of `e` followed by `...`,
   * where only white space lies outside the slice and the slice neither
   * starts nor ends with white space.
   */
  predicate TrimmedCut(e: string, cut: nat, r: string)
    requires cut <= |e|
  {
    var n := |r| - 3;
    n >= 0 && r[n..] == Ellipsis &&
    (n > 0 ==> !IsJsSpace(r[0]) && !IsJsSpace(r[n - 1])) &&
    exists i :: 0 <= i <= cut && SliceAt(e, cut, r[..n], i)
  }

  /** `excerpt.substring(0, m).trim() + '...'` for an excerpt longer than `m`. */
  function Truncate(e: string, m: int): (r: string)
    requires |e| > m
    ensures TrimmedCut(e, if m < 0 then 0 else m, r)
    ensures |r| <= (if m < 0 then 0 else m) + 3
    ensures m <= 0 ==> r == Ellipsis
    ensures (forall i :: 0 <= i < |e| ==> !IsEmphasis(e[i])) ==> forall i :: 0 <= i < |r| ==> !IsEmphasis(r[i])
  {
    var cut := if m < 0 then 0 else m;
    var t := JsTrim(e[..cut]);
    TruncateSlice(e, cut, t);
    TruncateEmphasisFree(e, cut, t);
    t + Ellipsis
  }

  /** Truncating emphasis-free text adds none: the kept characters come from it and the rest are dots. */
  lemma TruncateEmphasisFree(e: string, cut: nat, t: string)
    requires cut <= |e| && t == JsTrim(e[..cut])
    ensures (forall i :: 0 <= i < |e| ==> !IsEmphasis(e[i])) ==>
              forall i :: 0 <= i < |t + Ellipsis| ==> !IsEmphasis((t + Ellipsis)[i])
  {
    var r := t + Ellipsis;
    assert |Ellipsis| == 3 && forall i :: 0 <= i < 3 ==> Ellipsis[i] == '.';
    assert forall i :: |t| <= i < |r| ==> r[i] == '.';
    assert forall i :: 0 <= i < |t| ==> r[i] == t[i] && t[i] in e[..cut];
  }

  /** The trimmed cut followed by `...` is a `TrimmedCut`. */
  lemma TruncateSlice(e: string, cut: nat, t: string)
    requires cut <= |e| && t == JsTrim(e[..cut])
    ensures TrimmedCut(e, cut, t + Ellipsis)
  {
    var i := CutSlice(e, cut, t);
    var n := |t|;
    var r := t + Ellipsis;
    Seqs.ConcatHalves(t, Ellipsis);
    assert |r| - 3 == n;
    assert n > 0 ==> r[0] == t[0] && r[n - 1] == t[n - 1];
    assert SliceAt(e, cut, r[..n], i);
  }

  /** The trimmed cut is a slice of the cut with only white space around it. */
  lemma CutSlice(e: string, cut: nat, t: string) returns (i: nat)
    requires cut <= |e| && t == JsTrim(e[..cut])
    ensures i <= cut && SliceAt(e, cut, t, i)
  {
    var s := e[..cut];
    var t';
    i, t' := TrimSlice(s, IsJsSpace);
    assert t' == t;
    Seqs.SliceOfPrefix(e, cut, i, i + |t|);
    assert SpaceBetween(e, 0, i) by {
      forall k | 0 <= k < i ensures IsJsSpace(e[k]) {
        assert e[k] == s[k];
      }
    }
    assert SpaceBetween(e, i + |t|, cut) by {
      forall k | i + |t| <= k < cut ensures IsJsSpace(e[k]) {
        assert e[k] == s[k];
      }
    }
  }

  /**
   * `extractExcerpt`. The result is the cleaned first paragraph when it fits;
   * otherwise it is the trimmed text among its first `maxLength` characters
   * followed by `...`, so at most `maxLength + 3` characters long (for a
   * positive `maxLength`). It never contains an emphasis character.
   */
  function ExtractExcerpt(content: string, o: ExcerptOptions): (r: string)
    ensures var e := Clean(FirstParagraph(content, Separator(o)));
            |e| <= MaxLength(o) ==> r == e
    ensures var e := Clean(FirstParagraph(content, Separator(o)));
            |e| > MaxLength(o) ==> TrimmedCut(e, if MaxLength(o) < 0 then 0 else MaxLength(o), r)
    ensures MaxLength(o) > 0 ==> |r| <= MaxLength(o) + 3
    ensures MaxLength(o) < 0 ==> r == Ellipsis
    ensures forall i :: 0 <= i < |r| ==> !IsEmphasis(r[i])
  {
    var m := MaxLength(o);
    var e := Clean(FirstParagraph(content, Separator(o)));
    if |e| > m then Truncate(e, m) else e
  }

  // ---------------------------------------------------------------------
  // Lemmas
  // ---------------------------------------------------------------------

  /** The excerpt depends only on the text before the first separator. */
  lemma ExcerptOfFirstParagraph(content: string, o: ExcerptOptions)
    ensures ExtractExcerpt(content, o) == ExtractExcerpt(FirstParagraph(content, Separator(o)), o)
  {
  }

  /** A paragraph followed by the separator is cut exactly there, whatever follows. */
  lemma ParagraphBeforeSeparator(p: string, sep: string, rest: string)
    requires |sep| > 0
    requires forall j :: 0 <= j < |p| ==> !OccursAt(p + sep, sep, j)
    ensures FirstParagraph(p + sep + rest, sep) == p
  {
    var s := p + sep + rest;
    assert OccursAt(s, sep, |p|) by {
      assert s[|p|..|p| + |sep|] == sep;
    }
    forall j | 0 <= j < |p|
      ensures !OccursAt(s, sep, j)
    {
      if OccursAt(s, sep, j) {
        assert s[j..j + |sep|] == (p + sep)[j..j + |sep|];
        assert OccursAt(p + sep, sep, j);
      }
    }
    assert Contains(s, sep);
    var r := FirstParagraph(s, sep);
    assert OccursAt(s, sep, |r|);
    assert |r| == |p|;
    assert r == s[..|p|] == p;
  }

  /** `# Title` loses its marker: the `#` run and the white space after it go. */
  lemma StripHeadingMarkerSpec(hashes: string, gap: string, t: string)
    requires |hashes| > 0 && forall k :: 0 <= k < |hashes| ==> hashes[k] == '#'
    requires |gap| > 0 && forall k :: 0 <= k < |gap| ==> IsJsSpace(gap[k])
    requires |t| == 0 || !IsJsSpace(t[0])
    ensures StripHeadingMarker(hashes + gap + t) == t
  {
    var s := hashes + gap + t;
    var h := |hashes|;
    assert forall k :: 0 <= k < h ==> s[k] == hashes[k];
    assert forall k :: h <= k < h + |gap| ==> s[k] == gap[k - h];
    RunExact(s, 0, h, IsHash);
    assert |t| > 0 ==> s[h + |gap|] == t[0];
    RunExact(s, h, |gap|, IsJsSpace);
    assert s[h + |gap|..] == t;
  }

  /** A paragraph with no heading marker, link or emphasis is only trimmed. */
  lemma CleanPlain(p: string)
    requires |p| == 0 || p[0] != '#'
    requires '[' !in p
    requires forall i :: 0 <= i < |p| ==> !IsEmphasis(p[i])
    ensures Clean(p) == JsTrim(p)
  {
    NoLinkUnchanged(p, 0);
    assert p[0..] == p;
    RemoveCharsNone(p, IsEmphasis);
  }

  /** A plain heading paragraph `## Title` cleans to its title. */
  lemma CleanHeading(hashes: string, gap: string, t: string)
    requires |hashes| > 0 && forall k :: 0 <= k < |hashes| ==> hashes[k] == '#'
    requires |gap| > 0 && forall k :: 0 <= k < |gap| ==> IsJsSpace(gap[k])
    requires |t| == 0 || !IsJsSpace(t[0])
    requires '[' !in t
    requires forall i :: 0 <= i < |t| ==> !IsEmphasis(t[i])
    ensures Clean(hashes + gap + t) == JsTrim(t)
  {
    StripHeadingMarkerSpec(hashes, gap, t);
    NoLinkUnchanged(t, 0);
    assert t[0..] == t;
    RemoveCharsNone(t, IsEmphasis);
  }

  /** Text without `[` has no link to replace. */
  lemma {:induction false} NoLinkUnchanged(s: string, i: nat)
    requires i <= |s|
    requires '[' !in s
    ensures ReplaceLinksFrom(s, i) == s[i..]
    decreases |s| - i
  {
    if i < |s| {
      NoLinkUnchanged(s, i + 1);
      assert s[i..] == [s[i]] + s[i + 1..];
    }
  }

  /** A link on its own becomes its text. */
  lemma SingleLink(t: string, u: string)
    requires |t| > 0 && ']' !in t
    requires |u| > 0 && ')' !in u
    ensures ReplaceLinks("[" + t + "](" + u + ")") == t
  {
    var s := "[" + t + "](" + u + ")";
    var j := 1 + |t|;
    assert forall x :: 1 <= x < j ==> s[x] == t[x - 1];
    assert s[j] == ']' && s[j + 1] == '(';
    assert forall x :: j + 2 <= x < j + 2 + |u| ==> s[x] == u[x - j - 2];
    assert s[j + 2 + |u|] == ')';
    RunExact(s, 1, |t|, NotCloseBracket);
    RunExact(s, j + 2, |u|, NotCloseParen);
    assert s[1..j] == t;
    assert LinkAt(s, 0) == Some((t, |s|));
  }
}

=== FILE: headings.dfy ===
/**
 * Table-of-contents extraction in the compiler: the multiline pattern
 * `^(#{2,4})\s+(.+)$` scanned over the Markdown body (`extractHeadings`) and
 * the stack-based nesting of the matches into a tree (`buildHeadingTree`).
 *
 * The pattern is modelled exactly, backtracking included: `#{2,4}` must
 * cover the whole run of `#` (a shorter run leaves a `#` where `\s` is
 * needed), the greedy `\s+` gives back characters only until `.+` can
 * start, and `.+` then runs to the end of the line. The slug function is a
 * parameter.
 */
module Headings {
  import opened Wrappers
  import opened Strings
  import opened Values
  import Seqs

  /** A heading node; a heading without `children` has the empty sequence. */
  datatype Heading = Heading(depth: int, text: string, id: string, children: seq<Heading>)

  /** One match of the pattern: the length of the `#` run and the captured line rest. */
  datatype RawHeading = RawHeading(depth: nat, text: string)

  /** Where a match starts its capture and where it ends. */
  datatype Match = Match(depth: nat, start: nat, end: nat)

  // ---------------------------------------------------------------------
  // The pattern
  // ---------------------------------------------------------------------

  predicate IsHash(c: char) {
    c == '#'
  }

  predicate NotTerminator(c: char) {
    !IsLineTerminator(c)
  }

  /**
   * What `\s+` between the hashes and the text may consume: any JavaScript
   * white space when `crossLines` holds (the pattern as written), and only
   * white space inside the line otherwise.
   */
  predicate Gap(c: char, crossLines: bool) {
    IsJsSpace(c) && (crossLines || !IsLineTerminator(c))
  }

  /** The gap class as a character predicate. */
  function GapOf(crossLines: bool): char -> bool {
    c => Gap(c, crossLines)
  }

  /** `^` in multiline mode: the start of the input or just after a line terminator. */
  predicate LineStart(s: string, i: nat) {
    i == 0 || (i <= |s| && IsLineTerminator(s[i - 1]))
  }

  /** The end of the line that contains index `i`. */
  function LineEnd(s: string, i: nat): (e: nat)
    requires i <= |s|
    ensures i <= e <= |s|
    ensures forall k :: i <= k < e ==> !IsLineTerminator(s[k])
    ensures e == |s| || IsLineTerminator(s[e])
  {
    RunSpec(s, i, NotTerminator);
    i + Run(s, i, NotTerminator)
  }

  /**
   * Backtracking of the greedy gap: the last position in `(lo, q]` where
   * `.+` can start, that is, one that is not a line terminator.
   */
  function LastTextStart(s: string, lo: nat, q: int): (r: Option<nat>)
    requires q < |s|
    ensures r.Some? ==> lo < r.value <= q && !IsLineTerminator(s[r.value])
    ensures r.Some? ==> forall j :: r.value < j <= q ==> IsLineTerminator(s[j])
    ensures r.None? ==> forall j :: lo < j <= q ==> IsLineTerminator(s[j])
    decreases q
  {
    if q <= lo then None
    else if !IsLineTerminator(s[q]) then Some(q)
    else LastTextStart(s, lo, q - 1)
  }

  /** The match of the pattern anchored at index `i`, if there is one. */
  function MatchAt(s: string, i: nat, crossLines: bool): (r: Option<Match>)
    requires i <= |s|
    ensures r.Some? ==> 2 <= r.value.depth <= 4 && i + r.value.depth < r.value.start < r.value.end <= |s|
    ensures r.Some? ==> r.value.end == LineEnd(s, r.value.start)
  {
    var h := Run(s, i, IsHash);
    if h < 2 || h > 4 then None
    else
      var p := i + h;
      var w := Run(s, p, GapOf(crossLines));
      if w == 0 then None
      else
        match LastTextStart(s, p, if p + w < |s| then p + w else |s| - 1)
        case None => None
        case Some(q) => Some(Match(h, q, LineEnd(s, q)))
  }

  /** The global search: every match from `pos` on, leftmost first, each resuming at the previous end. */
  function Scan(s: string, pos: nat, crossLines: bool): (r: seq<RawHeading>)
    requires pos <= |s|
    ensures forall k :: 0 <= k < |r| ==> 2 <= r[k].depth <= 4 && |r[k].text| > 0
    ensures forall k, j :: 0 <= k < |r| && 0 <= j < |r[k].text| ==> !IsLineTerminator(r[k].text[j])
    decreases |s| - pos
  {
    if pos == |s| then []
    else if LineStart(s, pos) && MatchAt(s, pos, crossLines).Some? then
      var m := MatchAt(s, pos, crossLines).value;
      [RawHeading(m.depth, s[m.start..m.end])] + Scan(s, m.end, crossLines)
    else Scan(s, pos + 1, crossLines)
  }

  // ---------------------------------------------------------------------
  // extractHeadings
  // ---------------------------------------------------------------------

  const DefaultDepths: seq<int> := [2, 3, 4]

  /** `options?.depth || [2, 3, 4]`: an array, even an empty one, is truthy. */
  function AllowedDepths(depth: Option<seq<int>>): (r: seq<int>)
    ensures depth.Some? ==> r == depth.value
    ensures depth.None? ==> r == [2, 3, 4]
  {
    depth.GetOr(DefaultDepths)
  }

  /** The matches whose depth is allowed, in order. */
  function KeepAllowed(raws: seq<RawHeading>, allowed: seq<int>): (r: seq<RawHeading>)
    ensures |r| <= |raws|
    ensures forall k :: 0 <= k < |r| ==> r[k] in raws && r[k].depth as int in allowed
    ensures (forall k :: 0 <= k < |raws| ==> raws[k].depth as int in allowed) ==> r == raws
    ensures allowed == [] ==> r == []
  {
    if raws == [] then []
    else (if raws[0].depth as int in allowed then [raws[0]] else []) + KeepAllowed(raws[1..], allowed)
  }

  /** One match as a heading: trimmed text, slug id, no children. */
  function ToHeading(raw: RawHeading, slug: string -> string): (h: Heading)
    ensures h.depth == raw.depth as int && h.children == [] && h.id == slug(h.text)
    ensures |h.text| > 0 ==> !IsJsSpace(h.text[0]) && !IsJsSpace(h.text[|h.text| - 1])
    ensures forall j :: 0 <= j < |h.text| ==> h.text[j] in raw.text
  {
    var text := JsTrim(raw.text);
    Heading(raw.depth, text, slug(text), [])
  }

  /** The matches whose depth is allowed, as headings. */
  function Select(raws: seq<RawHeading>, allowed: seq<int>, slug: string -> string): (r: seq<Heading>)
    ensures |r| == |KeepAllowed(raws, allowed)|
    ensures forall k :: 0 <= k < |r| ==> r[k] == ToHeading(KeepAllowed(raws, allowed)[k], slug)
  {
    var kept := KeepAllowed(raws, allowed);
    seq(|kept|, k requires 0 <= k < |kept| => ToHeading(kept[k], slug))
  }

  /**
   * The matching loop of `extractHeadings` with the pattern as written
   * (`\s+` may cross line ends, so a lone `##` line takes the next line as
   * its text). Every heading has an allowed depth between 2 and 4, trimmed
   * single-line text and `id == slug(text)`; the default keeps every
   * match, and an empty depth list keeps none.
   */
  function CollectHeadingsAsWritten(content: string, depth: Option<seq<int>>, slug: string -> string): (r: seq<Heading>)
    ensures forall k :: 0 <= k < |r| ==> r[k].depth in AllowedDepths(depth) && 2 <= r[k].depth <= 4
    ensures forall k :: 0 <= k < |r| ==> r[k].children == [] && r[k].id == slug(r[k].text)
    ensures forall k :: 0 <= k < |r| && |r[k].text| > 0 ==>
              !IsJsSpace(r[k].text[0]) && !IsJsSpace(r[k].text[|r[k].text| - 1])
    ensures forall k, j :: 0 <= k < |r| && 0 <= j < |r[k].text| ==> !IsLineTerminator(r[k].text[j])
    ensures depth.None? ==> |r| == |Scan(content, 0, true)|
    ensures depth == Some([]) ==> r == []
  {
    var raws := Scan(content, 0, true);
    var allowed := AllowedDepths(depth);
    SelectSpec(raws, allowed, slug);
    if depth.None? then
      KeepDefault(raws);
      Select(raws, allowed, slug)
    else
      Select(raws, allowed, slug)
  }

  /**
   * The matching loop of `extractHeadings`, with the gap confined to the heading's own line.
   * Every heading has an allowed depth between 2 and 4, trimmed single-line
   * text and `id == slug(text)`; the default keeps every match, and an
   * empty depth list keeps none.
   */
  function CollectHeadings(content: string, depth: Option<seq<int>>, slug: string -> string): (r: seq<Heading>)
    ensures forall k :: 0 <= k < |r| ==> r[k].depth in AllowedDepths(depth) && 2 <= r[k].depth <= 4
    ensures forall k :: 0 <= k < |r| ==> r[k].children == [] && r[k].id == slug(r[k].text)
    ensures forall k :: 0 <= k < |r| && |r[k].text| > 0 ==>
              !IsJsSpace(r[k].text[0]) && !IsJsSpace(r[k].text[|r[k].text| - 1])
    ensures forall k, j :: 0 <= k < |r| && 0 <= j < |r[k].text| ==> !IsLineTerminator(r[k].text[j])
    ensures depth.None? ==> |r| == |Scan(content, 0, false)|
    ensures depth == Some([]) ==> r == []
  {
    var raws := Scan(content, 0, false);
    var allowed := AllowedDepths(depth);
    SelectSpec(raws, allowed, slug);
    if depth.None? then
      KeepDefault(raws);
      Select(raws, allowed, slug)
    else
      Select(raws, allowed, slug)
  }

  /** The default depths keep every match of depth 2 to 4. */
  lemma KeepDefault(raws: seq<RawHeading>)
    requires forall k :: 0 <= k < |raws| ==> 2 <= raws[k].depth <= 4
    ensures KeepAllowed(raws, DefaultDepths) == raws
  {
    forall k | 0 <= k < |raws|
      ensures raws[k].depth as int in DefaultDepths
    {
      DefaultAllows(raws[k].depth as int);
    }
    KeepEvery(raws, DefaultDepths);
  }

  /** Every depth from 2 to 4 is a default depth. */
  lemma DefaultAllows(d: int)
    requires 2 <= d <= 4
    ensures d in DefaultDepths
  {
    if d == 2 {
      assert DefaultDepths[0] == d;
    } else if d == 3 {
      assert DefaultDepths[1] == d;
    } else {
      assert DefaultDepths[2] == d;
    }
  }

  /** A depth list allowing every match keeps them all. */
  lemma KeepEvery(raws: seq<RawHeading>, allowed: seq<int>)
    requires forall k :: 0 <= k < |raws| ==> raws[k].depth as int in allowed
    ensures KeepAllowed(raws, allowed) == raws
  {
  }

  /**
   * The selected headings of well-formed matches have an allowed depth
   * between 2 and 4 and single-line text.
   */
  lemma SelectSpec(raws: seq<RawHeading>, allowed: seq<int>, slug: string -> string)
    requires forall k :: 0 <= k < |raws| ==> 2 <= raws[k].depth <= 4
    requires forall k, j :: 0 <= k < |raws| && 0 <= j < |raws[k].text| ==> !IsLineTerminator(raws[k].text[j])
    ensures var r := Select(raws, allowed, slug);
            forall k :: 0 <= k < |r| ==> r[k].depth in allowed && 2 <= r[k].depth <= 4
    ensures var r := Select(raws, allowed, slug);
            forall k, j :: 0 <= k < |r| && 0 <= j < |r[k].text| ==> !IsLineTerminator(r[k].text[j])
  {
    var kept := KeepAllowed(raws, allowed);
    var r := Select(raws, allowed, slug);
    forall k | 0 <= k < |r|
      ensures r[k].depth in allowed && 2 <= r[k].depth <= 4
      ensures forall j :: 0 <= j < |r[k].text| ==> !IsLineTerminator(r[k].text[j])
    {
      var raw := kept[k];
      assert r[k] == ToHeading(raw, slug);
      assert raw in raws && raw.depth as int in allowed;
      var i :| 0 <= i < |raws| && raws[i] == raw;
      forall j | 0 <= j < |r[k].text|
        ensures !IsLineTerminator(r[k].text[j])
      {
        var m :| 0 <= m < |raw.text| && raw.text[m] == r[k].text[j];
        assert !IsLineTerminator(raws[i].text[m]);
      }
    }
  }

  /**
   * `extractHeadings`: the collected headings nested into a tree. Read in
   * pre-order the tree is exactly the collected sequence, and every child
   * is deeper than its parent.
   */
  function ExtractHeadings(content: string, depth: Option<seq<int>>, slug: string -> string): (r: seq<Heading>)
    ensures Flatten(r) == CollectHeadings(content, depth, slug)
    ensures Nested(r)
  {
    var hs := CollectHeadings(content, depth, slug);
    BuildHeadingTreeFlatten(hs);
    BuildHeadingTreeNested(hs);
    BuildHeadingTree(hs)
  }

  /** `extractHeadings` with the pattern as written. */
  function ExtractHeadingsAsWritten(content: string, depth: Option<seq<int>>, slug: string -> string): (r: seq<Heading>)
    ensures Flatten(r) == CollectHeadingsAsWritten(content, depth, slug)
    ensures Nested(r)
  {
    var hs := CollectHeadingsAsWritten(content, depth, slug);
    BuildHeadingTreeFlatten(hs);
    BuildHeadingTreeNested(hs);
    BuildHeadingTree(hs)
  }

  // ---------------------------------------------------------------------
  // What one line yields
  // ---------------------------------------------------------------------

  /** Past the first character of a line, no position is a line start, so nothing more matches. */
  lemma {:induction false} ScanMidLine(s: string, pos: nat, crossLines: bool)
    requires 0 < pos <= |s|
    requires forall k :: pos - 1 <= k < |s| ==> !IsLineTerminator(s[k])
    ensures Scan(s, pos, crossLines) == []
    decreases |s| - pos
  {
    if pos < |s| {
      assert !LineStart(s, pos);
      ScanMidLine(s, pos + 1, crossLines);
    }
  }

  /**
   * A line of two to four `#`, white space, and text not starting with
   * white space is exactly one heading, whose capture is the text.
   */
  lemma HeadingLine(hashes: string, gap: string, text: string, crossLines: bool)
    requires 2 <= |hashes| <= 4 && forall k :: 0 <= k < |hashes| ==> hashes[k] == '#'
    requires |gap| > 0 && forall k :: 0 <= k < |gap| ==> IsJsSpace(gap[k]) && !IsLineTerminator(gap[k])
    requires |text| > 0 && !IsJsSpace(text[0])
    requires forall k :: 0 <= k < |text| ==> !IsLineTerminator(text[k])
    ensures Scan(hashes + gap + text, 0, crossLines) == [RawHeading(|hashes|, text)]
  {
    var s := hashes + gap + text;
    var h := |hashes|;
    var w := |gap|;
    HeadingLineMatch(hashes, gap, text, crossLines);
    assert s[h + w..|s|] == text;
    ScanAtMatch(s, 0, crossLines);
    assert Scan(s, |s|, crossLines) == [];
    Seqs.AppendNil([RawHeading(h, text)]);
  }

  /** At a line start where the pattern matches, the scan yields that heading and resumes after it. */
  lemma ScanAtMatch(s: string, pos: nat, crossLines: bool)
    requires pos < |s| && LineStart(s, pos) && MatchAt(s, pos, crossLines).Some?
    ensures var m := MatchAt(s, pos, crossLines).value;
            Scan(s, pos, crossLines) == [RawHeading(m.depth, s[m.start..m.end])] + Scan(s, m.end, crossLines)
  {
  }

  /** The match on `#` run, gap and text, where the gap may hold anything `\s+` may consume. */
  lemma HeadingLineMatch(hashes: string, gap: string, text: string, crossLines: bool)
    requires 2 <= |hashes| <= 4 && forall k :: 0 <= k < |hashes| ==> hashes[k] == '#'
    requires |gap| > 0 && forall k :: 0 <= k < |gap| ==> Gap(gap[k], crossLines)
    requires |text| > 0 && !IsJsSpace(text[0])
    requires forall k :: 0 <= k < |text| ==> !IsLineTerminator(text[k])
    ensures var s := hashes + gap + text;
            MatchAt(s, 0, crossLines) == Some(Match(|hashes|, |hashes| + |gap|, |s|))
  {
    var s := hashes + gap + text;
    HeadingLineRuns(hashes, gap, text, crossLines);
    MatchAtOf(s, 0, |hashes|, |gap|, crossLines);
  }

  /** The runs of `#`, of gap and of the rest of the line in `hashes + gap + text`. */
  lemma HeadingLineRuns(hashes: string, gap: string, text: string, crossLines: bool)
    requires forall k :: 0 <= k < |hashes| ==> hashes[k] == '#'
    requires |gap| > 0 && forall k :: 0 <= k < |gap| ==> Gap(gap[k], crossLines)
    requires |text| > 0 && !IsJsSpace(text[0])
    requires forall k :: 0 <= k < |text| ==> !IsLineTerminator(text[k])
    ensures var s := hashes + gap + text;
            && Run(s, 0, IsHash) == |hashes|
            && Run(s, |hashes|, GapOf(crossLines)) == |gap|
            && !IsLineTerminator(s[|hashes| + |gap|])
            && LineEnd(s, |hashes| + |gap|) == |s|
  {
    var s := hashes + gap + text;
    assert s == [] + hashes + (gap + text);
    RunAfter([], hashes, gap + text, IsHash);
    RunAfter(hashes, gap, text, GapOf(crossLines));
    assert s == (hashes + gap) + text + [];
    RunAfter(hashes + gap, text, [], NotTerminator);
    assert s[|hashes| + |gap|] == text[0];
  }

  /** The match at `i` once the lengths of the `#` run and of the gap are known. */
  lemma MatchAtOf(s: string, i: nat, h: nat, w: nat, crossLines: bool)
    requires i + h + w < |s| && 2 <= h <= 4 && w > 0
    requires Run(s, i, IsHash) == h && Run(s, i + h, GapOf(crossLines)) == w
    requires !IsLineTerminator(s[i + h + w])
    ensures MatchAt(s, i, crossLines) == Some(Match(h, i + h + w, LineEnd(s, i + h + w)))
  {
    var p := i + h;
    var q := p + w;
    assert LastTextStart(s, p, q) == Some(q);
    var m := Match(h, q, LineEnd(s, q));
    assert MatchAt(s, i, crossLines) == Some(m);
  }

  /** A line that does not start with `#` yields nothing. */
  lemma PlainLine(s: string, crossLines: bool)
    requires |s| > 0 && s[0] != '#'
    requires forall k :: 0 <= k < |s| ==> !IsLineTerminator(s[k])
    ensures Scan(s, 0, crossLines) == []
  {
    assert Run(s, 0, IsHash) == 0;
    ScanMidLine(s, 1, crossLines);
  }

  /** Five `#` are not a heading: the pattern cannot stop inside the run. */
  lemma FiveHashesNoHeading(crossLines: bool)
    ensures Scan("##### x", 0, crossLines) == []
  {
    var s := "##### x";
    RunExact(s, 0, 5, IsHash);
    assert MatchAt(s, 0, crossLines).None?;
    ScanMidLine(s, 1, crossLines);
  }

  /**
   * As written, `\s+` crosses the line end: a bare `##` line makes the
   * following line a heading.
   */
  lemma BareHashesCaptureNextLine()
    ensures Scan("##\nIntro", 0, true) == [RawHeading(2, "Intro")]
  {
    var s := "##\nIntro";
    BareHashesMatch();
    assert s[3..8] == "Intro";
    assert Scan(s, 8, true) == [];
  }

  lemma BareHashesMatch()
    ensures MatchAt("##\nIntro", 0, true) == Some(Match(2, 3, 8))
  {
    var hashes, gap, text := "##", "\n", "Intro";
    assert hashes[0] == '#' && hashes[1] == '#';
    assert Gap(gap[0], true);
    assert text[0] == 'I' && text[1] == 'n' && text[2] == 't' && text[3] == 'r' && text[4] == 'o';
    HeadingLineMatch(hashes, gap, text, true);
    assert hashes + gap + text == "##\nIntro";
  }

  /** With the gap kept on the line, a bare `##` line is not a heading and the next line is plain. */
  lemma BareHashesStayBare()
    ensures Scan("##\nIntro", 0, false) == []
  {
    var s := "##\nIntro";
    RunExact(s, 0, 2, IsHash);
    assert !Gap(s[2], false);
    RunExact(s, 2, 0, GapOf(false));
    assert MatchAt(s, 0, false).None?;
    assert !LineStart(s, 1) && !LineStart(s, 2);
    assert Run(s, 3, IsHash) == 0;
    assert MatchAt(s, 3, false).None?;
    ScanMidLine(s, 4, false);
    assert Scan(s, 3, false) == Scan(s, 4, false);
  }

  // ---------------------------------------------------------------------
  // buildHeadingTree
  // ---------------------------------------------------------------------

  /**
   * One step of the stack algorithm. The stack always holds the rightmost
   * path of the forest, so popping every entry at least as deep as `h` and
   * attaching `h` to the new top is the same as descending the rightmost
   * path while the next node is shallower than `h`.
   */
  function Attach(f: seq<Heading>, h: Heading): (r: seq<Heading>)
    ensures |r| > 0
    decreases f, 1
  {
    if f == [] then [h]
    else if f[|f| - 1].depth < h.depth then f[..|f| - 1] + [AttachBelow(f[|f| - 1], h)]
    else f + [h]
  }

  /** `h` goes into the subtree of `p`, which is shallower than `h`. */
  function AttachBelow(p: Heading, h: Heading): (r: Heading)
    ensures r.depth == p.depth && r.text == p.text && r.id == p.id
    decreases p, 0
  {
    p.(children := Attach(p.children, h))
  }

  function BuildFrom(f: seq<Heading>, hs: seq<Heading>): seq<Heading>
    decreases |hs|
  {
    if hs == [] then f else BuildFrom(Attach(f, hs[0]), hs[1..])
  }

  /** `buildHeadingTree`: the headings in document order, attached one at a time. */
  function BuildHeadingTree(hs: seq<Heading>): (r: seq<Heading>)
    ensures hs != [] ==> |r| > 0
    ensures hs == [] ==> r == []
  {
    if hs == [] then [] else BuildNonEmpty(hs); BuildFrom([], hs)
  }

  lemma {:induction false} BuildNonEmpty(hs: seq<Heading>)
    requires hs != []
    ensures BuildFrom([], hs) != []
  {
    BuildKeepsNonEmpty(Attach([], hs[0]), hs[1..]);
  }

  lemma {:induction false} BuildKeepsNonEmpty(f: seq<Heading>, hs: seq<Heading>)
    requires f != []
    ensures BuildFrom(f, hs) != []
    decreases |hs|
  {
    if hs != [] {
      BuildKeepsNonEmpty(Attach(f, hs[0]), hs[1..]);
    }
  }

  /** The forest in pre-order, each node without its children. */
  function Flatten(f: seq<Heading>): seq<Heading>
    decreases f, 1
  {
    if f == [] then [] else FlattenNode(f[0]) + Flatten(f[1..])
  }

  function FlattenNode(n: Heading): seq<Heading>
    decreases n, 0
  {
    [n.(children := [])] + Flatten(n.children)
  }

  /** The depths along the rightmost path: what the algorithm's stack holds. */
  function RightPath(f: seq<Heading>): seq<int>
    decreases f, 1
  {
    if f == [] then [] else RightPathNode(f[|f| - 1])
  }

  function RightPathNode(n: Heading): seq<int>
    decreases n, 0
  {
    [n.depth] + RightPath(n.children)
  }

  /** The stack after `while (stack.length && top.depth >= depth) stack.pop()`. */
  function Pop(stack: seq<int>, depth: int): (r: seq<int>)
    ensures |r| <= |stack| && r == stack[..|r|]
    ensures |r| > 0 ==> r[|r| - 1] < depth
    decreases |stack|
  {
    if stack != [] && stack[|stack| - 1] >= depth then Pop(stack[..|stack| - 1], depth) else stack
  }

  /** Every child is strictly deeper than its parent, at every level. */
  ghost predicate Nested(f: seq<Heading>)
    decreases f, 1
  {
    forall i :: 0 <= i < |f| ==> NestedNode(f[i])
  }

  ghost predicate NestedNode(n: Heading)
    decreases n, 0
  {
    && (forall i :: 0 <= i < |n.children| ==> n.children[i].depth > n.depth)
    && Nested(n.children)
  }

  ghost predicate StrictlyIncreasing(s: seq<int>) {
    forall i, j :: 0 <= i < j < |s| ==> s[i] < s[j]
  }

  // ---------------------------------------------------------------------
  // Tree lemmas
  // ---------------------------------------------------------------------

  lemma {:induction false} FlattenConcat(a: seq<Heading>, b: seq<Heading>)
    ensures Flatten(a + b) == Flatten(a) + Flatten(b)
    decreases |a|
  {
    if a == [] {
      assert a + b == b;
    } else {
      assert (a + b)[0] == a[0];
      assert (a + b)[1..] == a[1..] + b;
      FlattenConcat(a[1..], b);
    }
  }

  /** Attaching a leaf appends it to the pre-order, wherever it lands. */
  lemma {:induction false} FlattenAttach(f: seq<Heading>, h: Heading)
    requires h.children == []
    ensures Flatten(Attach(f, h)) == Flatten(f) + [h]
    decreases f, 1
  {
    assert Flatten([h]) == [h];
    if f == [] {
    } else {
      var front := f[..|f| - 1];
      var last := f[|f| - 1];
      assert f == front + [last];
      FlattenConcat(front, [last]);
      assert Flatten([last]) == FlattenNode(last);
      if last.depth < h.depth {
        var last' := AttachBelow(last, h);
        FlattenConcat(front, [last']);
        assert Flatten([last']) == FlattenNode(last');
        FlattenAttachBelow(last, h);
      } else {
        FlattenConcat(f, [h]);
      }
    }
  }

  lemma {:induction false} FlattenAttachBelow(p: Heading, h: Heading)
    requires h.children == []
    ensures FlattenNode(AttachBelow(p, h)) == FlattenNode(p) + [h]
    decreases p, 0
  {
    FlattenAttach(p.children, h);
    assert AttachBelow(p, h).(children := []) == p.(children := []);
  }

  lemma {:induction false} FlattenBuildFrom(f: seq<Heading>, hs: seq<Heading>)
    requires forall k :: 0 <= k < |hs| ==> hs[k].children == []
    ensures Flatten(BuildFrom(f, hs)) == Flatten(f) + hs
    decreases |hs|
  {
    if hs != [] {
      var g := Attach(f, hs[0]);
      var rest := hs[1..];
      assert BuildFrom(f, hs) == BuildFrom(g, rest);
      assert forall k :: 0 <= k < |rest| ==> rest[k].children == [] by {
        forall k | 0 <= k < |rest| ensures rest[k].children == [] {
          assert rest[k] == hs[k + 1];
        }
      }
      FlattenBuildFrom(g, rest);
      FlattenAttach(f, hs[0]);
      Seqs.HeadAndRest(hs, Flatten(f));
    } else {
      assert Flatten(f) + hs == Flatten(f);
    }
  }

  /** Reading the tree in pre-order gives back the extracted headings: none lost, none duplicated, none reordered. */
  lemma BuildHeadingTreeFlatten(hs: seq<Heading>)
    requires forall k :: 0 <= k < |hs| ==> hs[k].children == []
    ensures Flatten(BuildHeadingTree(hs)) == hs
  {
    FlattenBuildFrom([], hs);
  }

  /** Roots of `Attach(f, h)` are the roots of `f` and possibly `h`. */
  lemma AttachRoots(f: seq<Heading>, h: Heading, d: int)
    requires forall i :: 0 <= i < |f| ==> f[i].depth > d
    requires h.depth > d
    ensures forall i :: 0 <= i < |Attach(f, h)| ==> Attach(f, h)[i].depth > d
  {
  }

  /** Attaching a leaf keeps every child deeper than its parent. */
  lemma {:induction false} AttachNested(f: seq<Heading>, h: Heading)
    requires Nested(f) && h.children == []
    ensures Nested(Attach(f, h))
    decreases f, 1
  {
    assert NestedNode(h);
    if f != [] {
      var last := f[|f| - 1];
      if last.depth < h.depth {
        AttachBelowNested(last, h);
        var r := Attach(f, h);
        forall i | 0 <= i < |r|
          ensures NestedNode(r[i])
        {
          if i < |f| - 1 {
            assert r[i] == f[i];
          }
        }
      } else {
        var r := Attach(f, h);
        forall i | 0 <= i < |r|
          ensures NestedNode(r[i])
        {
          if i < |f| {
            assert r[i] == f[i];
          }
        }
      }
    }
  }

  lemma {:induction false} AttachBelowNested(p: Heading, h: Heading)
    requires NestedNode(p) && h.children == [] && p.depth < h.depth
    ensures NestedNode(AttachBelow(p, h))
    decreases p, 0
  {
    AttachNested(p.children, h);
    AttachRoots(p.children, h, p.depth);
  }

  lemma {:induction false} BuildFromNested(f: seq<Heading>, hs: seq<Heading>)
    requires Nested(f)
    requires forall k :: 0 <= k < |hs| ==> hs[k].children == []
    ensures Nested(BuildFrom(f, hs))
    decreases |hs|
  {
    if hs != [] {
      AttachNested(f, hs[0]);
      BuildFromNested(Attach(f, hs[0]), hs[1..]);
    }
  }

  /** In the built tree every child is strictly deeper than its parent. */
  lemma BuildHeadingTreeNested(hs: seq<Heading>)
    requires forall k :: 0 <= k < |hs| ==> hs[k].children == []
    ensures Nested(BuildHeadingTree(hs))
  {
    BuildFromNested([], hs);
  }

  /** Depths strictly increase along the rightmost path of a nested forest. */
  lemma {:induction false} RightPathIncreasing(f: seq<Heading>)
    requires Nested(f)
    ensures StrictlyIncreasing(RightPath(f))
    ensures RightPath(f) != [] ==> RightPath(f)[0] == f[|f| - 1].depth
    decreases f, 1
  {
    if f != [] {
      RightPathNodeIncreasing(f[|f| - 1]);
    }
  }

  lemma {:induction false} RightPathNodeIncreasing(n: Heading)
    requires NestedNode(n)
    ensures StrictlyIncreasing(RightPathNode(n))
    decreases n, 0
  {
    RightPathIncreasing(n.children);
    var rest := RightPath(n.children);
    if rest != [] {
      assert rest[0] > n.depth;
    }
    var s := RightPathNode(n);
    forall i, j | 0 <= i < j < |s|
      ensures s[i] < s[j]
    {
      if i > 0 {
        assert s[i] == rest[i - 1] && s[j] == rest[j - 1];
      } else {
        assert s[j] == rest[j - 1];
        assert rest[0] <= rest[j - 1];
      }
    }
  }

  /** Popping a stack whose bottom is already at least as deep empties it. */
  lemma {:induction false} PopAll(stack: seq<int>, depth: int)
    requires StrictlyIncreasing(stack)
    requires stack != [] ==> stack[0] >= depth
    ensures Pop(stack, depth) == []
    decreases |stack|
  {
    if stack != [] {
      PopAll(stack[..|stack| - 1], depth);
    }
  }

  /** An entry shallower than `depth` at the bottom of the stack survives popping. */
  lemma {:induction false} PopKeepsBottom(a: int, rest: seq<int>, depth: int)
    requires a < depth
    ensures Pop([a] + rest, depth) == [a] + Pop(rest, depth)
    decreases |rest|
  {
    var s := [a] + rest;
    if rest != [] {
      assert s[|s| - 1] == rest[|rest| - 1];
      assert s[..|s| - 1] == [a] + rest[..|rest| - 1];
      if rest[|rest| - 1] >= depth {
        PopKeepsBottom(a, rest[..|rest| - 1], depth);
      }
    }
  }

  /**
   * The functional step and the stack agree: after attaching `h`, the
   * rightmost path is the old stack popped down to entries shallower than
   * `h`, with `h` pushed. So `h`'s parent is the nearest earlier heading
   * that is strictly shallower and still on the stack.
   */
  lemma {:induction false} AttachIsStackStep(f: seq<Heading>, h: Heading)
    requires Nested(f) && h.children == []
    ensures RightPath(Attach(f, h)) == Pop(RightPath(f), h.depth) + [h.depth]
    decreases f, 1
  {
    RightPathIncreasing(f);
    if f == [] {
      assert RightPath([h]) == RightPathNode(h) == [h.depth];
    } else {
      var last := f[|f| - 1];
      if last.depth < h.depth {
        var r := Attach(f, h);
        assert r[|r| - 1] == AttachBelow(last, h);
        assert RightPath(r) == [last.depth] + RightPath(Attach(last.children, h));
        AttachIsStackStep(last.children, h);
        PopKeepsBottom(last.depth, RightPath(last.children), h.depth);
      } else {
        PopAll(RightPath(f), h.depth);
        var r := f + [h];
        assert r[|r| - 1] == h;
        assert RightPath(r) == RightPathNode(h) == [h.depth];
      }
    }
  }

  function H(depth: int, text: string): Heading {
    Heading(depth, text, text, [])
  }

  /** `## A`, `### B`, `### C`, `## D` nest as A with children B and C, then D. */
  lemma TreeExample()
    ensures BuildHeadingTree([H(2, "A"), H(3, "B"), H(3, "C"), H(2, "D")])
         == [Heading(2, "A", "A", [H(3, "B"), H(3, "C")]), H(2, "D")]
  {
    var a, b, c, d := H(2, "A"), H(3, "B"), H(3, "C"), H(2, "D");
    var f1 := [a];
    var f2 := [Heading(2, "A", "A", [b])];
    var f3 := [Heading(2, "A", "A", [b, c])];
    var f4 := [Heading(2, "A", "A", [b, c]), d];
    TreeSteps();
    BuildFromStep(f3, d, [], f4);
    BuildFromStep(f2, c, [d], f3);
    BuildFromStep(f1, b, [c] + [d], f2);
    BuildFromStep([], a, [b] + ([c] + [d]), f1);
    Seqs.Display4(a, b, c, d);
  }

  /** The four attachments of the tree example. */
  lemma TreeSteps()
    ensures Attach([], H(2, "A")) == [H(2, "A")]
    ensures Attach([H(2, "A")], H(3, "B")) == [Heading(2, "A", "A", [H(3, "B")])]
    ensures Attach([Heading(2, "A", "A", [H(3, "B")])], H(3, "C"))
         == [Heading(2, "A", "A", [H(3, "B"), H(3, "C")])]
    ensures Attach([Heading(2, "A", "A", [H(3, "B"), H(3, "C")])], H(2, "D"))
         == [Heading(2, "A", "A", [H(3, "B"), H(3, "C")]), H(2, "D")]
  {
    var b, c := H(3, "B"), H(3, "C");
    assert [H(2, "A")][..0] == [];
    assert Attach([], b) == [b];
    assert [Heading(2, "A", "A", [b])][..0] == [];
    assert Attach([b], c) == [b] + [c] == [b, c];
  }

  /** One step of `BuildFrom`: attach the first heading, then go on with the rest. */
  lemma BuildFromStep(f: seq<Heading>, h: Heading, rest: seq<Heading>, g: seq<Heading>)
    requires Attach(f, h) == g
    ensures BuildFrom(f, [h] + rest) == BuildFrom(g, rest)
  {
    Seqs.ConsTail(h, rest);
  }

  // ---------------------------------------------------------------------
  // Headings as stored values
  // ---------------------------------------------------------------------

  /** A heading object as a value: depth, text, id and, when present, children. */
  function HeadingValue(h: Heading): (v: Value)
    ensures v.List? && |v.items| >= 3
    ensures v.items[0] == Int(h.depth) && v.items[1] == Str(h.text) && v.items[2] == Str(h.id)
    ensures |v.items| == 4 <==> h.children != []
    decreases h, 0
  {
    List([Int(h.depth), Str(h.text), Str(h.id)]
         + (if h.children == [] then [] else [HeadingsValue(h.children)]))
  }

  function HeadingsValue(hs: seq<Heading>): (v: Value)
    ensures v.List? && |v.items| == |hs|
    decreases hs, 1
  {
    List(seq(|hs|, i requires 0 <= i < |hs| => HeadingValue(hs[i])))
  }
}

=== FILE: hmr.dfy ===
/**
 * The development watcher's updates (`handleFileChange`, `handleFileRemove`):
 * each file event patches one key of the compiled entries and of the
 * manifest's entries. Reading the file and compiling it are folded into
 * the outcome the change handler receives; writing the component file,
 * module invalidation and logging are left out.
 */
module Hmr {
  import opened Wrappers
  import Assoc
  import Compiler
  import Headings
  import ManifestBuilder

  /** What the watcher mutates: the compiled-entries map and the manifest object. */
  datatype State = State(compiled: ManifestBuilder.CompiledEntries, manifest: ManifestBuilder.Manifest)

  /** A custom event sent to the browser; the timestamp is left out. */
  datatype Event = Event(name: string, path: string)

  const RemoveEventName: string := "inertia-content:remove"

  /**
   * `handleFileChange`. `outcome` is the result of reading and compiling the
   * file; a failure is caught and leaves both maps as they were. On success
   * the compiled entry and its manifest entry are stored at the entry's
   * `_path`, and no other key changes. The version is never touched.
   */
  function HandleChange(st: State, outcome: Result<Compiler.Compiled, string>): (r: State)
    ensures outcome.Failure? ==> r == st
    ensures outcome.Success? ==>
              var k := ManifestBuilder.EntryKey(outcome.value);
              && Assoc.Get(r.compiled, k) == Some(outcome.value)
              && Assoc.Get(r.manifest.entries, k) == Some(ManifestBuilder.EntryFor(k, outcome.value))
    ensures outcome.Success? ==>
              forall k :: k != ManifestBuilder.EntryKey(outcome.value) ==>
                && Assoc.Get(r.compiled, k) == Assoc.Get(st.compiled, k)
                && Assoc.Get(r.manifest.entries, k) == Assoc.Get(st.manifest.entries, k)
    ensures r.manifest.version == st.manifest.version
    ensures r.manifest.generatedAt == st.manifest.generatedAt
    ensures Assoc.UniqueKeys(st.compiled) ==> Assoc.UniqueKeys(r.compiled)
    ensures Assoc.UniqueKeys(st.manifest.entries) ==> Assoc.UniqueKeys(r.manifest.entries)
  {
    match outcome
    case Failure(_) => st
    case Success(c) =>
      var k := ManifestBuilder.EntryKey(c);
      var e := ManifestBuilder.EntryFor(k, c);
      var compiled := Assoc.Set(st.compiled, k, c);
      var entries := Assoc.Set(st.manifest.entries, k, e);
      Assoc.SetGet(st.compiled, k, c);
      Assoc.SetGet(st.manifest.entries, k, e);
      assert Assoc.UniqueKeys(st.compiled) ==> Assoc.UniqueKeys(compiled) by {
        if Assoc.UniqueKeys(st.compiled) {
          Assoc.SetUnique(st.compiled, k, c);
        }
      }
      assert Assoc.UniqueKeys(st.manifest.entries) ==> Assoc.UniqueKeys(entries) by {
        if Assoc.UniqueKeys(st.manifest.entries) {
          Assoc.SetUnique(st.manifest.entries, k, e);
        }
      }
      State(compiled, st.manifest.(entries := entries))
  }

  /**
   * `handleFileRemove`. The key is the relative path without `.md` and with
   * slashes; it is deleted from both maps, every other key is kept, and the
   * browser is told which path went away.
   */
  function HandleRemove(st: State, relativePath: string): (r: (State, Event))
    ensures var k := Compiler.ContentPath(relativePath);
            && Assoc.Get(r.0.compiled, k) == None
            && Assoc.Get(r.0.manifest.entries, k) == None
    ensures forall k :: k != Compiler.ContentPath(relativePath) ==>
              && Assoc.Get(r.0.compiled, k) == Assoc.Get(st.compiled, k)
              && Assoc.Get(r.0.manifest.entries, k) == Assoc.Get(st.manifest.entries, k)
    ensures r.0.manifest.version == st.manifest.version
    ensures r.0.manifest.generatedAt == st.manifest.generatedAt
    ensures r.1 == Event(RemoveEventName, Compiler.ContentPath(relativePath))
    ensures var k := Compiler.ContentPath(relativePath);
            k !in Assoc.Keys(st.compiled) && k !in Assoc.Keys(st.manifest.entries) ==> r.0 == st
  {
    var k := Compiler.ContentPath(relativePath);
    var compiled := Assoc.Remove(st.compiled, k);
    var entries := Assoc.Remove(st.manifest.entries, k);
    Assoc.RemoveSpec(st.compiled, k);
    Assoc.RemoveSpec(st.manifest.entries, k);
    assert k !in Assoc.Keys(st.compiled) && k !in Assoc.Keys(st.manifest.entries) ==>
             compiled == st.compiled && entries == st.manifest.entries by {
      if k !in Assoc.Keys(st.compiled) && k !in Assoc.Keys(st.manifest.entries) {
        Assoc.RemoveAbsent(st.compiled, k);
        Assoc.RemoveAbsent(st.manifest.entries, k);
      }
    }
    (State(compiled, st.manifest.(entries := entries)), Event(RemoveEventName, k))
  }

  // ---------------------------------------------------------------------
  // Lemmas
  // ---------------------------------------------------------------------

  /**
   * For a file whose frontmatter does not set `_path`, the key the change
   * handler stores under is the key the remove handler deletes.
   */
  lemma ChangeAndRemoveAgree(source: string, fm: Compiler.Meta, content: string, info: Compiler.FileInfo,
                             sep: char, options: Compiler.CompileOptions, svc: Compiler.Services)
    requires Assoc.UniqueKeys(fm) && "_path" !in Assoc.Keys(fm)
    ensures ManifestBuilder.EntryKey(Compiler.Compile(source, fm, content, info, sep, options, svc))
            == Compiler.ContentPath(info.relativePath)
  {
    Compiler.CompiledPath(source, fm, content, info, sep, options, svc);
  }

  /**
   * Adding a file and then deleting it leaves every other key as it was
   * before the add, and the deleted key absent.
   */
  lemma AddThenRemove(st: State, source: string, fm: Compiler.Meta, content: string, info: Compiler.FileInfo,
                      sep: char, options: Compiler.CompileOptions, svc: Compiler.Services)
    requires Assoc.UniqueKeys(fm) && "_path" !in Assoc.Keys(fm)
    ensures var c := Compiler.Compile(source, fm, content, info, sep, options, svc);
            var after := HandleRemove(HandleChange(st, Success(c)), info.relativePath).0;
            var k := Compiler.ContentPath(info.relativePath);
            && Assoc.Get(after.compiled, k) == None
            && Assoc.Get(after.manifest.entries, k) == None
            && (forall k' :: k' != k ==> Assoc.Get(after.compiled, k') == Assoc.Get(st.compiled, k'))
            && (forall k' :: k' != k ==> Assoc.Get(after.manifest.entries, k') == Assoc.Get(st.manifest.entries, k'))
            && after.manifest.version == st.manifest.version
  {
    ChangeAndRemoveAgree(source, fm, content, info, sep, options, svc);
  }
}

=== FILE: install.dfy ===
/**
 * The install command's edits: merging the package's dependencies into the
 * host's `devDependencies` (`updateNodeDependencies`,
 * `getPackageDependencies`) and the three guarded edits of the Vite
 * configuration text (`addViteImport`, `addVitePlugin`, `addViteAlias`).
 * Finding, reading, backing up and writing files are left out: each edit
 * takes the decoded or read content and returns what would be written.
 */
module Install {
  import opened Wrappers
  import opened Strings
  import opened Values
  import Assoc
  import PackageJson

  // ---------------------------------------------------------------------
  // Dependencies
  // ---------------------------------------------------------------------

  /**
   * `getPackageDependencies`: the package's `dependencies` followed by its
   * `devDependencies`, the latter winning on a name clash; a missing
   * `package.json` gives no dependencies.
   */
  function PackageDependencies(own: Option<PackageJson.Package>): (r: Result<Assoc.Table<string>, PackageJson.PackageError>)
    ensures own.None? ==> r == Success([])
    ensures own.Some? ==>
              (r.Failure? <==> PackageJson.DepsAt(own.value, PackageJson.Dependencies).Failure?
                               || PackageJson.DepsAt(own.value, PackageJson.DevDependencies).Failure?)
    ensures own.Some? && PackageJson.WellFormed(own.value) && r.Success? ==> Assoc.UniqueKeys(r.value)
  {
    match own
    case None => Success([])
    case Some(p) =>
      match PackageJson.DepsAt(p, PackageJson.Dependencies)
      case Failure(e) => Failure(e)
      case Success(deps) =>
        match PackageJson.DepsAt(p, PackageJson.DevDependencies)
        case Failure(e) => Failure(e)
        case Success(dev) =>
          var r := Assoc.Merge(deps, dev);
          assert PackageJson.WellFormed(p) ==> Assoc.UniqueKeys(r) by {
            if PackageJson.WellFormed(p) {
              Assoc.MergeUnique(deps, dev);
            }
          }
          Success(r)
  }

  /** `array_diff_key($a, $b)`: the entries of `a` whose key is not a key of `b`, in order. */
  function DiffKey(a: Assoc.Table<string>, b: Assoc.Table<string>): (r: Assoc.Table<string>)
    ensures |r| <= |a|
    ensures forall i :: 0 <= i < |r| ==> r[i] in a && r[i].0 !in Assoc.Keys(b)
    ensures forall i :: 0 <= i < |a| && a[i].0 !in Assoc.Keys(b) ==> a[i] in r
    decreases |a|
  {
    if |a| == 0 then []
    else
      var rest := DiffKey(a[1..], b);
      assert forall i :: 1 <= i < |a| ==> a[i] == a[1..][i - 1];
      (if a[0].0 in Assoc.Keys(b) then [] else [a[0]]) + rest
  }

  /** Whether the install command rewrites `package.json`, and with what. */
  datatype Outcome = Unchanged | Rewritten(package: PackageJson.Package)

  /**
   * The `devDependencies` the install command writes: the host's own, plus
   * the package's dependencies the host lacks, sorted by name. A version the
   * host already pins is never replaced.
   */
  function MergedDev(hostDev: Assoc.Table<string>, deps: Assoc.Table<string>): (r: Assoc.Table<string>)
    ensures Assoc.UniqueKeys(hostDev) && Assoc.UniqueKeys(deps) ==>
              && Assoc.UniqueKeys(r)
              && forall k :: Assoc.Get(r, k) == if k in Assoc.Keys(hostDev) then Assoc.Get(hostDev, k) else Assoc.Get(deps, k)
    ensures forall i :: 0 <= i < |r| - 1 ==> PackageJson.NameOrder(r[i].0, r[i + 1].0) <= 0
  {
    var added := DiffKey(deps, hostDev);
    var joined := Assoc.Merge(hostDev, added);
    var r := Assoc.KSort(joined, PackageJson.NameOrder);
    assert forall a, b :: PackageJson.NameOrder(a, b) == -PackageJson.NameOrder(b, a) by {
      forall a, b ensures PackageJson.NameOrder(a, b) == -PackageJson.NameOrder(b, a) {
        StrCmpAntisymmetric(a, b);
      }
    }
    Assoc.KSortOrdered(joined, PackageJson.NameOrder);
    assert Assoc.UniqueKeys(hostDev) && Assoc.UniqueKeys(deps) ==>
             && Assoc.UniqueKeys(r)
             && forall k :: Assoc.Get(r, k) == if k in Assoc.Keys(hostDev) then Assoc.Get(hostDev, k) else Assoc.Get(deps, k)
    by {
      if Assoc.UniqueKeys(hostDev) && Assoc.UniqueKeys(deps) {
        DiffKeyUnique(deps, hostDev);
        Assoc.MergeUnique(hostDev, added);
        forall k
          ensures Assoc.Get(r, k) == if k in Assoc.Keys(hostDev) then Assoc.Get(hostDev, k) else Assoc.Get(deps, k)
        {
          Assoc.KSortSpec(joined, PackageJson.NameOrder, k);
          Assoc.MergeSpec(hostDev, added, k);
          DiffKeyGet(deps, hostDev, k);
        }
        Assoc.KSortSpec(joined, PackageJson.NameOrder, "");
      }
    }
    r
  }

  /**
   * `updateNodeDependencies`. `host` is the host's decoded `package.json`
   * (`None` when the file is missing) and `deps` the package's dependencies.
   * Only the dependencies the host lacks are added; when there are none the
   * file is left alone.
   */
  function UpdateNodeDependencies(host: Option<PackageJson.Package>, deps: Assoc.Table<string>)
    : (r: Result<Outcome, PackageJson.PackageError>)
    ensures host.None? ==> r == Success(Unchanged)
    ensures host.Some? ==> (r.Failure? <==> PackageJson.DepsAt(host.value, PackageJson.DevDependencies).Failure?)
    ensures host.Some? && r.Success? ==>
              var hostDev := PackageJson.DepsAt(host.value, PackageJson.DevDependencies).value;
              (r.value == Unchanged <==> forall i :: 0 <= i < |deps| ==> deps[i].0 in Assoc.Keys(hostDev))
    ensures r.Success? && r.value.Rewritten? ==>
              var hostDev := PackageJson.DepsAt(host.value, PackageJson.DevDependencies).value;
              Assoc.Get(r.value.package, PackageJson.DevDependencies) == Some(PackageJson.Deps(MergedDev(hostDev, deps)))
    ensures r.Success? && r.value.Rewritten? ==>
              forall k :: k != PackageJson.DevDependencies ==> Assoc.Get(r.value.package, k) == Assoc.Get(host.value, k)
  {
    match host
    case None => Success(Unchanged)
    case Some(h) =>
      match PackageJson.DepsAt(h, PackageJson.DevDependencies)
      case Failure(e) => Failure(e)
      case Success(hostDev) =>
        if DiffKey(deps, hostDev) == [] then
          Success(Unchanged)
        else
          var merged := MergedDev(hostDev, deps);
          Assoc.SetGet(h, PackageJson.DevDependencies, PackageJson.Deps(merged));
          Success(Rewritten(Assoc.Set(h, PackageJson.DevDependencies, PackageJson.Deps(merged))))
  }

  // ---------------------------------------------------------------------
  // Vite configuration
  // ---------------------------------------------------------------------

  /** The text whose presence means each edit has already been made. */
  const ImportMarker: string := "inertiaContent"
  const PluginMarker: string := "inertiaContent()"
  const AliasMarker: string := "@inertia-content"

  const ImportSource: string := " from './vendor/" + "farsi/" + "inertia-content/" + "resources/" + "js/vite';"
  const ViteImport: string := "import " + ImportMarker + ImportSource

  const PluginsOpen: string := "plugins: ["
  /** What `addVitePlugin` writes right after `plugins: [`. */
  const PluginInsert: string := "\n        " + PluginMarker + ","
  const PluginEntry: string := PluginsOpen + PluginInsert

  const AliasTarget: string := "': '/vendor/" + "farsi/" + "inertia-content/" + "resources/" + "js',"
  const Alias: string := "'" + AliasMarker + AliasTarget

  const ResolveOpen: string := "resolve: {"
  const AliasOpen: string := "alias: {"
  const CallClose: string := "}),"

  /**
   * The text `addViteAlias` writes in each of its three cases: every case
   * keeps the text it searched for and inserts new text right after it.
   */
  const AliasInAlias: string := "\n            " + Alias
  const AliasInResolve: string := "\n        " + AliasOpen + "\n            " + Alias + "\n        },"
  const ResolveAfterCall: string :=
    "\n    " + ResolveOpen + "\n        " + AliasOpen + "\n            " + Alias + "\n        }\n    },"
  const AliasIntoAlias: string := AliasOpen + AliasInAlias
  const AliasIntoResolve: string := ResolveOpen + AliasInResolve
  const AliasAfterCall: string := CallClose + ResolveAfterCall

  /** Whether a line, already passed through PHP's `trim`, starts with `import`. */
  predicate IsImport(trimmed: string) {
    StartsWith(trimmed, "import")
  }

  /** Each line after PHP's `trim`. */
  function TrimmedLines(lines: seq<string>): (ts: seq<string>)
    ensures |ts| == |lines|
  {
    if |lines| == 0 then [] else TrimmedLines(lines[..|lines| - 1]) + [PhpTrim(lines[|lines| - 1])]
  }

  lemma {:induction false} TrimmedLinesAt(lines: seq<string>, i: nat)
    requires i < |lines|
    ensures TrimmedLines(lines)[i] == PhpTrim(lines[i])
  {
    if i < |lines| - 1 {
      TrimmedLinesAt(lines[..|lines| - 1], i);
    }
  }

  /** The index of the last import line among the first `n` trimmed lines. */
  function LastImport(ts: seq<string>, n: nat): (r: Option<nat>)
    requires n <= |ts|
    ensures r.Some? ==> r.value < n && IsImport(ts[r.value])
    ensures r.Some? ==> forall j :: r.value < j < n ==> !IsImport(ts[j])
    ensures r.None? ==> forall j :: 0 <= j < n ==> !IsImport(ts[j])
    decreases n
  {
    if n == 0 then None
    else if IsImport(ts[n - 1]) then Some(n - 1)
    else LastImport(ts, n - 1)
  }

  /** Where `addViteImport` puts the import: after the last line whose trimmed text starts with `import`. */
  function ImportAnchor(lines: seq<string>): (r: Option<nat>)
    ensures r.Some? ==> r.value < |lines|
  {
    var ts := TrimmedLines(lines);
    LastImport(ts, |ts|)
  }

  /** The anchor is an import line and no later line is one; without an anchor no line is one. */
  lemma ImportAnchorIsLast(lines: seq<string>)
    ensures var r := ImportAnchor(lines);
            && (r.Some? ==> StartsWith(PhpTrim(lines[r.value]), "import"))
            && (r.Some? ==> forall j :: r.value < j < |lines| ==> !StartsWith(PhpTrim(lines[j]), "import"))
            && (r.None? ==> forall j :: 0 <= j < |lines| ==> !StartsWith(PhpTrim(lines[j]), "import"))
  {
    forall j | 0 <= j < |lines| {
      TrimmedLinesAt(lines, j);
    }
  }

  /**
   * `addViteImport`: the import goes on a new line right after the last
   * import line, or on a first line of its own when there is none.
   */
  function AddViteImport(content: string): (r: string)
    ensures Contains(r, ImportMarker)
    ensures ImportAnchor(Split(content, '\n')).None? ==> r == ViteImport + "\n" + content
    ensures ImportAnchor(Split(content, '\n')).None? ==> Split(r, '\n') == [ViteImport] + Split(content, '\n')
    ensures ImportAnchor(Split(content, '\n')).Some? ==>
              var lines := Split(content, '\n');
              var i := ImportAnchor(lines).value;
              Split(r, '\n') == lines[..i + 1] + [ViteImport] + lines[i + 1..]
  {
    var lines := Split(content, '\n');
    match ImportAnchor(lines)
    case None =>
      PrependedImport(content);
      ViteImport + "\n" + content
    case Some(i) =>
      InsertedImport(lines, i);
      Join(lines[..i + 1] + [ViteImport] + lines[i + 1..], '\n')
  }

  /** `addVitePlugin`: the plugin call goes first in the first `plugins: [` list; without one nothing changes. */
  function AddVitePlugin(content: string): (r: string)
    ensures !Contains(content, PluginsOpen) ==> r == content
    ensures Contains(content, PluginsOpen) ==>
              exists i :: OccursAt(content, PluginsOpen, i) && (forall j :: 0 <= j < i ==> !OccursAt(content, PluginsOpen, j))
                          && r == content[..i] + PluginEntry + content[i + |PluginsOpen|..]
    ensures Contains(content, PluginsOpen) ==> Contains(r, PluginMarker)
  {
    if Contains(content, PluginsOpen) then
      var i := IndexOf(content, PluginsOpen).value;
      PluginEntryHasMarker();
      InsertedContains(content, i, |PluginsOpen|, PluginEntry, PluginMarker);
      content[..i] + PluginEntry + content[i + |PluginsOpen|..]
    else content
  }

  /**
   * `addViteAlias`: with a `resolve: {` block the alias goes into its
   * first `alias: {` block, or into a new one at the top of the first
   * `resolve: {`; without one a `resolve` block is added after the last
   * `}),`; when none of these exists nothing changes.
   */
  function AddViteAlias(content: string): (r: string)
    ensures Contains(content, ResolveOpen) || Contains(content, CallClose) ==> Contains(r, AliasMarker)
    ensures !Contains(content, ResolveOpen) && !Contains(content, CallClose) ==> r == content
  {
    AliasTextsHaveMarker();
    if Contains(content, ResolveOpen) then
      if Contains(content, AliasOpen) then
        ReplaceContains(content, AliasOpen, AliasIntoAlias, AliasMarker);
        ReplaceFirst(content, AliasOpen, AliasIntoAlias)
      else
        ReplaceContains(content, ResolveOpen, AliasIntoResolve, AliasMarker);
        ReplaceFirst(content, ResolveOpen, AliasIntoResolve)
    else
      var r := ReplaceLast(content, CallClose, AliasAfterCall);
      assert Contains(content, CallClose) ==> Contains(r, AliasMarker) by {
        if Contains(content, CallClose) {
          var i :| OccursAt(content, CallClose, i) && r == content[..i] + AliasAfterCall + content[i + |CallClose|..];
          InsertedContains(content, i, |CallClose|, AliasAfterCall, AliasMarker);
        }
      }
      r
  }

  /** The import edit, made only when the configuration does not mention `inertiaContent`. */
  function ImportStep(content: string): (r: string)
    ensures Contains(r, ImportMarker)
    ensures Contains(content, ImportMarker) ==> r == content
  {
    if !Contains(content, ImportMarker) then AddViteImport(content) else content
  }

  /** The plugin edit, made only when `inertiaContent()` is not there yet. */
  function PluginStep(content: string): (r: string)
    ensures Contains(content, PluginMarker) ==> r == content
    ensures Contains(content, PluginsOpen) ==> Contains(r, PluginMarker)
    ensures !Contains(content, PluginsOpen) ==> r == content
  {
    if !Contains(content, PluginMarker) then AddVitePlugin(content) else content
  }

  /** The alias edit, made only when `@inertia-content` is not there yet. */
  function AliasStep(content: string): (r: string)
    ensures Contains(content, AliasMarker) ==> r == content
    ensures Contains(content, ResolveOpen) || Contains(content, CallClose) ==> Contains(r, AliasMarker)
    ensures !Contains(content, ResolveOpen) && !Contains(content, CallClose) ==> r == content
  {
    if !Contains(content, AliasMarker) then AddViteAlias(content) else content
  }

  /** `updateViteConfiguration` on the configuration's text: the three guarded edits in order. */
  function UpdateViteConfiguration(content: string): (r: string)
    ensures Contains(r, AliasMarker) || !Contains(PluginStep(ImportStep(content)), ResolveOpen)
  {
    AliasStep(PluginStep(ImportStep(content)))
  }

  // ---------------------------------------------------------------------
  // Lemmas: dependencies
  // ---------------------------------------------------------------------

  /** Filtering a table with unique keys keeps them unique. */
  lemma {:induction false} DiffKeyUnique(a: Assoc.Table<string>, b: Assoc.Table<string>)
    requires Assoc.UniqueKeys(a)
    ensures Assoc.UniqueKeys(DiffKey(a, b))
    decreases |a|
  {
    if |a| > 0 {
      Assoc.UniqueTail(a);
      DiffKeyUnique(a[1..], b);
      var rest := DiffKey(a[1..], b);
      if a[0].0 !in Assoc.Keys(b) {
        assert a[0].0 !in Assoc.Keys(rest) by {
          forall i | 0 <= i < |rest|
            ensures rest[i].0 != a[0].0
          {
            Assoc.EntryKey(a[1..], rest[i].0, rest[i].1);
          }
        }
        Assoc.UniqueCons(a[0], rest);
      }
    }
  }

  /** A key of the filtered table has its old value; the keys of `b` are gone. */
  lemma DiffKeyGet(a: Assoc.Table<string>, b: Assoc.Table<string>, k: string)
    requires Assoc.UniqueKeys(a)
    ensures Assoc.Get(DiffKey(a, b), k) == if k in Assoc.Keys(b) then None else Assoc.Get(a, k)
  {
    var r := DiffKey(a, b);
    DiffKeyUnique(a, b);
    match Assoc.Get(r, k)
    case Some(v) =>
      Assoc.GetMember(r, k, v);
      Assoc.GetMember(a, k, v);
    case None =>
      if k !in Assoc.Keys(b) && Assoc.Get(a, k).Some? {
        var v := Assoc.Get(a, k).value;
        Assoc.GetMember(a, k, v);
        Assoc.EntryKey(r, k, v);
      }
  }

  /** `devDependencies` win over `dependencies` for a package named in both. */
  lemma DevDependenciesWin(p: PackageJson.Package, k: string)
    requires PackageJson.WellFormed(p)
    requires PackageDependencies(Some(p)).Success?
    ensures var deps := PackageJson.DepsAt(p, PackageJson.Dependencies).value;
            var dev := PackageJson.DepsAt(p, PackageJson.DevDependencies).value;
            Assoc.Get(PackageDependencies(Some(p)).value, k)
              == if k in Assoc.Keys(dev) then Assoc.Get(dev, k) else Assoc.Get(deps, k)
  {
    var deps := PackageJson.DepsAt(p, PackageJson.Dependencies).value;
    var dev := PackageJson.DepsAt(p, PackageJson.DevDependencies).value;
    Assoc.MergeSpec(deps, dev, k);
  }

  /** Running the dependency update on its own output does not rewrite the file again. */
  lemma UpdateNodeDependenciesIdempotent(h: PackageJson.Package, deps: Assoc.Table<string>)
    requires PackageJson.WellFormed(h) && Assoc.UniqueKeys(deps)
    requires UpdateNodeDependencies(Some(h), deps).Success?
    requires UpdateNodeDependencies(Some(h), deps).value.Rewritten?
    ensures UpdateNodeDependencies(Some(UpdateNodeDependencies(Some(h), deps).value.package), deps)
            == Success(Unchanged)
  {
    var p := UpdateNodeDependencies(Some(h), deps).value.package;
    var hostDev := PackageJson.DepsAt(h, PackageJson.DevDependencies).value;
    var merged := MergedDev(hostDev, deps);
    assert PackageJson.DepsAt(p, PackageJson.DevDependencies) == Success(merged);
    forall i | 0 <= i < |deps|
      ensures deps[i].0 in Assoc.Keys(merged)
    {
      var (k, v) := deps[i];
      Assoc.EntryKey(deps, k, v);
      assert Assoc.Get(merged, k).Some?;
    }
  }

  // ---------------------------------------------------------------------
  // Lemmas: Vite configuration
  // ---------------------------------------------------------------------

  /** A string occurs in any concatenation that has it in the middle. */
  lemma ImportHasMarker()
    ensures Contains(ViteImport, ImportMarker)
    ensures '\n' !in ViteImport
  {
    ContainsMiddle("import ", ImportMarker, ImportSource);
  }

  lemma PluginEntryHasMarker()
    ensures Contains(PluginEntry, PluginMarker)
  {
    ContainsMiddle("\n        ", PluginMarker, ",");
    ContainsInRight(PluginsOpen, PluginInsert, PluginMarker);
  }

  lemma AliasTextsHaveMarker()
    ensures Contains(AliasIntoAlias, AliasMarker)
    ensures Contains(AliasIntoResolve, AliasMarker)
    ensures Contains(AliasAfterCall, AliasMarker)
  {
    ContainsMiddle("'", AliasMarker, AliasTarget);
    ContainsInRight("\n            ", Alias, AliasMarker);
    ContainsInRight(AliasOpen, AliasInAlias, AliasMarker);
    var p2 := "\n        " + AliasOpen + "\n            ";
    ContainsInRight(p2, Alias, AliasMarker);
    ContainsInLeft(p2 + Alias, "\n        },", AliasMarker);
    ContainsInRight(ResolveOpen, AliasInResolve, AliasMarker);
    var p3 := "\n    " + ResolveOpen + "\n        " + AliasOpen + "\n            ";
    ContainsInRight(p3, Alias, AliasMarker);
    ContainsInLeft(p3 + Alias, "\n        }\n    },", AliasMarker);
    ContainsInRight(CallClose, ResolveAfterCall, AliasMarker);
  }

  /** Replacing the piece of `s` at `[i, i + n)` by text containing `m` gives text containing `m`. */
  lemma InsertedContains(s: string, i: nat, n: nat, repl: string, m: string)
    requires i + n <= |s|
    requires Contains(repl, m)
    ensures Contains(s[..i] + repl + s[i + n..], m)
  {
    ContainsInRight(s[..i], repl, m);
    ContainsInLeft(s[..i] + repl, s[i + n..], m);
  }

  /** Replacing the first occurrence of a present string by text containing `m` gives text containing `m`. */
  lemma ReplaceContains(s: string, search: string, repl: string, m: string)
    requires |search| > 0 && Contains(s, search) && Contains(repl, m)
    ensures Contains(ReplaceFirst(s, search, repl), m)
  {
    var r := ReplaceFirst(s, search, repl);
    var i :| OccursAt(s, search, i) && r == s[..i] + repl + s[i + |search|..];
    assert 0 <= i && i + |search| <= |s|;
    InsertedContains(s, i, |search|, repl, m);
  }

  /** The joined lines contain every text the inserted line contains. */
  lemma JoinHasPiece(before: seq<string>, x: string, after: seq<string>, c: char, m: string)
    requires |before| > 0 && Contains(x, m)
    ensures Contains(Join(before + [x] + after, c), m)
  {
    var tail := [x] + after;
    assert before + [x] + after == before + tail;
    JoinConcat(before, tail, c);
    if |after| == 0 {
      assert Join(tail, c) == x;
    } else {
      assert tail[1..] == after;
      assert Join(tail, c) == x + [c] + Join(after, c);
      ContainsInLeft(x, [c] + Join(after, c), m);
      assert x + [c] + Join(after, c) == x + ([c] + Join(after, c));
    }
    ContainsInRight(Join(before, c) + [c], Join(tail, c), m);
  }

  /** The import put in front of the text is its first line and carries the marker. */
  lemma PrependedImport(content: string)
    ensures Contains(ViteImport + "\n" + content, ImportMarker)
    ensures Split(ViteImport + "\n" + content, '\n') == [ViteImport] + Split(content, '\n')
  {
    ImportHasMarker();
    ContainsInLeft(ViteImport, "\n" + content, ImportMarker);
    assert ViteImport + "\n" + content == ViteImport + ("\n" + content);
    assert ViteImport + "\n" + content == ViteImport + ['\n'] + content;
    SplitJoinPrefix(ViteImport, content, '\n');
  }

  /** The import inserted after line `i` is a line of its own and carries the marker. */
  lemma InsertedImport(lines: seq<string>, i: nat)
    requires i < |lines|
    requires forall j :: 0 <= j < |lines| ==> '\n' !in lines[j]
    ensures var ps := lines[..i + 1] + [ViteImport] + lines[i + 1..];
            Contains(Join(ps, '\n'), ImportMarker) && Split(Join(ps, '\n'), '\n') == ps
  {
    ImportHasMarker();
    JoinHasPiece(lines[..i + 1], ViteImport, lines[i + 1..], '\n', ImportMarker);
    InsertedLineSplits(lines, i, ViteImport, '\n');
  }

  /** Inserting a line without separators after line `i` keeps every line whole when split again. */
  lemma InsertedLineSplits(lines: seq<string>, i: nat, x: string, c: char)
    requires i < |lines| && c !in x
    requires forall j :: 0 <= j < |lines| ==> c !in lines[j]
    ensures Split(Join(lines[..i + 1] + [x] + lines[i + 1..], c), c) == lines[..i + 1] + [x] + lines[i + 1..]
  {
    var ps := lines[..i + 1] + [x] + lines[i + 1..];
    forall j | 0 <= j < |ps|
      ensures c !in ps[j]
    {
      if j <= i {
        assert ps[j] == lines[j];
      } else if j > i + 1 {
        assert ps[j] == lines[j - 1];
      }
    }
    SplitJoin(ps, c);
  }

  /** Replacing an occurrence of `search` by `search + x` inserts `x` right after it. */
  lemma ReplaceIsInsert(s: string, search: string, x: string, i: int)
    requires OccursAt(s, search, i) && |search| > 0
    ensures s[..i] + (search + x) + s[i + |search|..] == s[..i + |search|] + x + s[i + |search|..]
    ensures s[i + |search| - 1] == search[|search| - 1]
  {
    var j := i + |search|;
    assert s[..j] == s[..i] + s[i..j];
    assert s[j - 1] == s[i..j][|search| - 1];
  }

  /** Text inserted at a point not preceded by a character of `m` keeps every occurrence of `m`. */
  lemma InsertKeeps(s: string, j: int, x: string, m: string)
    requires 0 < j <= |s| && Contains(s, m) && s[j - 1] !in m
    ensures Contains(s[..j] + x + s[j..], m)
  {
    var p :| 0 <= p <= |s| && OccursAt(s, m, p);
    var r := s[..j] + x + s[j..];
    if p + |m| <= j {
      assert r[p..p + |m|] == s[p..p + |m|];
      assert OccursAt(r, m, p);
    } else if p >= j {
      assert r[p + |x|..p + |x| + |m|] == s[p..p + |m|];
      assert OccursAt(r, m, p + |x|);
    } else {
      assert false;
    }
  }

  /**
   * Text inserted into `s` creates no occurrence of `t` when neither has one
   * and the inserted text begins and ends with characters foreign to `t`.
   */
  lemma InsertAddsNo(s: string, j: int, x: string, t: string)
    requires 0 <= j <= |s| && |x| > 0
    requires !Contains(s, t) && !Contains(x, t)
    requires x[0] !in t && x[|x| - 1] !in t
    ensures !Contains(s[..j] + x + s[j..], t)
  {
    var r := s[..j] + x + s[j..];
    forall k | 0 <= k <= |r|
      ensures !OccursAt(r, t, k)
    {
      if k + |t| <= |r| {
        if k + |t| <= j {
          assert r[k..k + |t|] == s[k..k + |t|];
          assert !OccursAt(s, t, k);
        } else if k >= j + |x| {
          assert r[k..k + |t|] == s[k - |x|..k - |x| + |t|];
          assert !OccursAt(s, t, k - |x|);
        } else if k <= j {
          assert r[k..k + |t|][j - k] == x[0];
        } else if k + |t| <= j + |x| {
          assert r[k..k + |t|] == x[k - j..k - j + |t|];
          assert !OccursAt(x, t, k - j);
        } else {
          assert r[k..k + |t|][j + |x| - 1 - k] == x[|x| - 1];
        }
      }
    }
  }

  /** A text lacking one of `t`'s characters does not contain `t`. */
  lemma MissingCharNoContains(s: string, t: string, n: int)
    requires 0 <= n < |t| && t[n] !in s
    ensures !Contains(s, t)
  {
    forall i | 0 <= i <= |s|
      ensures !OccursAt(s, t, i)
    {
      if i + |t| <= |s| {
        assert s[i..i + |t|][n] == s[i + n];
      }
    }
  }

  /** The plugin edit keeps every text free of `[`. */
  lemma PluginEditKeeps(c: string, m: string)
    requires Contains(c, m) && '[' !in m
    ensures Contains(AddVitePlugin(c), m)
  {
    if Contains(c, PluginsOpen) {
      var i := IndexOf(c, PluginsOpen).value;
      ReplaceIsInsert(c, PluginsOpen, PluginInsert, i);
      InsertKeeps(c, i + |PluginsOpen|, PluginInsert, m);
    }
  }

  /** The alias edit keeps every text free of `{` and `,`. */
  lemma AliasEditKeeps(c: string, m: string)
    requires Contains(c, m) && '{' !in m && ',' !in m
    ensures Contains(AddViteAlias(c), m)
  {
    if Contains(c, ResolveOpen) {
      if Contains(c, AliasOpen) {
        var i :| OccursAt(c, AliasOpen, i) && ReplaceFirst(c, AliasOpen, AliasIntoAlias) == c[..i] + AliasIntoAlias + c[i + |AliasOpen|..];
        ReplaceIsInsert(c, AliasOpen, AliasInAlias, i);
        InsertKeeps(c, i + |AliasOpen|, AliasInAlias, m);
      } else {
        var i :| OccursAt(c, ResolveOpen, i) && ReplaceFirst(c, ResolveOpen, AliasIntoResolve) == c[..i] + AliasIntoResolve + c[i + |ResolveOpen|..];
        ReplaceIsInsert(c, ResolveOpen, AliasInResolve, i);
        InsertKeeps(c, i + |ResolveOpen|, AliasInResolve, m);
      }
    } else if Contains(c, CallClose) {
      var i :| OccursAt(c, CallClose, i) && ReplaceLast(c, CallClose, AliasAfterCall) == c[..i] + AliasAfterCall + c[i + |CallClose|..];
      ReplaceIsInsert(c, CallClose, ResolveAfterCall, i);
      InsertKeeps(c, i + |CallClose|, ResolveAfterCall, m);
    }
  }

  /** None of the alias texts can complete a `plugins: [`. */
  lemma AliasInsertsForeign()
    ensures |AliasInAlias| > 0 && !Contains(AliasInAlias, PluginsOpen)
    ensures AliasInAlias[0] !in PluginsOpen && AliasInAlias[|AliasInAlias| - 1] !in PluginsOpen
    ensures |AliasInResolve| > 0 && !Contains(AliasInResolve, PluginsOpen)
    ensures AliasInResolve[0] !in PluginsOpen && AliasInResolve[|AliasInResolve| - 1] !in PluginsOpen
    ensures |ResolveAfterCall| > 0 && !Contains(ResolveAfterCall, PluginsOpen)
    ensures ResolveAfterCall[0] !in PluginsOpen && ResolveAfterCall[|ResolveAfterCall| - 1] !in PluginsOpen
  {
    assert PluginsOpen[9] == '[';
    assert '\n' !in PluginsOpen && ',' !in PluginsOpen;
    AliasPiecesNoBracket();
    assert AliasInAlias[|AliasInAlias| - 1] == Alias[|Alias| - 1] == ',';
    MissingCharNoContains(AliasInAlias, PluginsOpen, 9);
    MissingCharNoContains(AliasInResolve, PluginsOpen, 9);
    MissingCharNoContains(ResolveAfterCall, PluginsOpen, 9);
  }

  lemma AliasPiecesNoBracket()
    ensures '[' !in AliasInAlias && '[' !in AliasInResolve && '[' !in ResolveAfterCall
  {
    AliasNoBracket();
    assert '[' !in AliasOpen && '[' !in ResolveOpen;
  }

  lemma AliasNoBracket()
    ensures '[' !in Alias
  {
    assert '[' !in AliasMarker;
    assert '[' !in "': '/vendor/" && '[' !in "farsi/" && '[' !in "inertia-content/";
    assert '[' !in "resources/" && '[' !in "js',";
  }

  /** The alias edit never creates a `plugins: [` list. */
  lemma AliasEditAddsNoPlugins(c: string)
    requires !Contains(c, PluginsOpen)
    ensures !Contains(AddViteAlias(c), PluginsOpen)
  {
    AliasInsertsForeign();
    if Contains(c, ResolveOpen) {
      if Contains(c, AliasOpen) {
        var i :| OccursAt(c, AliasOpen, i) && ReplaceFirst(c, AliasOpen, AliasIntoAlias) == c[..i] + AliasIntoAlias + c[i + |AliasOpen|..];
        ReplaceIsInsert(c, AliasOpen, AliasInAlias, i);
        InsertAddsNo(c, i + |AliasOpen|, AliasInAlias, PluginsOpen);
      } else {
        var i :| OccursAt(c, ResolveOpen, i) && ReplaceFirst(c, ResolveOpen, AliasIntoResolve) == c[..i] + AliasIntoResolve + c[i + |ResolveOpen|..];
        ReplaceIsInsert(c, ResolveOpen, AliasInResolve, i);
        InsertAddsNo(c, i + |ResolveOpen|, AliasInResolve, PluginsOpen);
      }
    } else if Contains(c, CallClose) {
      var i :| OccursAt(c, CallClose, i) && ReplaceLast(c, CallClose, AliasAfterCall) == c[..i] + AliasAfterCall + c[i + |CallClose|..];
      ReplaceIsInsert(c, CallClose, ResolveAfterCall, i);
      InsertAddsNo(c, i + |CallClose|, ResolveAfterCall, PluginsOpen);
    }
  }

  /** The markers hold none of the characters the later edits insert after. */
  lemma MarkerChars()
    ensures '[' !in ImportMarker && '{' !in ImportMarker && ',' !in ImportMarker
    ensures '{' !in PluginMarker && ',' !in PluginMarker
  {
  }

  /** A text free of `[` survives the plugin step. */
  lemma PluginStepKeeps(c: string, m: string)
    requires Contains(c, m) && '[' !in m
    ensures Contains(PluginStep(c), m)
  {
    if !Contains(c, PluginMarker) {
      PluginEditKeeps(c, m);
    }
  }

  /** A text free of `{` and `,` survives the alias step. */
  lemma AliasStepKeeps(c: string, m: string)
    requires Contains(c, m) && '{' !in m && ',' !in m
    ensures Contains(AliasStep(c), m)
  {
    if !Contains(c, AliasMarker) {
      AliasEditKeeps(c, m);
    }
  }

  /** The alias step never creates a `plugins: [` list. */
  lemma AliasStepAddsNoPlugins(c: string)
    requires !Contains(c, PluginsOpen)
    ensures !Contains(AliasStep(c), PluginsOpen)
  {
    if !Contains(c, AliasMarker) {
      AliasEditAddsNoPlugins(c);
    }
  }

  /**
   * `updateViteConfiguration` run on its own output changes nothing: each
   * marker a run writes survives the later edits, and an edit a run skips
   * for want of its anchor stays skipped.
   */
  lemma UpdateViteConfigurationIdempotent(content: string)
    ensures UpdateViteConfiguration(UpdateViteConfiguration(content)) == UpdateViteConfiguration(content)
  {
    var c1 := ImportStep(content);
    var c2 := PluginStep(c1);
    var r := AliasStep(c2);
    assert r == UpdateViteConfiguration(content);
    MarkerChars();
    PluginStepKeeps(c1, ImportMarker);
    AliasStepKeeps(c2, ImportMarker);
    assert ImportStep(r) == r;
    if Contains(c2, PluginMarker) {
      AliasStepKeeps(c2, PluginMarker);
    } else {
      AliasStepAddsNoPlugins(c2);
    }
    assert PluginStep(r) == r;
    assert AliasStep(r) == r;
  }
}

=== FILE: manifest_builder.dfy ===
/**
 * The content manifest the build step derives from the compiled entries
 * (`generateManifest`): one entry per content path, naming the chunk of its
 * compiled component, and a version that hashes the sorted `_hash` values so
 * that it does not depend on the order in which files were found.
 */
module ManifestBuilder {
  import opened Wrappers
  import opened Strings
  import opened Values
  import Sorting
  import Assoc
  import Compiler

  /** A manifest entry: `{ path, meta, chunk }`. */
  datatype Entry = Entry(path: string, meta: Compiler.Meta, chunk: string)

  /** The manifest object; `generatedAt` is the clock reading it was built at. */
  datatype Manifest = Manifest(version: string, generatedAt: int, entries: Assoc.Table<Entry>)

  /** The compiled entries keyed by content path (a JavaScript `Map`). */
  type CompiledEntries = Assoc.Table<Compiler.Compiled>

  const ChunkPrefix: string := "content-"
  const ChunkSuffix: string := ".js"

  /** `compiled.meta._path`: the key a compiled file is stored under. */
  function EntryKey(c: Compiler.Compiled): string {
    JsString(Compiler.Field(c.meta, "_path"))
  }

  /** `${meta._hash}`: the entry's hash as interpolated into a string. */
  function HashText(meta: Compiler.Meta): (h: string)
    ensures Compiler.Field(meta, "_hash").Str? ==> h == Compiler.Field(meta, "_hash").s
  {
    JsString(Compiler.Field(meta, "_hash"))
  }

  /** `content-${meta._hash}.js`: the chunk name, with the hash between the fixed prefix and suffix. */
  function Chunk(meta: Compiler.Meta): (c: string)
    ensures |c| == |ChunkPrefix| + |HashText(meta)| + |ChunkSuffix|
    ensures StartsWith(c, ChunkPrefix) && EndsWith(c, ChunkSuffix)
    ensures c[|ChunkPrefix|..|c| - |ChunkSuffix|] == HashText(meta)
  {
    var c := ChunkPrefix + HashText(meta) + ChunkSuffix;
    assert c[..|ChunkPrefix|] == ChunkPrefix;
    assert c[|c| - |ChunkSuffix|..] == ChunkSuffix;
    c
  }

  /** The manifest entry for a compiled file stored at `key`. */
  function EntryFor(key: string, c: Compiler.Compiled): (e: Entry)
    ensures e.path == key && e.meta == c.meta
    ensures StartsWith(e.chunk, ChunkPrefix) && EndsWith(e.chunk, ChunkSuffix)
  {
    Entry(key, c.meta, Chunk(c.meta))
  }

  /** The entries loop: each compiled file becomes the entry at its own key, in map order. */
  function Entries(entries: CompiledEntries): (r: Assoc.Table<Entry>)
    ensures Assoc.Keys(r) == Assoc.Keys(entries)
    ensures forall i :: 0 <= i < |r| ==> r[i].1 == EntryFor(entries[i].0, entries[i].1)
  {
    seq(|entries|, i requires 0 <= i < |entries| => (entries[i].0, EntryFor(entries[i].0, entries[i].1)))
  }

  /** `f` applied to every element. */
  function Map<T, U>(xs: seq<T>, f: T -> U): (r: seq<U>)
    ensures |r| == |xs| && forall i :: 0 <= i < |xs| ==> r[i] == f(xs[i])
  {
    seq(|xs|, i requires 0 <= i < |xs| => f(xs[i]))
  }

  /** The `_hash` of every compiled entry, in map order. */
  function Hashes(entries: CompiledEntries): (hs: seq<string>)
    ensures |hs| == |entries|
    ensures forall i :: 0 <= i < |entries| ==> hs[i] == HashText(entries[i].1.meta)
  {
    Map(entries, (e: (string, Compiler.Compiled)) => HashText(e.1.meta))
  }

  /** `ps.join('')`. */
  function Concat(ps: seq<string>): (r: string)
    ensures |ps| == 0 ==> r == ""
    ensures |ps| > 0 ==> r == ps[0] + Concat(ps[1..])
  {
    if |ps| == 0 then "" else ps[0] + Concat(ps[1..])
  }

  /** `createHash(hashes.sort().join(''))`. */
  function Version(entries: CompiledEntries, hash: string -> string): string {
    hash(Concat(Sorting.Sort(Hashes(entries), LexCmp)))
  }

  /**
   * `generateManifest`. The entries have exactly the keys of the compiled
   * map, each bound to the entry for its file; the version is the hash of
   * the sorted hashes; `now` stands for `Date.now()`.
   */
  function GenerateManifest(entries: CompiledEntries, hash: string -> string, now: int): (m: Manifest)
    ensures Assoc.Keys(m.entries) == Assoc.Keys(entries)
    ensures forall k :: Assoc.Get(m.entries, k).Some? <==> Assoc.Get(entries, k).Some?
    ensures forall k :: Assoc.Get(entries, k).Some? ==>
              Assoc.Get(m.entries, k) == Some(EntryFor(k, Assoc.Get(entries, k).value))
    ensures m.generatedAt == now
  {
    var r := Entries(entries);
    forall k | Assoc.Get(entries, k).Some?
      ensures Assoc.Get(r, k) == Some(EntryFor(k, Assoc.Get(entries, k).value))
    {
      EntriesGet(entries, k);
    }
    Manifest(Version(entries, hash), now, r)
  }

  // ---------------------------------------------------------------------
  // Lemmas
  // ---------------------------------------------------------------------

  lemma {:induction false} EntriesGet(entries: CompiledEntries, k: string)
    requires Assoc.Get(entries, k).Some?
    ensures Assoc.Get(Entries(entries), k) == Some(EntryFor(k, Assoc.Get(entries, k).value))
    decreases |entries|
  {
    EntriesTail(entries);
    if entries[0].0 != k {
      EntriesGet(entries[1..], k);
    }
  }

  lemma EntriesTail(entries: CompiledEntries)
    requires |entries| > 0
    ensures Entries(entries)[0] == (entries[0].0, EntryFor(entries[0].0, entries[0].1))
    ensures Entries(entries)[1..] == Entries(entries[1..])
  {
    var r := Entries(entries);
    var t := Entries(entries[1..]);
    forall i | 0 <= i < |t|
      ensures r[1..][i] == t[i]
    {
      assert entries[1..][i] == entries[i + 1];
    }
  }

  /** Code-point order is a total order on strings. */
  lemma LexCmpTotal()
    ensures Sorting.Antisymmetric(LexCmp)
    ensures Sorting.Transitive(LexCmp)
    ensures Sorting.Discriminating(LexCmp)
  {
    forall a: string, b: string
      ensures LexCmp(a, b) == -LexCmp(b, a)
    {
      LexCmpAntisymmetric(a, b);
    }
    forall a: string, b: string, c: string | LexCmp(a, b) <= 0 && LexCmp(b, c) <= 0
      ensures LexCmp(a, c) <= 0
    {
      LexCmpTransitive(a, b, c);
    }
    forall a: string, b: string | LexCmp(a, b) == 0
      ensures a == b
    {
      LexCmpZero(a, b);
    }
  }

  /** Mapping commutes with taking out the element at `j`. */
  lemma MapRemoveAt<T, U>(b: seq<T>, j: nat, f: T -> U)
    requires j < |b|
    ensures multiset(Map(b, f)) == multiset(Map(b[..j] + b[j + 1..], f)) + multiset{f(b[j])}
  {
    var m := Map(b, f);
    assert Map(b[..j] + b[j + 1..], f) == m[..j] + m[j + 1..];
    Sorting.MultisetRemoveAt(m, j);
  }

  /** Mapping commutes with taking off the head. */
  lemma MapTail<T, U>(a: seq<T>, f: T -> U)
    requires |a| > 0
    ensures multiset(Map(a, f)) == multiset(Map(a[1..], f)) + multiset{f(a[0])}
  {
    var m := Map(a, f);
    assert m == [f(a[0])] + Map(a[1..], f);
  }

  /** Mapping a function over two permutations of each other gives permutations of each other. */
  lemma {:induction false} MapPermutation<T, U>(a: seq<T>, b: seq<T>, f: T -> U)
    requires multiset(a) == multiset(b)
    ensures multiset(Map(a, f)) == multiset(Map(b, f))
    decreases |a|
  {
    if |a| == 0 {
      Sorting.PermutationEmpty(a, b);
    } else {
      var j := Sorting.PermutationHead(a, b);
      var rest := b[..j] + b[j + 1..];
      MapPermutation(a[1..], rest, f);
      MapTail(a, f);
      MapRemoveAt(b, j, f);
    }
  }

  /** The version depends only on the multiset of `_hash` values. */
  lemma VersionFromHashes(a: CompiledEntries, b: CompiledEntries, hash: string -> string, t1: int, t2: int)
    requires multiset(Hashes(a)) == multiset(Hashes(b))
    ensures GenerateManifest(a, hash, t1).version == GenerateManifest(b, hash, t2).version
  {
    LexCmpTotal();
    Sorting.SortPermutationInvariant(Hashes(a), Hashes(b), LexCmp);
  }

  /** Listing the same compiled files in another order gives the same version. */
  lemma VersionOrderIndependent(a: CompiledEntries, b: CompiledEntries, hash: string -> string, t1: int, t2: int)
    requires multiset(a) == multiset(b)
    ensures GenerateManifest(a, hash, t1).version == GenerateManifest(b, hash, t2).version
  {
    MapPermutation(a, b, (e: (string, Compiler.Compiled)) => HashText(e.1.meta));
    VersionFromHashes(a, b, hash, t1, t2);
  }

  /** With no content the version is the hash of the empty string. */
  lemma EmptyVersion(hash: string -> string, now: int)
    ensures GenerateManifest([], hash, now).version == hash("")
    ensures GenerateManifest([], hash, now).entries == []
  {
    assert Hashes([]) == [];
  }
}

=== FILE: manifest_loader.dfy ===
/**
 * The PHP side's view of `manifest.json`: a memoising load state machine
 * with a cache in front of the file, a development fallback and a
 * structural check (`ManifestLoader`). The file system, the JSON decoder,
 * the environment name and the clock are inputs (`Env`).
 */
module ManifestLoader {
  import opened Wrappers
  import opened Values
  import opened ContentEntry
  import Assoc
  import ContentCache

  /** The `entries` member of a decoded manifest. */
  datatype EntriesField =
    | Missing                                 // absent or null
    | NotArray(v: Value)                      // a scalar where an object was expected
    | Entries(table: Assoc.Table<ManifestEntry>)

  /**
   * A decoded manifest object. A member that is absent and one that is null
   * are the same to every reader (`isset`, `??`), so both are `Null`.
   */
  datatype ManifestDoc = ManifestDoc(version: Value, generatedAt: Value, entries: EntriesField)

  /** What `json_decode($content, true)` produced. */
  datatype Decoded =
    | NotJson                     // invalid JSON or the literal null
    | NonArray(v: Value)          // a JSON scalar: cannot be stored in the `?array` property
    | Doc(doc: ManifestDoc)

  datatype Env = Env(fileExists: bool, decoded: Decoded, local: bool, now: int)

  datatype LoadError =
    | ManifestNotFound            // ManifestNotFoundException
    | InvalidManifest             // RuntimeException('Invalid manifest structure')
    | TypeError                   // a value of the wrong type reached a typed property or return

  datatype Loader = Loader(memo: Option<ManifestDoc>)

  type Cache = ContentCache.Cache<ManifestDoc>

  const CacheKey: string := "manifest"

  /** The outcome of a call that may change the loader and the cache. */
  datatype Step<T> = Step(loader: Loader, cache: Cache, result: Result<T, LoadError>)

  /** `isValidManifest`: version and generatedAt set, entries an array. */
  predicate IsValid(d: ManifestDoc) {
    !d.version.Null? && !d.generatedAt.Null? && d.entries.Entries?
  }

  /** A non-empty array is truthy; the documents that are stored always have members. */
  predicate DocTruthy(d: ManifestDoc) {
    !d.version.Null? || !d.generatedAt.Null? || !d.entries.Missing?
  }

  /** The empty manifest served in the 'local' environment when the file is missing. */
  function DevManifest(now: int): (d: ManifestDoc)
    ensures IsValid(d) && d.entries == Entries([])
  {
    ManifestDoc(Str("dev"), Int(now * 1000), Entries([]))
  }

  /** `load()`. */
  function Load(l: Loader, c: Cache, env: Env): (s: Step<ManifestDoc>)
    ensures s.result.Success? ==> s.loader.memo == Some(s.result.value)
    ensures l.memo.Some? ==> s == Step(l, c, Success(l.memo.value))
  {
    if l.memo.Some? then Step(l, c, Success(l.memo.value))
    else
      var cached := ContentCache.Get(c, CacheKey);
      if cached.Some? && DocTruthy(cached.value) then Step(Loader(Some(cached.value)), c, Success(cached.value))
      else if !env.fileExists then
        if env.local then
          var dev := DevManifest(env.now);
          Step(Loader(Some(dev)), c, Success(dev))
        else Step(l, c, Failure(ManifestNotFound))
      else match env.decoded
        case NotJson => Step(Loader(None), c, Failure(InvalidManifest))
        case NonArray(_) => Step(l, c, Failure(LoadError.TypeError))
        case Doc(d) =>
          if IsValid(d) then Step(Loader(Some(d)), ContentCache.Put(c, CacheKey, d), Success(d))
          else Step(Loader(Some(d)), c, Failure(InvalidManifest))
  }

  /** The rows of `entries` in manifest order; a missing or scalar `entries` iterates as nothing. */
  function Rows(d: ManifestDoc): (r: Assoc.Table<ManifestEntry>)
    ensures d.entries.Entries? ==> r == d.entries.table
    ensures !d.entries.Entries? ==> r == []
  {
    if d.entries.Entries? then d.entries.table else []
  }

  /** `getEntry($path)`: `entries[$path] ?? null` of the loaded manifest. */
  function GetEntry(l: Loader, c: Cache, env: Env, path: string): (s: Step<Option<ManifestEntry>>)
    ensures Load(l, c, env).result.Failure? ==> s.result.Failure?
    ensures s.loader == Load(l, c, env).loader && s.cache == Load(l, c, env).cache
    ensures s.result.Success? ==> s.result.value == Assoc.Get(Rows(Load(l, c, env).result.value), path)
  {
    var ld := Load(l, c, env);
    match ld.result
    case Failure(e) => Step(ld.loader, ld.cache, Failure(e))
    case Success(d) => Step(ld.loader, ld.cache, Success(Assoc.Get(Rows(d), path)))
  }

  /** `exists($path)`: `getEntry($path) !== null`. */
  function Exists(l: Loader, c: Cache, env: Env, path: string): (s: Step<bool>)
    ensures s.loader == GetEntry(l, c, env, path).loader
    ensures s.result.Success? <==> GetEntry(l, c, env, path).result.Success?
    ensures s.result.Success? ==> (s.result.value <==> GetEntry(l, c, env, path).result.value.Some?)
  {
    var g := GetEntry(l, c, env, path);
    match g.result
    case Failure(e) => Step(g.loader, g.cache, Failure(e))
    case Success(m) => Step(g.loader, g.cache, Success(m.Some?))
  }

  /** `getVersion()`: `version ?? 'unknown'`, coerced to the `string` return type. */
  function GetVersion(l: Loader, c: Cache, env: Env): (s: Step<string>)
    ensures Load(l, c, env).result.Success? && Load(l, c, env).result.value.version.Null? ==>
              s.result == Success("unknown")
    ensures Load(l, c, env).result.Success? && Load(l, c, env).result.value.version.Str? ==>
              s.result == Success(Load(l, c, env).result.value.version.s)
  {
    var ld := Load(l, c, env);
    match ld.result
    case Failure(e) => Step(ld.loader, ld.cache, Failure(e))
    case Success(d) =>
      if d.version.Null? then Step(ld.loader, ld.cache, Success("unknown"))
      else match ToPhpString(d.version)
        case Some(v) => Step(ld.loader, ld.cache, Success(v))
        case None => Step(ld.loader, ld.cache, Failure(LoadError.TypeError))
  }

  /** `getAllPaths()`: the keys of `entries ?? []`. */
  function GetAllPaths(l: Loader, c: Cache, env: Env): (s: Step<seq<string>>)
    ensures s.result.Success? ==> Load(l, c, env).result.Success?
    ensures s.result.Success? && Load(l, c, env).result.value.entries.Entries? ==>
              s.result.value == Assoc.Keys(Load(l, c, env).result.value.entries.table)
  {
    var ld := Load(l, c, env);
    match ld.result
    case Failure(e) => Step(ld.loader, ld.cache, Failure(e))
    case Success(d) =>
      match d.entries
      case Missing => Step(ld.loader, ld.cache, Success([]))
      case NotArray(_) => Step(ld.loader, ld.cache, Failure(LoadError.TypeError))
      case Entries(t) => Step(ld.loader, ld.cache, Success(Assoc.Keys(t)))
  }

  /** `clearCache()`: drop the memo and forget the cached manifest. */
  function ClearCache(l: Loader, c: Cache): (r: (Loader, Cache))
    ensures r.0.memo.None?
    ensures ContentCache.Get(r.1, CacheKey).None?
  {
    ContentCache.ForgetGet(c, CacheKey, CacheKey);
    (Loader(None), ContentCache.Forget(c, CacheKey))
  }

  // ---------------------------------------------------------------------
  // Lemmas
  // ---------------------------------------------------------------------

  /** Whatever the cache holds under 'manifest' passed validation. */
  ghost predicate CacheValid(c: Cache) {
    var g := ContentCache.Get(c, CacheKey);
    g.Some? ==> IsValid(g.value)
  }

  /** Only valid manifests are cached, so every load keeps the cache valid. */
  lemma LoadKeepsCacheValid(l: Loader, c: Cache, env: Env)
    requires CacheValid(c)
    ensures CacheValid(Load(l, c, env).cache)
  {
    if c.enabled && l.memo.None? && env.fileExists && env.decoded.Doc? && IsValid(env.decoded.doc) {
      ContentCache.PutGet(c, CacheKey, env.decoded.doc, CacheKey);
    }
  }

  /** From a valid cache, every successful load comes from the memo, is valid, or is the dev manifest. */
  lemma LoadValid(l: Loader, c: Cache, env: Env)
    requires CacheValid(c)
    requires l.memo.None?
    ensures Load(l, c, env).result.Success? ==> IsValid(Load(l, c, env).result.value)
  {
  }

  /** A missing file outside 'local' is an error and nothing is remembered. */
  lemma MissingFileProduction(l: Loader, c: Cache, env: Env)
    requires l.memo.None? && ContentCache.Get(c, CacheKey).None?
    requires !env.fileExists && !env.local
    ensures Load(l, c, env) == Step(l, c, Failure(ManifestNotFound))
  {
  }

  /** A missing file in 'local' yields the dev manifest, which is memoised but not cached. */
  lemma MissingFileLocal(l: Loader, c: Cache, env: Env)
    requires l.memo.None? && ContentCache.Get(c, CacheKey).None?
    requires !env.fileExists && env.local
    ensures Load(l, c, env).result == Success(DevManifest(env.now))
    ensures Load(l, c, env).cache == c
    ensures Load(l, c, env).result.value.version == Str("dev")
    ensures Rows(Load(l, c, env).result.value) == []
  {
  }

  /**
   * The memo is assigned before validation: a decoded but invalid manifest
   * fails once and is then returned without error by the next load.
   */
  lemma InvalidManifestSticks(l: Loader, c: Cache, env: Env, d: ManifestDoc)
    requires l.memo.None? && ContentCache.Get(c, CacheKey).None?
    requires env.fileExists && env.decoded == Doc(d) && !IsValid(d)
    ensures Load(l, c, env).result == Failure(InvalidManifest)
    ensures var s := Load(l, c, env); Load(s.loader, s.cache, env).result == Success(d)
  {
  }

  /** A valid manifest read from the file is cached and then served from the cache after a reset. */
  lemma ValidManifestCached(l: Loader, c: Cache, env: Env, d: ManifestDoc, env2: Env)
    requires l.memo.None? && ContentCache.Get(c, CacheKey).None? && c.enabled
    requires env.fileExists && env.decoded == Doc(d) && IsValid(d)
    ensures Load(l, c, env).result == Success(d)
    ensures Load(Loader(None), Load(l, c, env).cache, env2).result == Success(d)
  {
    ContentCache.PutGet(c, CacheKey, d, CacheKey);
  }

  /** A cached manifest is adopted without looking at the file. */
  lemma CachedAdopted(l: Loader, c: Cache, env1: Env, env2: Env)
    requires l.memo.None?
    requires ContentCache.Get(c, CacheKey).Some? && DocTruthy(ContentCache.Get(c, CacheKey).value)
    ensures Load(l, c, env1) == Load(l, c, env2)
    ensures Load(l, c, env1).result == Success(ContentCache.Get(c, CacheKey).value)
  {
  }

  /** `exists` holds exactly for the keys of the loaded manifest's entries. */
  lemma ExistsIffKey(l: Loader, c: Cache, env: Env, path: string)
    requires Load(l, c, env).result.Success?
    ensures Exists(l, c, env, path).result.Success?
    ensures Exists(l, c, env, path).result.value <==> path in Assoc.Keys(Rows(Load(l, c, env).result.value))
  {
  }

  /** After `clearCache` the next load starts over and reads the file. */
  lemma ClearCacheReloads(l: Loader, c: Cache, env: Env)
    requires env.fileExists && env.decoded.Doc? && IsValid(env.decoded.doc)
    ensures var r := ClearCache(l, c); Load(r.0, r.1, env).result == Success(env.decoded.doc)
  {
  }
}

=== FILE: package_json.dfy ===
/**
 * A decoded `package.json` and `PackageJson::addDevDependency`. The top
 * level is an ordered table; a dependency list is a table from package
 * name to version. Reading and writing the file are left out.
 */
module PackageJson {
  import opened Wrappers
  import opened Values
  import Assoc
  import Sorting

  /** A top-level field: a dependency table, or any other decoded value. */
  datatype Field = Deps(entries: Assoc.Table<string>) | Other(value: Value)

  type Package = Assoc.Table<Field>

  /** A field that must hold a dependency table holds something else. */
  datatype PackageError = NotATable(key: string)

  const DevDependencies: string := "devDependencies"
  const Dependencies: string := "dependencies"

  /** Decoded JSON objects never repeat a key, at the top level or inside a dependency table. */
  ghost predicate WellFormed(p: Package) {
    && Assoc.UniqueKeys(p)
    && forall i :: 0 <= i < |p| && p[i].1.Deps? ==> Assoc.UniqueKeys(p[i].1.entries)
  }

  /**
   * `$p[key] ?? []`: an absent or null field is an empty table; a field
   * holding anything but a table cannot be used as one.
   */
  function DepsAt(p: Package, key: string): (r: Result<Assoc.Table<string>, PackageError>)
    ensures Assoc.Get(p, key).None? ==> r == Success([])
    ensures Assoc.Get(p, key) == Some(Other(Null)) ==> r == Success([])
    ensures r.Failure? <==> Assoc.Get(p, key).Some? && Assoc.Get(p, key).value.Other? && Assoc.Get(p, key).value.value != Null
    ensures WellFormed(p) && r.Success? ==> Assoc.UniqueKeys(r.value)
  {
    match Assoc.Get<Field>(p, key)
    case None => Success([])
    case Some(Deps(t)) =>
      assert WellFormed(p) ==> Assoc.UniqueKeys(t) by {
        var i :| 0 <= i < |p| && p[i] == (key, Deps(t));
      }
      Success(t)
    case Some(Other(v)) => if v == Null then Success([]) else Failure(NotATable(key))
  }

  /**
   * The table `addDevDependency` writes into. `isset` fails on an absent or
   * null field, which starts empty; writing a key into `false` also turns it
   * into an empty array first (deprecated since PHP 8.1, but still done);
   * any other scalar cannot be written into.
   */
  function WritableDeps(p: Package, key: string): (r: Result<Assoc.Table<string>, PackageError>)
    ensures r.Failure? <==> Assoc.Get(p, key).Some? && Assoc.Get(p, key).value.Other? &&
                            Assoc.Get(p, key).value.value != Null && Assoc.Get(p, key).value.value != Bool(false)
    ensures Assoc.Get(p, key) == Some(Other(Bool(false))) ==> r == Success([])
    ensures DepsAt(p, key).Success? ==> r == DepsAt(p, key)
    ensures WellFormed(p) && r.Success? ==> Assoc.UniqueKeys(r.value)
  {
    if Assoc.Get(p, key) == Some(Other(Bool(false))) then Success([]) else DepsAt(p, key)
  }

  /** `ksort` on package names: PHP's comparison of two string keys. */
  function NameOrder(a: string, b: string): int {
    StrCmp(a, b)
  }

  /**
   * `addDevDependency`: `devDependencies` starts empty when unset, null or
   * `false`, `name` is bound to `version` (replacing any earlier version),
   * the table is sorted by name, and every other top-level field is left
   * alone.
   */
  function AddDevDependency(p: Package, name: string, version: string): (r: Result<Package, PackageError>)
    ensures r.Failure? <==> WritableDeps(p, DevDependencies).Failure?
    ensures r.Success? ==> forall k :: k != DevDependencies ==> Assoc.Get(r.value, k) == Assoc.Get(p, k)
    ensures r.Success? ==> Assoc.Get(r.value, DevDependencies).Some? && Assoc.Get(r.value, DevDependencies).value.Deps?
    ensures r.Success? && WritableDeps(p, DevDependencies) == Success([]) ==>
              Assoc.Get(r.value, DevDependencies) == Some(Deps([(name, version)]))
    ensures WellFormed(p) && r.Success? ==> WellFormed(r.value)
  {
    match WritableDeps(p, DevDependencies)
    case Failure(e) => Failure(e)
    case Success(dev) =>
      var sorted := Assoc.KSort(Assoc.Set(dev, name, version), NameOrder);
      var q := Assoc.Set(p, DevDependencies, Deps(sorted));
      Assoc.SetGet(p, DevDependencies, Deps(sorted));
      assert dev == [] ==> sorted == [(name, version)] by {
        if dev == [] {
          assert Assoc.Set(dev, name, version) == [(name, version)];
          assert sorted == Sorting.Insert([], (name, version), (x: (string, string), y: (string, string)) => NameOrder(x.0, y.0));
        }
      }
      assert WellFormed(p) ==> WellFormed(q) by {
        if WellFormed(p) {
          Assoc.SetUnique(dev, name, version);
          Assoc.KSortSpec(Assoc.Set(dev, name, version), NameOrder, name);
          WellFormedSet(p, DevDependencies, Deps(sorted));
        }
      }
      Success(q)
  }

  // ---------------------------------------------------------------------
  // Lemmas
  // ---------------------------------------------------------------------

  /** Storing a table with unique keys in a well-formed package keeps it well formed. */
  lemma WellFormedSet(p: Package, key: string, f: Field)
    requires WellFormed(p)
    requires f.Deps? ==> Assoc.UniqueKeys(f.entries)
    ensures WellFormed(Assoc.Set(p, key, f))
  {
    var q := Assoc.Set(p, key, f);
    Assoc.SetUnique(p, key, f);
    forall i | 0 <= i < |q| && q[i].1.Deps?
      ensures Assoc.UniqueKeys(q[i].1.entries)
    {
      Assoc.SetEntryFrom(p, key, f, i);
    }
  }

  /**
   * In a well-formed package the new `devDependencies` bind `name` to
   * `version`, keep every other name's version, and are in name order.
   */
  lemma AddDevDependencySpec(p: Package, name: string, version: string)
    requires WellFormed(p) && WritableDeps(p, DevDependencies).Success?
    ensures var dev := WritableDeps(p, DevDependencies).value;
            var r := AddDevDependency(p, name, version);
            && r.Success?
            && Assoc.Get(r.value, DevDependencies).Some?
            && var d := Assoc.Get(r.value, DevDependencies).value.entries;
               && Assoc.Get(d, name) == Some(version)
               && (forall k :: k != name ==> Assoc.Get(d, k) == Assoc.Get(dev, k))
               && (forall i :: 0 <= i < |d| - 1 ==> NameOrder(d[i].0, d[i + 1].0) <= 0)
  {
    var dev := WritableDeps(p, DevDependencies).value;
    var bound := Assoc.Set(dev, name, version);
    var sorted := Assoc.KSort(bound, NameOrder);
    Assoc.SetGet(dev, name, version);
    Assoc.SetUnique(dev, name, version);
    Assoc.SetGet(p, DevDependencies, Deps(sorted));
    forall k
      ensures Assoc.Get(sorted, k) == Assoc.Get(bound, k)
    {
      Assoc.KSortSpec(bound, NameOrder, k);
    }
    assert forall a, b :: NameOrder(a, b) == -NameOrder(b, a) by {
      forall a, b ensures NameOrder(a, b) == -NameOrder(b, a) {
        StrCmpAntisymmetric(a, b);
      }
    }
    Assoc.KSortOrdered(bound, NameOrder);
  }
}

=== FILE: path_resolver.dfy ===
/**
 * Content keys: normalisation of a requested path and rejection of
 * traversal attempts (`PathResolver::normalize` and `::resolve`).
 */
module PathResolver {
  import opened Wrappers
  import opened Strings
  import Seqs

  predicate IsSlash(c: char) {
    c == '/'
  }

  /** No two neighbouring slashes. */
  predicate NoDoubleSlash(s: string) {
    forall i :: 0 <= i < |s| - 1 ==> !(s[i] == '/' && s[i + 1] == '/')
  }

  /** The shape `normalize` produces: forward slashes only, single, none at the end. */
  predicate IsNormal(s: string) {
    '\\' !in s && NoDoubleSlash(s) && (|s| > 0 ==> s[|s| - 1] != '/')
  }

  /** `preg_replace('#/+#', '/', $s)`: every run of slashes becomes one slash. */
  function CollapseSlashes(s: string): (r: string)
    ensures NoDoubleSlash(r)
    ensures |r| <= |s|
    ensures |s| > 0 <==> |r| > 0
    ensures |s| > 0 ==> r[0] == s[0] && r[|r| - 1] == s[|s| - 1]
    ensures forall c :: c in r ==> c in s
    decreases |s|
  {
    if |s| == 0 then ""
    else if |s| >= 2 && s[0] == '/' && s[1] == '/' then CollapseSlashes(s[1..])
    else
      var rest := CollapseSlashes(s[1..]);
      assert forall c :: c in rest ==> c in s;
      [s[0]] + rest
  }

  /** `PathResolver::normalize`. */
  function Normalize(p: string): (r: string)
    ensures IsNormal(r)
    ensures |r| > 0 ==> |p| > 0 && r[0] == (if p[0] == '\\' then '/' else p[0])
  {
    var forward := ReplaceChar(p, '\\', '/');
    var single := CollapseSlashes(forward);
    var r := TrimRight(single, IsSlash);
    assert NoDoubleSlash(r) by {
      forall i | 0 <= i < |r| - 1 ensures !(r[i] == '/' && r[i + 1] == '/') {
        assert r[i] == single[i] && r[i + 1] == single[i + 1];
      }
    }
    assert '\\' !in r by {
      forall i | 0 <= i < |r| ensures r[i] != '\\' {
        assert r[i] == single[i];
        assert single[i] in single;
      }
    }
    r
  }

  /** `PathResolver::resolve`: `None` for a traversal attempt, otherwise the key without a leading slash. */
  function Resolve(p: string): (r: Option<string>)
    ensures r.None? <==> Contains(Normalize(p), "..")
    ensures r.Some? ==> IsNormal(r.value) && !Contains(r.value, "..")
    ensures r.Some? ==> |r.value| == 0 || r.value[0] != '/'
    ensures r.Some? ==> Normalize(p) == r.value || Normalize(p) == "/" + r.value
  {
    var n := Normalize(p);
    if Contains(n, "..") then None
    else
      TrimLeftNormal(n);
      TrimLeftOneSlash(n);
      Some(TrimLeft(n, IsSlash))
  }

  /** A path without doubled slashes loses at most one leading slash. */
  lemma TrimLeftOneSlash(n: string)
    requires NoDoubleSlash(n)
    ensures var r := TrimLeft(n, IsSlash); n == r || n == "/" + r
  {
    var r := TrimLeft(n, IsSlash);
    var d := |n| - |r|;
    assert |n| < 2 || !(IsSlash(n[0]) && IsSlash(n[1]));
    assert d <= 1;
    if d == 1 {
      assert n == n[..1] + r;
      assert n[..1] == "/";
    }
  }

  /** Dropping leading slashes keeps a normal path normal and free of "..". */
  lemma TrimLeftNormal(n: string)
    requires IsNormal(n) && !Contains(n, "..")
    ensures IsNormal(TrimLeft(n, IsSlash)) && !Contains(TrimLeft(n, IsSlash), "..")
  {
    var r := TrimLeft(n, IsSlash);
    SuffixNormal(n, |n| - |r|);
  }

  /** A suffix of a normal path free of ".." is again normal and free of "..". */
  lemma SuffixNormal(n: string, d: nat)
    requires d <= |n|
    requires IsNormal(n) && !Contains(n, "..")
    ensures IsNormal(n[d..]) && !Contains(n[d..], "..")
  {
    var r := n[d..];
    assert n == n[..d] + r;
    if Contains(r, "..") {
      ContainsInRight(n[..d], r, "..");
    }
    forall i | 0 <= i < |r| - 1 ensures !(r[i] == '/' && r[i + 1] == '/') {
      assert r[i] == n[d + i] && r[i + 1] == n[d + i + 1];
    }
    forall i | 0 <= i < |r| ensures r[i] != '\\' {
      assert r[i] == n[d + i];
    }
  }

  // ---------------------------------------------------------------------
  // Segments: what normalisation keeps
  // ---------------------------------------------------------------------

  /** The segment collected so far, as a list: nothing when it is empty. */
  function Flush(cur: string): (r: seq<string>)
    ensures |r| <= 1
    ensures cur != "" <==> r == [cur]
  {
    if cur == "" then [] else [cur]
  }

  /**
   * The non-empty slash-free segments of `cur + s`, where `cur` is the
   * part of a segment already read: the names a path is made of,
   * whatever slashes surround them.
   */
  function SegsFrom(s: string, cur: string): (r: seq<string>)
    requires '/' !in cur
    ensures forall k :: 0 <= k < |r| ==> r[k] != "" && '/' !in r[k]
    decreases |s|
  {
    if s == [] then Flush(cur)
    else if s[0] == '/' then Flush(cur) + SegsFrom(s[1..], "")
    else SegsFrom(s[1..], cur + [s[0]])
  }

  function Segs(s: string): seq<string> {
    SegsFrom(s, "")
  }

  /** Collapsing runs of slashes keeps the segments. */
  lemma {:induction false} CollapseSegs(s: string, cur: string)
    requires '/' !in cur
    ensures SegsFrom(CollapseSlashes(s), cur) == SegsFrom(s, cur)
    decreases |s|
  {
    if |s| >= 2 && s[0] == '/' && s[1] == '/' {
      CollapseSegs(s[1..], cur);
      assert s[1..][0] == '/' && s[1..][1..] == s[2..];
    } else if |s| > 0 {
      var rest := CollapseSlashes(s[1..]);
      Seqs.ConsTail(s[0], rest);
      if s[0] == '/' {
        CollapseSegs(s[1..], "");
      } else {
        CollapseSegs(s[1..], cur + [s[0]]);
      }
    }
  }

  /** A trailing slash adds no segment. */
  lemma {:induction false} SlashEndSegs(t: string, cur: string)
    requires '/' !in cur
    ensures SegsFrom(t + "/", cur) == SegsFrom(t, cur)
    decreases |t|
  {
    if t == [] {
      assert ("/")[1..] == [];
    } else {
      Seqs.ConcatHead(t, "/");
      if t[0] == '/' {
        SlashEndSegs(t[1..], "");
      } else {
        SlashEndSegs(t[1..], cur + [t[0]]);
      }
    }
  }

  /** Dropping trailing slashes keeps the segments. */
  lemma {:induction false} TrimSlashesSegs(s: string)
    ensures Segs(TrimRight(s, IsSlash)) == Segs(s)
    decreases |s|
  {
    if |s| > 0 && s[|s| - 1] == '/' {
      var t := s[..|s| - 1];
      TrimSlashesSegs(t);
      assert s == t + "/";
      SlashEndSegs(t, "");
    }
  }

  /**
   * `normalize` keeps exactly the segments of the path with every
   * backslash read as a slash, in order.
   */
  lemma NormalizeSegments(p: string)
    ensures Segs(Normalize(p)) == Segs(ReplaceChar(p, '\\', '/'))
  {
    var forward := ReplaceChar(p, '\\', '/');
    CollapseSegs(forward, "");
    TrimSlashesSegs(CollapseSlashes(forward));
  }

  /**
   * A path with single slashes and none at the end is its segments joined
   * by slashes, after the part `cur` already read (which may only be
   * empty when no slash follows it).
   */
  lemma {:induction false} NormalJoin(s: string, cur: string)
    requires '/' !in cur && NoDoubleSlash(s) && (|s| > 0 ==> s[|s| - 1] != '/')
    requires cur == "" && |s| > 0 ==> s[0] != '/'
    ensures cur + s == Join(SegsFrom(s, cur), '/')
    decreases |s|
  {
    if s == [] {
      assert cur + s == cur;
    } else if s[0] == '/' {
      var t := s[1..];
      assert |t| > 0 && t[0] != '/';
      assert NoDoubleSlash(t) by {
        forall i | 0 <= i < |t| - 1 ensures !(t[i] == '/' && t[i + 1] == '/') {
          assert t[i] == s[i + 1] && t[i + 1] == s[i + 2];
        }
      }
      NormalJoin(t, "");
      var rest := SegsFrom(t, "");
      assert rest != [];
      assert [cur] + rest == [cur, rest[0]] + rest[1..];
      assert s == "/" + t;
    } else {
      var t := s[1..];
      assert NoDoubleSlash(t) by {
        forall i | 0 <= i < |t| - 1 ensures !(t[i] == '/' && t[i + 1] == '/') {
          assert t[i] == s[i + 1] && t[i + 1] == s[i + 2];
        }
      }
      NormalJoin(t, cur + [s[0]]);
      assert cur + s == (cur + [s[0]]) + t;
    }
  }

  /** A normal path is its leading slash, if any, and its segments joined by slashes. */
  lemma NormalRebuild(n: string)
    requires IsNormal(n)
    ensures n != "" ==> Segs(n) != []
    ensures n == (if n != "" && n[0] == '/' then "/" else "") + Join(Segs(n), '/')
  {
    if n != "" && n[0] == '/' {
      var t := n[1..];
      assert NoDoubleSlash(t) by {
        forall i | 0 <= i < |t| - 1 ensures !(t[i] == '/' && t[i + 1] == '/') {
          assert t[i] == n[i + 1] && t[i + 1] == n[i + 2];
        }
      }
      NormalJoin(t, "");
      assert "" + t == t;
      assert n == "/" + t;
      assert n[1..] == t;
      assert Segs(n) == Flush("") + SegsFrom(t, "");
      assert Segs(n) == SegsFrom(t, "");
      assert t == Join(Segs(n), '/');
    } else {
      NormalJoin(n, "");
      assert "" + n == n;
    }
  }

  /**
   * `normalize` is determined by the segments of the path with backslashes
   * read as slashes: they are joined by single slashes, after one slash
   * when the path starts with one.
   */
  lemma NormalizeRebuild(p: string)
    ensures var f := ReplaceChar(p, '\\', '/');
            var segs := Segs(f);
            Normalize(p) == (if segs != [] && |f| > 0 && f[0] == '/' then "/" else "") + Join(segs, '/')
  {
    var f := ReplaceChar(p, '\\', '/');
    var n := Normalize(p);
    NormalizeSegments(p);
    NormalRebuild(n);
  }

  /** A resolved key has the segments of the requested path. */
  lemma ResolveSegments(p: string)
    requires Resolve(p).Some?
    ensures Segs(Resolve(p).value) == Segs(ReplaceChar(p, '\\', '/'))
  {
    NormalizeSegments(p);
    var r := Resolve(p).value;
    if Normalize(p) != r {
      assert ("/" + r)[0] == '/' && ("/" + r)[1..] == r;
    }
  }

  // ---------------------------------------------------------------------
  // Lemmas
  // ---------------------------------------------------------------------

  /** The substring "//" occurs exactly where two slashes are neighbours. */
  lemma NoDoubleSlashContains(s: string)
    ensures NoDoubleSlash(s) <==> !Contains(s, "//")
  {
    if !NoDoubleSlash(s) {
      var i :| 0 <= i < |s| - 1 && s[i] == '/' && s[i + 1] == '/';
      assert s[i..i + 2] == "//";
      assert OccursAt(s, "//", i);
    }
    if Contains(s, "//") {
      var i :| 0 <= i <= |s| && OccursAt(s, "//", i);
      assert s[i..i + 2][0] == s[i] && s[i..i + 2][1] == s[i + 1];
    }
  }

  lemma {:induction false} CollapseSlashesIdentity(s: string)
    requires NoDoubleSlash(s)
    ensures CollapseSlashes(s) == s
    decreases |s|
  {
    if |s| > 0 {
      assert NoDoubleSlash(s[1..]) by {
        forall i | 0 <= i < |s| - 2 ensures !(s[1..][i] == '/' && s[1..][i + 1] == '/') {
          assert s[1..][i] == s[i + 1] && s[1..][i + 1] == s[i + 2];
        }
      }
      CollapseSlashesIdentity(s[1..]);
      assert s == [s[0]] + s[1..];
    }
  }

  lemma ReplaceCharIdentity(s: string, from: char, to: char)
    requires from !in s
    ensures ReplaceChar(s, from, to) == s
  {
  }

  lemma TrimRightIdentity(s: string, ws: char -> bool)
    requires |s| == 0 || !ws(s[|s| - 1])
    ensures TrimRight(s, ws) == s
  {
  }

  /** Normalisation leaves a path unchanged exactly when it is already normal. */
  lemma NormalizeFixpoint(p: string)
    ensures Normalize(p) == p <==> IsNormal(p)
  {
    if IsNormal(p) {
      ReplaceCharIdentity(p, '\\', '/');
      CollapseSlashesIdentity(p);
      TrimRightIdentity(p, IsSlash);
    }
  }

  /** `normalize(normalize(p)) == normalize(p)`. */
  lemma NormalizeIdempotent(p: string)
    ensures Normalize(Normalize(p)) == Normalize(p)
  {
    NormalizeFixpoint(Normalize(p));
  }

  /** Two neighbouring dots at index `j`. */
  predicate DotsAt(s: string, j: int) {
    0 <= j && j + 1 < |s| && s[j] == '.' && s[j + 1] == '.'
  }

  lemma DotsAtContains(s: string)
    ensures Contains(s, "..") <==> exists j :: DotsAt(s, j)
  {
    if Contains(s, "..") {
      var i :| 0 <= i <= |s| && OccursAt(s, "..", i);
      assert s[i..i + 2][0] == s[i] && s[i..i + 2][1] == s[i + 1];
      assert DotsAt(s, i);
    }
    if exists j :: DotsAt(s, j) {
      var j :| DotsAt(s, j);
      assert s[j..j + 2] == "..";
      assert OccursAt(s, "..", j);
    }
  }

  lemma DotsSurviveTrimRight(c: string, j: int)
    requires DotsAt(c, j)
    ensures DotsAt(TrimRight(c, IsSlash), j)
  {
    TrimRightKeeps(c, IsSlash, j + 1);
  }

  /** Normalisation keeps every pair of neighbouring dots. */
  lemma NormalizeKeepsDots(p: string)
    requires Contains(p, "..")
    ensures Contains(Normalize(p), "..")
  {
    DotsAtContains(p);
    var i :| DotsAt(p, i);
    var f := ReplaceChar(p, '\\', '/');
    assert DotsAt(f, i);
    DotsSurviveCollapse(f, i);
    var c := CollapseSlashes(f);
    var j :| DotsAt(c, j);
    DotsSurviveTrimRight(c, j);
    DotsAtContains(Normalize(p));
  }

  /** The traversal guard also rejects names that merely contain two dots. */
  lemma ResolveRejectsDots(p: string)
    requires Contains(p, "..")
    ensures Resolve(p).None?
  {
    NormalizeKeepsDots(p);
  }

  lemma {:induction false} DotsSurviveCollapse(s: string, i: nat)
    requires DotsAt(s, i)
    ensures exists j :: DotsAt(CollapseSlashes(s), j)
    decreases |s|
  {
    var r := CollapseSlashes(s);
    if i == 0 {
      assert r == [s[0]] + CollapseSlashes(s[1..]);
      assert DotsAt(r, 0);
    } else {
      DotsSurviveCollapse(s[1..], i - 1);
      var rest := CollapseSlashes(s[1..]);
      var j :| DotsAt(rest, j);
      if |s| >= 2 && s[0] == '/' && s[1] == '/' {
        assert r == rest;
      } else {
        assert r == [s[0]] + rest;
        assert DotsAt(r, j + 1);
      }
    }
  }

  lemma TrimRightKeeps(s: string, ws: char -> bool, k: nat)
    requires k < |s| && !ws(s[k])
    ensures k < |TrimRight(s, ws)|
  {
  }

  /** Within a run of slashes one slash more or less makes no difference. */
  lemma {:induction false} CollapseDropSlash(a: string, b: string)
    requires |a| > 0 && a[|a| - 1] == '/'
    ensures CollapseSlashes(a + "/" + b) == CollapseSlashes(a + b)
    decreases |a|
  {
    var x := a + "/" + b;
    var y := a + b;
    if |a| > 1 {
      CollapseDropSlash(a[1..], b);
      Seqs.ConcatHead(a + "/", b);
      Seqs.ConcatHead(a, "/");
      Seqs.ConcatHead(a, b);
      assert x[1] == y[1] == a[1];
    } else {
      assert x[0] == x[1] == '/';
      assert x[1..] == y;
    }
  }

  lemma CollapseExampleStep1()
    ensures CollapseSlashes("docs//intro///page") == CollapseSlashes("docs/intro///page")
  {
    assert "docs//intro///page" == "docs/" + "/" + "intro///page";
    assert "docs/" + "intro///page" == "docs/intro///page";
    CollapseDropSlash("docs/", "intro///page");
  }

  lemma CollapseExampleStep2()
    ensures CollapseSlashes("docs/intro///page") == CollapseSlashes("docs/intro//page")
  {
    assert "docs/intro///page" == "docs/intro/" + "/" + "/page";
    assert "docs/intro/" + "/page" == "docs/intro//page";
    CollapseDropSlash("docs/intro/", "/page");
  }

  lemma CollapseExampleStep3()
    ensures CollapseSlashes("docs/intro//page") == CollapseSlashes("docs/intro/page")
  {
    assert "docs/intro//page" == "docs/intro/" + "/" + "page";
    assert "docs/intro/" + "page" == "docs/intro/page";
    CollapseDropSlash("docs/intro/", "page");
  }

  lemma NormalExample()
    ensures NoDoubleSlash("docs/intro/page")
    ensures CollapseSlashes("docs/intro/page") == "docs/intro/page"
  {
    NoDoubleSlashAppend("docs/", "intro/");
    assert "docs/" + "intro/" == "docs/intro/";
    NoDoubleSlashAppend("docs/intro/", "page");
    assert "docs/intro/" + "page" == "docs/intro/page";
    CollapseSlashesIdentity("docs/intro/page");
  }

  lemma CollapseExample()
    ensures CollapseSlashes("docs//intro///page") == "docs/intro/page"
  {
    CollapseExampleStep1();
    CollapseExampleStep2();
    CollapseExampleStep3();
    NormalExample();
  }

  lemma ReplaceExample()
    ensures ReplaceChar("docs//intro///page", '\\', '/') == "docs//intro///page"
  {
  }

  lemma TrimExample()
    ensures TrimRight("docs/intro/page", IsSlash) == "docs/intro/page"
  {
  }

  /** `'docs//intro///page'` normalises to `'docs/intro/page'`. */
  lemma NormalizeExample()
    ensures Normalize("docs//intro///page") == "docs/intro/page"
  {
    ReplaceExample();
    CollapseExample();
    TrimExample();
  }

  lemma NormalExample2()
    ensures NoDoubleSlash("/docs/intro/")
    ensures CollapseSlashes("/docs/intro/") == "/docs/intro/"
  {
    NoDoubleSlashAppend("/", "docs/");
    assert "/" + "docs/" == "/docs/";
    NoDoubleSlashAppend("/docs/", "intro/");
    assert "/docs/" + "intro/" == "/docs/intro/";
    CollapseSlashesIdentity("/docs/intro/");
  }

  /** Two paths without doubled slashes join into one, unless the join itself doubles a slash. */
  lemma NoDoubleSlashAppend(a: string, b: string)
    requires NoDoubleSlash(a) && NoDoubleSlash(b)
    requires |a| > 0 && |b| > 0 ==> !(a[|a| - 1] == '/' && b[0] == '/')
    ensures NoDoubleSlash(a + b)
  {
    var s := a + b;
    forall i | 0 <= i < |s| - 1 ensures !(s[i] == '/' && s[i + 1] == '/') {
      if i < |a| - 1 {
        assert s[i] == a[i] && s[i + 1] == a[i + 1];
      } else if i == |a| - 1 {
        assert s[i] == a[|a| - 1] && s[i + 1] == b[0];
      } else {
        assert s[i] == b[i - |a|] && s[i + 1] == b[i - |a| + 1];
      }
    }
  }

  lemma ReplaceExample2()
    ensures ReplaceChar("/docs/intro/", '\\', '/') == "/docs/intro/"
  {
  }

  lemma TrimExample2()
    ensures TrimRight("/docs/intro/", IsSlash) == "/docs/intro"
    ensures TrimLeft("/docs/intro", IsSlash) == "docs/intro"
  {
  }

  lemma NormalizeExample2()
    ensures Normalize("/docs/intro/") == "/docs/intro"
  {
    ReplaceExample2();
    NormalExample2();
    TrimExample2();
  }

  lemma NoDotsExample()
    ensures !Contains("/docs/intro", "..")
  {
    NoFirstCharNoContains("/docs/intro", "..");
  }

  /** A leading and a trailing slash are both dropped. */
  lemma ResolveExample()
    ensures Resolve("/docs/intro/") == Some("docs/intro")
  {
    NormalizeExample2();
    var n := Normalize("/docs/intro/");
    assert n == "/docs/intro";
    NoDotsExample();
    TrimExample2();
    assert TrimLeft(n, IsSlash) == "docs/intro";
  }

  /** Traversal attempts, and names with two dots, are rejected. */
  lemma ResolveRejectExamples()
    ensures Resolve("docs/../config").None?
    ensures Resolve("a..b").None?
  {
    assert DotsAt("docs/../config", 5);
    DotsAtContains("docs/../config");
    ResolveRejectsDots("docs/../config");
    assert DotsAt("a..b", 1);
    DotsAtContains("a..b");
    ResolveRejectsDots("a..b");
  }
}

=== FILE: plugin.dfy ===
/**
 * The Vite plugin's pure parts: option defaults, the virtual module ids
 * (`resolveId` and `load`), the manifest module's text and the keying of
 * the initial scan (`scanAndCompile`). Globbing, reading and compiling the
 * files happen outside the model: the scan receives the compiled files in
 * glob order.
 */
module Plugin {
  import opened Wrappers
  import opened Strings
  import Assoc
  import Compiler
  import ManifestBuilder

  const VirtualManifest: string := "virtual:inertia-content/manifest"
  const VirtualEntryPrefix: string := "virtual:inertia-content/entry/"

  /** Rollup's marker for ids that no other plugin should touch. */
  const Nul: string := "\0"

  const DefaultContentDir: string := "resources/content"
  const DefaultManifestPath: string := "public/build/inertia-content-manifest.json"
  const DefaultIgnore: seq<string> := ["**/.*", "**/_*", "**/node_modules/**"]

  /** The options as passed to the plugin; an absent option is `None`. */
  datatype Options = Options(contentDir: Option<string>, manifestPath: Option<string>, ignore: Option<seq<string>>)

  /** The options after defaulting. */
  datatype Settings = Settings(contentDir: string, manifestPath: string, ignore: seq<string>)

  /**
   * `options.x || default`: an absent or empty path falls back to its
   * default; an ignore list, even an empty one, is kept when given.
   */
  function Configure(o: Options): (s: Settings)
    ensures o.contentDir.None? || o.contentDir == Some("") ==> s.contentDir == DefaultContentDir
    ensures o.contentDir.Some? && o.contentDir.value != "" ==> s.contentDir == o.contentDir.value
    ensures o.manifestPath.None? || o.manifestPath == Some("") ==> s.manifestPath == DefaultManifestPath
    ensures o.manifestPath.Some? && o.manifestPath.value != "" ==> s.manifestPath == o.manifestPath.value
    ensures o.ignore.None? ==> s.ignore == DefaultIgnore
    ensures o.ignore.Some? ==> s.ignore == o.ignore.value
    ensures s.contentDir != "" && s.manifestPath != ""
  {
    Settings(
      if o.contentDir.Some? && o.contentDir.value != "" then o.contentDir.value else DefaultContentDir,
      if o.manifestPath.Some? && o.manifestPath.value != "" then o.manifestPath.value else DefaultManifestPath,
      o.ignore.GetOr(DefaultIgnore))
  }

  /** `resolveId`: the plugin claims the manifest id and every entry id; `None` leaves the id to others. */
  function ResolveId(id: string): (r: Option<string>)
    ensures r.Some? <==> id == VirtualManifest || StartsWith(id, VirtualEntryPrefix)
    ensures r.Some? ==> r.value == Nul + id
  {
    if id == VirtualManifest then Some(Nul + VirtualManifest)
    else if StartsWith(id, VirtualEntryPrefix) then Some(Nul + id)
    else None
  }

  /** `generateManifestModule`; `stringify` stands for `JSON.stringify(manifest, null, 2)`. */
  function ManifestModule(m: ManifestBuilder.Manifest, stringify: ManifestBuilder.Manifest -> string): string {
    "\nexport const manifest = " + stringify(m) + "\n" + VersionLine(m.version) + ModuleTail
  }

  /** The accessors that follow the version line. */
  const ModuleTail: string :=
    "\n\n"
    + "export function getEntry(path) {\n  return manifest.entries[path]\n}\n\n"
    + "export function getAllPaths() {\n  return Object.keys(manifest.entries)\n}\n"

  /** The line of the manifest module that exports the version. */
  function VersionLine(version: string): string {
    "export const version = \"" + version + "\""
  }

  /**
   * `load`: the resolved manifest id yields the manifest module; a resolved
   * entry id yields the compiled component stored under the rest of the id,
   * or nothing when there is none; every other id yields nothing.
   */
  function Load(id: string, m: ManifestBuilder.Manifest, entries: ManifestBuilder.CompiledEntries,
                stringify: ManifestBuilder.Manifest -> string): (r: Option<string>)
    ensures id == Nul + VirtualManifest ==> r == Some(ManifestModule(m, stringify))
    ensures id != Nul + VirtualManifest && StartsWith(id, Nul + VirtualEntryPrefix) ==>
              var p := id[|Nul + VirtualEntryPrefix|..];
              (r.Some? <==> Assoc.Get(entries, p).Some?)
              && (r.Some? ==> r.value == Assoc.Get(entries, p).value.vueComponent)
    ensures id != Nul + VirtualManifest && !StartsWith(id, Nul + VirtualEntryPrefix) ==> r.None?
  {
    if id == Nul + VirtualManifest then Some(ManifestModule(m, stringify))
    else if StartsWith(id, Nul + VirtualEntryPrefix) then
      match Assoc.Get(entries, id[|Nul + VirtualEntryPrefix|..])
      case Some(c) => Some(c.vueComponent)
      case None => None
    else None
  }

  /**
   * `scanAndCompile`: each compiled file is stored under its `_path`, in
   * glob order, so a later file replaces an earlier one with the same key.
   */
  function ScanAndCompile(files: seq<Compiler.Compiled>): (r: ManifestBuilder.CompiledEntries)
    ensures |r| <= |files|
    ensures Assoc.UniqueKeys(r)
    ensures FromFiles(r, files)
    decreases |files|
  {
    if |files| == 0 then []
    else
      var init := files[..|files| - 1];
      var last := files[|files| - 1];
      var prev := ScanAndCompile(init);
      var k := ManifestBuilder.EntryKey(last);
      Assoc.SetKeys(prev, k, last);
      Assoc.SetUnique(prev, k, last);
      ScanStep(files, prev);
      Assoc.Set(prev, k, last)
  }

  /** Every entry is some scanned file stored under its own key. */
  ghost predicate FromFiles(r: ManifestBuilder.CompiledEntries, files: seq<Compiler.Compiled>) {
    forall i :: 0 <= i < |r| ==> exists j :: 0 <= j < |files| && r[i] == (ManifestBuilder.EntryKey(files[j]), files[j])
  }

  /** Storing the last file keeps every entry drawn from the scanned files. */
  lemma ScanStep(files: seq<Compiler.Compiled>, prev: ManifestBuilder.CompiledEntries)
    requires |files| > 0 && FromFiles(prev, files[..|files| - 1])
    ensures var last := files[|files| - 1];
            FromFiles(Assoc.Set(prev, ManifestBuilder.EntryKey(last), last), files)
  {
    var init := files[..|files| - 1];
    var last := files[|files| - 1];
    var k := ManifestBuilder.EntryKey(last);
    var r := Assoc.Set(prev, k, last);
    forall i | 0 <= i < |r|
      ensures exists j :: 0 <= j < |files| && r[i] == (ManifestBuilder.EntryKey(files[j]), files[j])
    {
      Assoc.SetEntryFrom(prev, k, last, i);
      if r[i] != (k, last) {
        var j :| 0 <= j < |init| && prev[i] == (ManifestBuilder.EntryKey(init[j]), init[j]);
        assert files[j] == init[j];
      } else {
        assert r[i] == (ManifestBuilder.EntryKey(files[|files| - 1]), files[|files| - 1]);
      }
    }
  }

  /** `buildStart`: the compiled entries and the manifest generated from them. */
  function BuildStart(files: seq<Compiler.Compiled>, hash: string -> string, now: int)
    : (r: (ManifestBuilder.CompiledEntries, ManifestBuilder.Manifest))
    ensures Assoc.Keys(r.1.entries) == Assoc.Keys(r.0)
    ensures r.0 == ScanAndCompile(files)
  {
    var compiled := ScanAndCompile(files);
    (compiled, ManifestBuilder.GenerateManifest(compiled, hash, now))
  }

  // ---------------------------------------------------------------------
  // Lemmas
  // ---------------------------------------------------------------------

  /** The entry id of a content path resolves to an id that `load` answers from exactly that path. */
  lemma LoadResolvedEntry(p: string, m: ManifestBuilder.Manifest, entries: ManifestBuilder.CompiledEntries,
                          stringify: ManifestBuilder.Manifest -> string)
    ensures ResolveId(VirtualEntryPrefix + p) == Some(Nul + VirtualEntryPrefix + p)
    ensures var r := Load(Nul + VirtualEntryPrefix + p, m, entries, stringify);
            && (r.Some? <==> Assoc.Get(entries, p).Some?)
            && (r.Some? ==> r.value == Assoc.Get(entries, p).value.vueComponent)
  {
    var id := VirtualEntryPrefix + p;
    assert id[..|VirtualEntryPrefix|] == VirtualEntryPrefix;
    var nid := Nul + id;
    assert Nul + VirtualEntryPrefix + p == nid;
    assert nid[..|Nul + VirtualEntryPrefix|] == Nul + VirtualEntryPrefix;
    assert nid != Nul + VirtualManifest by {
      assert VirtualEntryPrefix[24] == 'e' && VirtualManifest[24] == 'm';
      assert nid[25] == VirtualEntryPrefix[24] && (Nul + VirtualManifest)[25] == VirtualManifest[24];
    }
    assert nid[|Nul + VirtualEntryPrefix|..] == p;
  }

  /** The manifest id resolves to the id `load` answers with the manifest module. */
  lemma LoadResolvedManifest(m: ManifestBuilder.Manifest, entries: ManifestBuilder.CompiledEntries,
                             stringify: ManifestBuilder.Manifest -> string)
    ensures ResolveId(VirtualManifest) == Some(Nul + VirtualManifest)
    ensures Load(Nul + VirtualManifest, m, entries, stringify) == Some(ManifestModule(m, stringify))
  {
  }

  /** The manifest module exports the manifest's version as a string literal. */
  lemma ManifestModuleExportsVersion(m: ManifestBuilder.Manifest, stringify: ManifestBuilder.Manifest -> string)
    ensures Contains(ManifestModule(m, stringify), VersionLine(m.version))
  {
    var head := "\nexport const manifest = " + stringify(m) + "\n";
    ContainsMiddle(head, VersionLine(m.version), ModuleTail);
  }

  /** A file that no later file shadows is the one stored under its key. */
  lemma {:induction false} ScanLaterWins(files: seq<Compiler.Compiled>, i: nat)
    requires i < |files|
    requires forall j :: i < j < |files| ==> ManifestBuilder.EntryKey(files[j]) != ManifestBuilder.EntryKey(files[i])
    ensures Assoc.Get(ScanAndCompile(files), ManifestBuilder.EntryKey(files[i])) == Some(files[i])
    decreases |files|
  {
    var init := files[..|files| - 1];
    var last := files[|files| - 1];
    Assoc.SetGet(ScanAndCompile(init), ManifestBuilder.EntryKey(last), last);
    if i < |files| - 1 {
      ScanLaterWins(init, i);
    }
  }

  /** The keys of the scanned files, in glob order. */
  function FileKeys(files: seq<Compiler.Compiled>): (ks: seq<string>)
    ensures |ks| == |files| && forall i :: 0 <= i < |files| ==> ks[i] == ManifestBuilder.EntryKey(files[i])
  {
    ManifestBuilder.Map(files, ManifestBuilder.EntryKey)
  }

  /** The scan stores exactly the keys of the scanned files, so no key is lost. */
  lemma {:induction false} ScanKeys(files: seq<Compiler.Compiled>, k: string)
    ensures k in Assoc.Keys(ScanAndCompile(files)) <==> k in FileKeys(files)
    decreases |files|
  {
    if |files| > 0 {
      var init := files[..|files| - 1];
      var last := files[|files| - 1];
      var prev := ScanAndCompile(init);
      var key := ManifestBuilder.EntryKey(last);
      assert ScanAndCompile(files) == Assoc.Set(prev, key, last);
      Assoc.SetKeys(prev, key, last);
      ScanKeys(init, k);
      FileKeysSnoc(files);
      assert k in Assoc.Keys(prev) + [key] <==> k in Assoc.Keys(prev) || k == key;
      assert k in FileKeys(init) + [key] <==> k in FileKeys(init) || k == key;
    }
  }

  /** The keys of a non-empty scan are the keys of all but the last file, then the last file's key. */
  lemma FileKeysSnoc(files: seq<Compiler.Compiled>)
    requires |files| > 0
    ensures FileKeys(files) == FileKeys(files[..|files| - 1]) + [ManifestBuilder.EntryKey(files[|files| - 1])]
  {
    var a := FileKeys(files);
    var b := FileKeys(files[..|files| - 1]) + [ManifestBuilder.EntryKey(files[|files| - 1])];
    assert |a| == |b|;
    forall i | 0 <= i < |a| ensures a[i] == b[i] {
      if i < |files| - 1 {
        assert files[..|files| - 1][i] == files[i];
      }
    }
  }

  /** After the initial scan every manifest path loads a component. */
  lemma EveryManifestPathLoads(files: seq<Compiler.Compiled>, hash: string -> string, now: int, p: string,
                               stringify: ManifestBuilder.Manifest -> string)
    requires p in Assoc.Keys(BuildStart(files, hash, now).1.entries)
    ensures var (compiled, m) := BuildStart(files, hash, now);
            Load(ResolveId(VirtualEntryPrefix + p).value, m, compiled, stringify).Some?
  {
    var (compiled, m) := BuildStart(files, hash, now);
    LoadResolvedEntry(p, m, compiled, stringify);
  }
}

=== FILE: seqs.dfy ===
/**
 * Facts about sequences of any element type. Stating them once, for a type
 * parameter, keeps element-specific equalities out of the proofs that use them.
 */
module Seqs {

  /** A non-empty sequence is its head followed by its tail. */
  lemma ConsTail<T>(h: T, rest: seq<T>)
    ensures ([h] + rest)[0] == h && ([h] + rest)[1..] == rest
  {
  }

  lemma HeadAndRest<T>(s: seq<T>, p: seq<T>)
    requires |s| > 0
    ensures p + [s[0]] + s[1..] == p + s
  {
    assert s == [s[0]] + s[1..];
  }

  /** A sequence split around its `i`-th element. */
  lemma SplitAt<T>(s: seq<T>, i: nat)
    requires i < |s|
    ensures s == s[..i] + ([s[i]] + s[i + 1..])
  {
  }

  /** The head and tail of a concatenation whose left part is not empty. */
  lemma ConcatHead<T>(a: seq<T>, b: seq<T>)
    requires |a| > 0
    ensures (a + b)[0] == a[0] && (a + b)[1..] == a[1..] + b
  {
  }

  /** A prefix `t` of the suffix `l` of `s` from `i` is the slice of `s` at `i`. */
  lemma PrefixOfSuffix<T>(s: seq<T>, i: nat, l: seq<T>, t: seq<T>)
    requires i <= |s| && l == s[i..]
    requires |t| <= |l| && t == l[..|t|]
    ensures i + |t| <= |s| && t == s[i..i + |t|]
  {
  }

  /** What holds past index `n` of the suffix `l` of `s` from `i` holds past index `i + n` of `s`. */
  lemma SuffixTail<T>(s: seq<T>, i: nat, l: seq<T>, n: nat, p: T -> bool)
    requires i <= |s| && l == s[i..] && n <= |l|
    requires forall k :: n <= k < |l| ==> p(l[k])
    ensures forall k :: i + n <= k < |s| ==> p(s[k])
  {
    forall k | i + n <= k < |s|
      ensures p(s[k])
    {
      assert s[k] == l[k - i];
    }
  }

  /** A suffix of the tail is a suffix of the whole. */
  lemma TailSuffix<T>(s: seq<T>, n: nat)
    requires 0 < |s| && n <= |s| - 1
    ensures s[1..][|s| - 1 - n..] == s[|s| - n..]
  {
  }

  /** What holds for the first `n` elements of the tail holds for elements 1 to `n` of the whole. */
  lemma TailPrefix<T>(s: seq<T>, n: nat, p: T -> bool)
    requires n < |s|
    requires forall i :: 0 <= i < n ==> p(s[1..][i])
    ensures forall i :: 1 <= i < n + 1 ==> p(s[i])
  {
    forall i | 1 <= i < n + 1
      ensures p(s[i])
    {
      assert s[i] == s[1..][i - 1];
    }
  }

  /** A slice of a prefix is the same slice of the whole. */
  lemma SliceOfPrefix<T>(e: seq<T>, cut: nat, i: nat, j: nat)
    requires i <= j <= cut <= |e|
    ensures e[..cut][i..j] == e[i..j]
  {
  }

  /** The two halves of a concatenation. */
  lemma ConcatHalves<T>(a: seq<T>, b: seq<T>)
    ensures (a + b)[..|a|] == a && (a + b)[|a|..] == b
  {
  }

  lemma Display4<T>(a: T, b: T, c: T, d: T)
    ensures [a, b, c, d] == [a] + ([b] + ([c] + [d]))
  {
  }

  lemma AppendNil<T>(a: seq<T>)
    ensures a + [] == a
  {
  }

  // ---------------------------------------------------------------------
  // Order-preserving filtering
  // ---------------------------------------------------------------------

  /** The elements of `s` that satisfy `p`, in their original order. */
  function FilterSeq<T>(s: seq<T>, p: T -> bool): (r: seq<T>)
    ensures |r| <= |s|
    ensures forall k :: 0 <= k < |r| ==> r[k] in s && p(r[k])
    ensures forall i :: 0 <= i < |s| && p(s[i]) ==> s[i] in r
  {
    if s == [] then []
    else
      assert forall i :: 1 <= i < |s| ==> s[i] == s[1..][i - 1];
      (if p(s[0]) then [s[0]] else []) + FilterSeq(s[1..], p)
  }

  /** The positions of `s`, from `from` on, whose elements satisfy `p`, in ascending order. */
  function Picks<T>(s: seq<T>, p: T -> bool, from: nat): (r: seq<nat>)
    requires from <= |s|
    ensures forall k :: 0 <= k < |r| ==> from <= r[k] < |s| && p(s[r[k]])
    ensures forall k, l :: 0 <= k < l < |r| ==> r[k] < r[l]
    ensures forall i :: from <= i < |s| && p(s[i]) ==> i in r
    decreases |s| - from
  {
    if from == |s| then []
    else (if p(s[from]) then [from] else []) + Picks(s, p, from + 1)
  }

  /**
   * Filtering keeps exactly the elements at the ascending positions whose
   * elements satisfy `p`: the `k`-th survivor is the element at the `k`-th
   * such position.
   */
  lemma {:induction false} FilterPicks<T>(s: seq<T>, p: T -> bool, from: nat)
    requires from <= |s|
    ensures |FilterSeq(s[from..], p)| == |Picks(s, p, from)|
    ensures forall k :: 0 <= k < |Picks(s, p, from)| ==> FilterSeq(s[from..], p)[k] == s[Picks(s, p, from)[k]]
    decreases |s| - from
  {
    if from < |s| {
      FilterPicks(s, p, from + 1);
      var tail := s[from..];
      assert tail[0] == s[from] && tail[1..] == s[from + 1..];
      var f := FilterSeq(s[from + 1..], p);
      var q := Picks(s, p, from + 1);
      assert FilterSeq(tail, p) == (if p(s[from]) then [s[from]] else []) + f;
      assert Picks(s, p, from) == (if p(s[from]) then [from] else []) + q;
      if p(s[from]) {
        ConsPicked(s, f, from, q);
      }
    }
  }

  /** Putting an element in front of its picked elements puts its position in front of theirs. */
  lemma ConsPicked<T>(s: seq<T>, f: seq<T>, i: nat, q: seq<nat>)
    requires i < |s| && |f| == |q|
    requires forall k :: 0 <= k < |q| ==> q[k] < |s| && f[k] == s[q[k]]
    ensures forall k :: 0 <= k < |q| + 1 ==> ([i] + q)[k] < |s| && ([s[i]] + f)[k] == s[([i] + q)[k]]
  {
    forall k | 0 < k < |q| + 1
      ensures ([i] + q)[k] < |s| && ([s[i]] + f)[k] == s[([i] + q)[k]]
    {
      assert ([s[i]] + f)[k] == f[k - 1] && ([i] + q)[k] == q[k - 1];
    }
  }

  /** A filter is the subsequence of `s` at the positions whose elements satisfy `p`. */
  lemma FilterIsPicked<T>(s: seq<T>, p: T -> bool)
    ensures var idx := Picks(s, p, 0);
            FilterSeq(s, p) == seq(|idx|, k requires 0 <= k < |idx| => s[idx[k]])
  {
    FilterPicks(s, p, 0);
    assert s[0..] == s;
  }
}

=== FILE: sorting.dfy ===
/**
 * Stable comparison sort over a three-way comparator, the model of PHP's
 * `usort` (stable since PHP 8.0) and of JavaScript's `Array.prototype.sort`.
 * The algorithm is insertion sort: each element, taken left to right, is
 * placed after the last element of the sorted prefix that does not compare
 * greater than it. For a consistent comparator (antisymmetric, transitive)
 * every stable sort yields the same sequence, so this agrees with the
 * engines' own algorithms; for an inconsistent one it need not.
 */
module Sorting {

  /** `cmp(a, b) == -cmp(b, a)` for all arguments: the spaceship operator's contract. */
  ghost predicate Antisymmetric<T(!new)>(cmp: (T, T) -> int) {
    forall a, b :: cmp(a, b) == -cmp(b, a)
  }

  /** `cmp` orders values transitively. */
  ghost predicate Transitive<T(!new)>(cmp: (T, T) -> int) {
    forall a, b, c :: cmp(a, b) <= 0 && cmp(b, c) <= 0 ==> cmp(a, c) <= 0
  }

  /** Only equal values compare equal. */
  ghost predicate Discriminating<T(!new)>(cmp: (T, T) -> int) {
    forall a, b :: cmp(a, b) == 0 ==> a == b
  }

  /** Neighbours are in order. */
  ghost predicate AdjacentSorted<T>(s: seq<T>, cmp: (T, T) -> int) {
    forall i :: 0 <= i < |s| - 1 ==> cmp(s[i], s[i + 1]) <= 0
  }

  /** Every pair is in order. */
  ghost predicate Sorted<T>(s: seq<T>, cmp: (T, T) -> int) {
    forall i, j :: 0 <= i < j < |s| ==> cmp(s[i], s[j]) <= 0
  }

  /** `x` placed after the last element of `ys` that does not compare greater than it. */
  function Insert<T>(ys: seq<T>, x: T, cmp: (T, T) -> int): (r: seq<T>)
    ensures |r| == |ys| + 1
    ensures multiset(r) == multiset(ys) + multiset{x}
    ensures r[|r| - 1] == x || (|ys| > 0 && r[|r| - 1] == ys[|ys| - 1])
    decreases |ys|
  {
    if |ys| == 0 then [x]
    else if cmp(ys[|ys| - 1], x) <= 0 then ys + [x]
    else
      var init := ys[..|ys| - 1];
      assert ys == init + [ys[|ys| - 1]];
      Insert(init, x, cmp) + [ys[|ys| - 1]]
  }

  /** `usort($xs, $cmp)`: the elements of `xs` in comparator order. */
  function Sort<T>(xs: seq<T>, cmp: (T, T) -> int): (r: seq<T>)
    ensures |r| == |xs|
    ensures multiset(r) == multiset(xs)
    decreases |xs|
  {
    if |xs| == 0 then []
    else
      var init := xs[..|xs| - 1];
      assert xs == init + [xs[|xs| - 1]];
      Insert(Sort(init, cmp), xs[|xs| - 1], cmp)
  }

  lemma {:induction false} InsertAdjacentSorted<T(!new)>(ys: seq<T>, x: T, cmp: (T, T) -> int)
    requires Antisymmetric(cmp)
    requires AdjacentSorted(ys, cmp)
    ensures AdjacentSorted(Insert(ys, x, cmp), cmp)
    decreases |ys|
  {
    if |ys| > 0 && cmp(ys[|ys| - 1], x) > 0 {
      var init := ys[..|ys| - 1];
      var last := ys[|ys| - 1];
      InsertAdjacentSorted(init, x, cmp);
      var r := Insert(init, x, cmp);
      assert cmp(x, last) < 0;
      if |init| > 0 && r[|r| - 1] == init[|init| - 1] {
        assert cmp(ys[|ys| - 2], ys[|ys| - 1]) <= 0;
      }
      assert Insert(ys, x, cmp) == r + [last];
    }
  }

  /**
   * With an antisymmetric comparator the result is in order neighbour by
   * neighbour; this is all PHP's spaceship operator guarantees.
   */
  lemma {:induction false} SortAdjacentSorted<T(!new)>(xs: seq<T>, cmp: (T, T) -> int)
    requires Antisymmetric(cmp)
    ensures AdjacentSorted(Sort(xs, cmp), cmp)
    decreases |xs|
  {
    if |xs| > 0 {
      SortAdjacentSorted(xs[..|xs| - 1], cmp);
      InsertAdjacentSorted(Sort(xs[..|xs| - 1], cmp), xs[|xs| - 1], cmp);
    }
  }

  lemma {:induction false} AdjacentToSorted<T(!new)>(s: seq<T>, cmp: (T, T) -> int)
    requires Transitive(cmp)
    requires AdjacentSorted(s, cmp)
    ensures Sorted(s, cmp)
    decreases |s|
  {
    if |s| > 1 {
      var init := s[..|s| - 1];
      AdjacentToSorted(init, cmp);
      forall i, j | 0 <= i < j < |s|
        ensures cmp(s[i], s[j]) <= 0
      {
        if j == |s| - 1 && i < j - 1 {
          assert cmp(init[i], init[j - 1]) <= 0;
        }
      }
    }
  }

  /** With a transitive comparator as well, every pair of the result is in order. */
  lemma SortSorted<T(!new)>(xs: seq<T>, cmp: (T, T) -> int)
    requires Antisymmetric(cmp) && Transitive(cmp)
    ensures Sorted(Sort(xs, cmp), cmp)
  {
    SortAdjacentSorted(xs, cmp);
    AdjacentToSorted(Sort(xs, cmp), cmp);
  }

  lemma SortedTail<T>(a: seq<T>, cmp: (T, T) -> int)
    requires |a| > 0 && Sorted(a, cmp)
    ensures Sorted(a[1..], cmp)
  {
    forall i, j | 0 <= i < j < |a| - 1
      ensures cmp(a[1..][i], a[1..][j]) <= 0
    {
      assert a[1..][i] == a[i + 1] && a[1..][j] == a[j + 1];
    }
  }

  /** The first element of a sorted sequence is no greater than any of its elements. */
  lemma SortedHeadLeast<T>(a: seq<T>, x: T, cmp: (T, T) -> int)
    requires Sorted(a, cmp) && x in multiset(a) && x != a[0]
    ensures cmp(a[0], x) <= 0
  {
    var i :| 0 <= i < |a| && a[i] == x;
  }

  lemma SortedSameHead<T(!new)>(a: seq<T>, b: seq<T>, cmp: (T, T) -> int)
    requires Antisymmetric(cmp) && Discriminating(cmp)
    requires Sorted(a, cmp) && Sorted(b, cmp)
    requires |a| > 0 && multiset(a) == multiset(b)
    ensures |b| > 0 && a[0] == b[0]
  {
    assert a[0] in multiset(b);
    assert |b| > 0;
    assert b[0] in multiset(a);
    if a[0] != b[0] {
      SortedHeadLeast(b, a[0], cmp);
      SortedHeadLeast(a, b[0], cmp);
    }
  }

  /** Under a total order a sequence is determined by its elements once sorted. */
  lemma {:induction false} SortedUnique<T(!new)>(a: seq<T>, b: seq<T>, cmp: (T, T) -> int)
    requires Antisymmetric(cmp) && Discriminating(cmp)
    requires Sorted(a, cmp) && Sorted(b, cmp)
    requires multiset(a) == multiset(b)
    ensures a == b
    decreases |a|
  {
    if |a| == 0 {
      PermutationEmpty(a, b);
    } else {
      SortedSameHead(a, b, cmp);
      assert multiset(a[1..]) == multiset(b[1..]) by {
        MultisetTail(a);
        MultisetTail(b);
        AddCancel(multiset(a[1..]), multiset(b[1..]), a[0]);
      }
      SortedTail(a, cmp);
      SortedTail(b, cmp);
      SortedUnique(a[1..], b[1..], cmp);
      assert a == [a[0]] + a[1..] && b == [b[0]] + b[1..];
    }
  }

  /** Under a total order the sorted result does not depend on the input order. */
  lemma SortPermutationInvariant<T(!new)>(xs: seq<T>, ys: seq<T>, cmp: (T, T) -> int)
    requires Antisymmetric(cmp) && Transitive(cmp) && Discriminating(cmp)
    requires multiset(xs) == multiset(ys)
    ensures Sort(xs, cmp) == Sort(ys, cmp)
  {
    SortSorted(xs, cmp);
    SortSorted(ys, cmp);
    SortedUnique(Sort(xs, cmp), Sort(ys, cmp), cmp);
  }

  /** A sequence already in order, in particular one whose elements all tie, is left as it is. */
  lemma {:induction false} SortOfSorted<T>(xs: seq<T>, cmp: (T, T) -> int)
    requires AdjacentSorted(xs, cmp)
    ensures Sort(xs, cmp) == xs
    decreases |xs|
  {
    if |xs| > 0 {
      var init := xs[..|xs| - 1];
      var last := xs[|xs| - 1];
      assert Sort(init, cmp) == init by {
        AdjacentSortedInit(xs, cmp);
        SortOfSorted(init, cmp);
      }
      assert Insert(init, last, cmp) == xs by {
        AdjacentSortedInit(xs, cmp);
        InsertAtEnd(init, last, cmp);
        assert xs == init + [last];
      }
      SortSnoc(xs, cmp);
    }
  }

  /** `Sort` inserts the last element into the sorted rest. */
  lemma SortSnoc<T>(xs: seq<T>, cmp: (T, T) -> int)
    requires |xs| > 0
    ensures Sort(xs, cmp) == Insert(Sort(xs[..|xs| - 1], cmp), xs[|xs| - 1], cmp)
  {
  }

  /** Dropping the last element of an ordered sequence keeps it ordered. */
  lemma AdjacentSortedInit<T>(xs: seq<T>, cmp: (T, T) -> int)
    requires |xs| > 0 && AdjacentSorted(xs, cmp)
    ensures AdjacentSorted(xs[..|xs| - 1], cmp)
    ensures |xs| > 1 ==> cmp(xs[..|xs| - 1][|xs| - 2], xs[|xs| - 1]) <= 0
  {
    var init := xs[..|xs| - 1];
    forall i | 0 <= i < |init| - 1
      ensures cmp(init[i], init[i + 1]) <= 0
    {
      assert init[i] == xs[i] && init[i + 1] == xs[i + 1];
    }
    if |xs| > 1 {
      assert init[|xs| - 2] == xs[|xs| - 2];
    }
  }

  /** An element no less than the last one is inserted at the end. */
  lemma InsertAtEnd<T>(ys: seq<T>, x: T, cmp: (T, T) -> int)
    requires |ys| == 0 || cmp(ys[|ys| - 1], x) <= 0
    ensures Insert(ys, x, cmp) == ys + [x]
  {
  }

  // ---------------------------------------------------------------------
  // Permutations
  // ---------------------------------------------------------------------

  /** Taking out the element at `i` takes one copy of it out of the multiset. */
  lemma MultisetRemoveAt<T>(b: seq<T>, i: nat)
    requires i < |b|
    ensures multiset(b) == multiset(b[..i] + b[i + 1..]) + multiset{b[i]}
  {
    assert b == b[..i] + [b[i]] + b[i + 1..];
  }

  lemma AddCancel<T>(xs: multiset<T>, ys: multiset<T>, x: T)
    requires xs + multiset{x} == ys + multiset{x}
    ensures xs == ys
  {
    assert forall e :: xs[e] == (xs + multiset{x})[e] - multiset{x}[e];
    assert forall e :: ys[e] == (ys + multiset{x})[e] - multiset{x}[e];
  }

  /** Taking off the head takes one copy of it out of the multiset. */
  lemma MultisetTail<T>(xs: seq<T>)
    requires |xs| > 0
    ensures multiset(xs) == multiset(xs[1..]) + multiset{xs[0]}
  {
    assert xs == [xs[0]] + xs[1..];
  }

  /** Matching the head of one permutation with an element of the other leaves permutations. */
  lemma PermutationRemove<T>(xs: seq<T>, ys: seq<T>, i: nat)
    requires multiset(xs) == multiset(ys) && |xs| > 0
    requires i < |ys| && ys[i] == xs[0]
    ensures multiset(xs[1..]) == multiset(ys[..i] + ys[i + 1..])
  {
    var rest := ys[..i] + ys[i + 1..];
    MultisetRemoveAt(ys, i);
    MultisetTail(xs);
    AddCancel(multiset(xs[1..]), multiset(rest), xs[0]);
  }

  /**
   * The head of a sequence occurs at some position `i` of any permutation of
   * it, and the rest of the sequence is a permutation of the other elements.
   */
  lemma PermutationHead<T>(xs: seq<T>, ys: seq<T>) returns (i: nat)
    requires multiset(xs) == multiset(ys) && |xs| > 0
    ensures i < |ys| && ys[i] == xs[0]
    ensures multiset(xs[1..]) == multiset(ys[..i] + ys[i + 1..])
  {
    assert xs[0] in multiset(xs);
    var j :| 0 <= j < |ys| && ys[j] == xs[0];
    i := j;
    PermutationRemove(xs, ys, i);
  }

  /** Only the empty sequence is a permutation of the empty sequence. */
  lemma PermutationEmpty<T>(xs: seq<T>, ys: seq<T>)
    requires multiset(xs) == multiset(ys) && |xs| == 0
    ensures ys == []
  {
    assert |ys| == |multiset(ys)| == 0;
  }
}

=== FILE: strings.dfy ===
/**
 * String helpers shared by the PHP and the JavaScript halves of the model:
 * substring search, first/last replacement, trimming, splitting on one
 * character, the code-point order used by `strcmp` and by JavaScript's
 * default sort, and decimal rendering of integers.
 */
module Strings {
  import opened Wrappers
  import Seqs

  // ---------------------------------------------------------------------
  // Substrings
  // ---------------------------------------------------------------------

  /** `t` occurs in `s` starting at index `i`. */
  predicate OccursAt(s: string, t: string, i: int) {
    0 <= i && i + |t| <= |s| && s[i..i + |t|] == t
  }

  /** PHP `str_contains`, JavaScript `includes`. */
  predicate Contains(s: string, t: string) {
    exists i | 0 <= i <= |s| :: OccursAt(s, t, i)
  }

  /** PHP `str_starts_with`, JavaScript `startsWith`. */
  predicate StartsWith(s: string, t: string) {
    |t| <= |s| && s[..|t|] == t
  }

  /** PHP `str_ends_with`, JavaScript `endsWith`. */
  predicate EndsWith(s: string, t: string) {
    |t| <= |s| && s[|s| - |t|..] == t
  }

  /** The first occurrence of `t` in `s` at or after index `from`. */
  function IndexFrom(s: string, t: string, from: nat): (r: Option<nat>)
    ensures r.Some? ==> from <= r.value && OccursAt(s, t, r.value)
    ensures r.Some? ==> forall j :: from <= j < r.value ==> !OccursAt(s, t, j)
    ensures r.None? ==> forall j :: from <= j ==> !OccursAt(s, t, j)
    decreases |s| - from
  {
    if from + |t| > |s| then None
    else if OccursAt(s, t, from) then Some(from)
    else IndexFrom(s, t, from + 1)
  }

  /** PHP `strpos` / JavaScript `indexOf`: the first occurrence of `t`. */
  function IndexOf(s: string, t: string): (r: Option<nat>)
    ensures r.Some? ==> OccursAt(s, t, r.value)
    ensures r.Some? ==> forall j :: 0 <= j < r.value ==> !OccursAt(s, t, j)
    ensures r.None? <==> !Contains(s, t)
  {
    IndexFrom(s, t, 0)
  }

  /** The last occurrence of `t` in `s` at or before index `upto`. */
  function LastIndexUpto(s: string, t: string, upto: int): (r: Option<nat>)
    ensures r.Some? ==> r.value <= upto && OccursAt(s, t, r.value)
    ensures r.Some? ==> forall j :: r.value < j <= upto ==> !OccursAt(s, t, j)
    ensures r.None? ==> forall j :: j <= upto ==> !OccursAt(s, t, j)
    decreases upto + 1
  {
    if upto < 0 then None
    else if OccursAt(s, t, upto) then Some(upto)
    else LastIndexUpto(s, t, upto - 1)
  }

  /** PHP `strrpos`: the last occurrence of `t`. */
  function LastIndexOf(s: string, t: string): (r: Option<nat>)
    ensures r.Some? ==> OccursAt(s, t, r.value)
    ensures r.Some? ==> forall j :: r.value < j ==> !OccursAt(s, t, j)
    ensures r.None? <==> !Contains(s, t)
  {
    LastIndexUpto(s, t, |s|)
  }

  /** Laravel `Str::replaceFirst`: the first occurrence of a non-empty `search` becomes `repl`. */
  function ReplaceFirst(s: string, search: string, repl: string): (r: string)
    ensures !Contains(s, search) || search == [] ==> r == s
    ensures search != [] && Contains(s, search) ==>
              exists i :: OccursAt(s, search, i) && r == s[..i] + repl + s[i + |search|..]
  {
    if search == [] then s
    else match IndexOf(s, search)
      case None => s
      case Some(i) => s[..i] + repl + s[i + |search|..]
  }

  /** Laravel `Str::replaceLast`: the last occurrence of a non-empty `search` becomes `repl`. */
  function ReplaceLast(s: string, search: string, repl: string): (r: string)
    ensures !Contains(s, search) || search == [] ==> r == s
    ensures search != [] && Contains(s, search) ==>
              exists i :: OccursAt(s, search, i) && r == s[..i] + repl + s[i + |search|..]
  {
    if search == [] then s
    else match LastIndexOf(s, search)
      case None => s
      case Some(i) => s[..i] + repl + s[i + |search|..]
  }

  /** A string occurs in any text that has it in the middle. */
  lemma ContainsMiddle(a: string, m: string, b: string)
    ensures Contains(a + m + b, m)
  {
    assert OccursAt(m, m, 0);
    ContainsInRight(a, m, m);
    ContainsInLeft(a + m, b, m);
  }

  /** A string that occurs in a part of a concatenation occurs in the whole. */
  lemma ContainsInLeft(a: string, b: string, t: string)
    requires Contains(a, t)
    ensures Contains(a + b, t)
  {
    var i :| 0 <= i <= |a| && OccursAt(a, t, i);
    assert (a + b)[i..i + |t|] == a[i..i + |t|];
    assert OccursAt(a + b, t, i);
  }

  lemma ContainsInRight(a: string, b: string, t: string)
    requires Contains(b, t)
    ensures Contains(a + b, t)
  {
    var i :| 0 <= i <= |b| && OccursAt(b, t, i);
    assert (a + b)[|a| + i..|a| + i + |t|] == b[i..i + |t|];
    assert OccursAt(a + b, t, |a| + i);
  }

  /**
   * An occurrence of `t` in `a + b` lies inside `a`, inside `b`, or straddles
   * the seam, in which case it shares a character with the end of `a` and
   * one with the start of `b`.
   */
  lemma ContainsConcat(a: string, b: string, t: string)
    requires Contains(a + b, t)
    ensures Contains(a, t) || Contains(b, t) ||
            (|a| > 0 && |b| > 0 && a[|a| - 1] in t && b[0] in t)
  {
    var i :| 0 <= i <= |a + b| && OccursAt(a + b, t, i);
    if i + |t| <= |a| {
      assert a[i..i + |t|] == (a + b)[i..i + |t|];
      assert OccursAt(a, t, i);
    } else if i >= |a| {
      assert b[i - |a|..i - |a| + |t|] == (a + b)[i..i + |t|];
      assert OccursAt(b, t, i - |a|);
    } else {
      assert t[|a| - 1 - i] == (a + b)[|a| - 1] == a[|a| - 1];
      assert t[|a| - i] == (a + b)[|a|] == b[0];
    }
  }

  /** A string that lacks `t`'s first character cannot contain `t`. */
  lemma NoFirstCharNoContains(s: string, t: string)
    requires |t| > 0 && t[0] !in s
    ensures !Contains(s, t)
  {
    forall i | 0 <= i <= |s|
      ensures !OccursAt(s, t, i)
    {
      if i + |t| <= |s| {
        assert s[i] in s;
        assert s[i..i + |t|][0] == s[i] != t[0];
      }
    }
  }

  // ---------------------------------------------------------------------
  // Character edits
  // ---------------------------------------------------------------------

  /** Every `from` character replaced by `to` (a global single-character replace). */
  function ReplaceChar(s: string, from: char, to: char): (r: string)
    ensures |r| == |s|
    ensures forall i :: 0 <= i < |s| ==> r[i] == (if s[i] == from then to else s[i])
    ensures from != to ==> from !in r
  {
    seq(|s|, i requires 0 <= i < |s| => if s[i] == from then to else s[i])
  }

  lemma ReplaceCharConcat(a: string, b: string, from: char, to: char)
    ensures ReplaceChar(a + b, from, to) == ReplaceChar(a, from, to) + ReplaceChar(b, from, to)
  {
  }

  /** The characters of `s` that fail `drop`, in order. */
  function RemoveChars(s: string, drop: char -> bool): (r: string)
    ensures forall i :: 0 <= i < |r| ==> !drop(r[i])
    ensures |r| <= |s|
    decreases |s|
  {
    if |s| == 0 then ""
    else (if drop(s[0]) then "" else [s[0]]) + RemoveChars(s[1..], drop)
  }

  /** `s` without its leading characters of class `ws`. */
  function TrimLeft(s: string, ws: char -> bool): (r: string)
    ensures |r| <= |s| && r == s[|s| - |r|..]
    ensures |r| > 0 ==> !ws(r[0])
    ensures forall i :: 0 <= i < |s| - |r| ==> ws(s[i])
    decreases |s|
  {
    if |s| > 0 && ws(s[0]) then
      var r := TrimLeft(s[1..], ws);
      Seqs.TailSuffix(s, |r|);
      Seqs.TailPrefix(s, |s| - 1 - |r|, ws);
      r
    else s
  }

  /** `s` without its trailing characters of class `ws`. */
  function TrimRight(s: string, ws: char -> bool): (r: string)
    ensures |r| <= |s| && r == s[..|r|]
    ensures |r| > 0 ==> !ws(r[|r| - 1])
    ensures forall i :: |r| <= i < |s| ==> ws(s[i])
    decreases |s|
  {
    if |s| > 0 && ws(s[|s| - 1]) then TrimRight(s[..|s| - 1], ws) else s
  }

  /** `s` without leading and trailing characters of class `ws`. */
  function Trim(s: string, ws: char -> bool): (r: string)
    ensures |r| <= |s|
    ensures |r| > 0 ==> !ws(r[0]) && !ws(r[|r| - 1])
    ensures forall i :: 0 <= i < |r| ==> r[i] in s
    decreases |s|
  {
    if |s| > 0 && ws(s[0]) then
      var r := Trim(s[1..], ws);
      DrawnFromPart(s, 1, |s|, r);
      r
    else if |s| > 0 && ws(s[|s| - 1]) then
      var r := Trim(s[..|s| - 1], ws);
      DrawnFromPart(s, 0, |s| - 1, r);
      r
    else s
  }

  /** Trimming both ends at once is trimming the left end, then the right. */
  lemma {:induction false} TrimBothSides(s: string, ws: char -> bool)
    ensures Trim(s, ws) == TrimRight(TrimLeft(s, ws), ws)
    decreases |s|
  {
    if |s| > 0 && ws(s[0]) {
      TrimBothSides(s[1..], ws);
    } else if |s| > 0 && ws(s[|s| - 1]) {
      var s' := s[..|s| - 1];
      TrimBothSides(s', ws);
      assert |s'| > 0 && s'[0] == s[0];
      assert TrimLeft(s', ws) == s';
      assert TrimLeft(s, ws) == s;
    }
  }

  /** Where the trimmed text `t` sits in `s`: only characters of class `ws` lie before and after it. */
  lemma TrimSlice(s: string, ws: char -> bool) returns (i: nat, t: string)
    ensures t == Trim(s, ws)
    ensures i + |t| <= |s| && t == s[i..i + |t|]
    ensures forall k :: 0 <= k < i ==> ws(s[k])
    ensures forall k :: i + |t| <= k < |s| ==> ws(s[k])
  {
    TrimBothSides(s, ws);
    var l := TrimLeft(s, ws);
    i := |s| - |l|;
    t := TrimRight(l, ws);
    assert i + |t| <= |s| && t == s[i..i + |t|] by {
      Seqs.PrefixOfSuffix(s, i, l, t);
    }
    Seqs.SuffixTail(s, i, l, |t|, ws);
  }

  /** Removing characters none of which is dropped changes nothing. */
  lemma {:induction false} RemoveCharsNone(s: string, drop: char -> bool)
    requires forall i :: 0 <= i < |s| ==> !drop(s[i])
    ensures RemoveChars(s, drop) == s
    decreases |s|
  {
    if |s| > 0 {
      RemoveCharsNone(s[1..], drop);
      assert s == [s[0]] + s[1..];
    }
  }

  /** Characters drawn from a slice of `s` are drawn from `s`. */
  lemma DrawnFromPart(s: string, a: nat, b: nat, r: string)
    requires a <= b <= |s|
    requires forall i :: 0 <= i < |r| ==> r[i] in s[a..b]
    ensures forall i :: 0 <= i < |r| ==> r[i] in s
  {
    forall i | 0 <= i < |r| ensures r[i] in s {
      assert r[i] in s[a..b];
      var j :| 0 <= j < b - a && s[a..b][j] == r[i];
      assert s[a + j] == r[i];
    }
  }

  // ---------------------------------------------------------------------
  // Runs
  // ---------------------------------------------------------------------

  /** The length of the longest run of characters satisfying `p` from index `i`. */
  function Run(s: string, i: nat, p: char -> bool): (n: nat)
    requires i <= |s|
    ensures i + n <= |s|
    decreases |s| - i
  {
    if i < |s| && p(s[i]) then 1 + Run(s, i + 1, p) else 0
  }

  /** Every character of the run satisfies `p`, and the character after it does not. */
  lemma {:induction false} RunSpec(s: string, i: nat, p: char -> bool)
    requires i <= |s|
    ensures forall k :: i <= k < i + Run(s, i, p) ==> p(s[k])
    ensures i + Run(s, i, p) < |s| ==> !p(s[i + Run(s, i, p)])
    decreases |s| - i
  {
    if i < |s| && p(s[i]) {
      RunSpec(s, i + 1, p);
    }
  }

  /** `Run` measures a run exactly when the run ends at a character failing `p`, or at the end. */
  lemma {:induction false} RunExact(s: string, i: nat, n: nat, p: char -> bool)
    requires i + n <= |s|
    requires forall k :: i <= k < i + n ==> p(s[k])
    requires i + n == |s| || !p(s[i + n])
    ensures Run(s, i, p) == n
    decreases n
  {
    if n > 0 {
      RunExact(s, i + 1, n - 1, p);
    }
  }

  /** In `x + a + b`, the run starting after `x` covers `a` exactly when `a` is all `p` and `b` does not start with `p`. */
  lemma RunAfter(x: string, a: string, b: string, p: char -> bool)
    requires forall k :: 0 <= k < |a| ==> p(a[k])
    requires |b| == 0 || !p(b[0])
    ensures Run(x + a + b, |x|, p) == |a|
  {
    var s := x + a + b;
    assert forall k :: |x| <= k < |x| + |a| ==> s[k] == a[k - |x|];
    assert |b| > 0 ==> s[|x| + |a|] == b[0];
    RunExact(s, |x|, |a|, p);
  }

  /** `from` is replaced nowhere in a string that does not contain it. */
  lemma ReplaceCharAbsent(s: string, from: char, to: char)
    requires from !in s
    ensures ReplaceChar(s, from, to) == s
  {
  }

  // ---------------------------------------------------------------------
  // Splitting on one character (PHP explode / implode, JavaScript split / join)
  // ---------------------------------------------------------------------

  /** The pieces of `s` between occurrences of `c`; never empty. */
  function Split(s: string, c: char): (r: seq<string>)
    ensures |r| >= 1
    ensures forall i :: 0 <= i < |r| ==> c !in r[i]
    decreases |s|
  {
    if |s| == 0 then [""]
    else
      var rest := Split(s[1..], c);
      if s[0] == c then [""] + rest else [[s[0]] + rest[0]] + rest[1..]
  }

  /** The pieces of `ps` with `c` between neighbours. */
  function Join(ps: seq<string>, c: char): string
    decreases |ps|
  {
    if |ps| == 0 then ""
    else if |ps| == 1 then ps[0]
    else ps[0] + [c] + Join(ps[1..], c)
  }

  lemma {:induction false} JoinSplit(s: string, c: char)
    ensures Join(Split(s, c), c) == s
    decreases |s|
  {
    if |s| > 0 {
      var rest := Split(s[1..], c);
      JoinSplit(s[1..], c);
      if s[0] == c {
        assert Split(s, c) == [""] + rest;
        assert Join([""] + rest, c) == "" + [c] + Join(rest, c);
        assert s == [s[0]] + s[1..];
      } else {
        var ps := [[s[0]] + rest[0]] + rest[1..];
        assert Split(s, c) == ps;
        if |rest| == 1 {
          assert Join(ps, c) == [s[0]] + rest[0];
          assert s == [s[0]] + s[1..];
        } else {
          assert ps[1..] == rest[1..];
          assert Join(ps, c) == [s[0]] + rest[0] + [c] + Join(rest[1..], c);
          assert Join(rest, c) == rest[0] + [c] + Join(rest[1..], c);
          assert s == [s[0]] + s[1..];
        }
      }
    }
  }

  lemma {:induction false} SplitJoinPrefix(p: string, rest: string, c: char)
    requires c !in p
    ensures Split(p + [c] + rest, c) == [p] + Split(rest, c)
    decreases |p|
  {
    if |p| == 0 {
      assert p + [c] + rest == [c] + rest;
      assert ([c] + rest)[1..] == rest;
    } else {
      SplitJoinPrefix(p[1..], rest, c);
      var s := p + [c] + rest;
      assert s[0] == p[0] && s[1..] == p[1..] + [c] + rest;
      assert p == [p[0]] + p[1..];
    }
  }

  lemma {:induction false} SplitNoSep(p: string, c: char)
    requires c !in p
    ensures Split(p, c) == [p]
    decreases |p|
  {
    if |p| > 0 {
      SplitNoSep(p[1..], c);
      assert p == [p[0]] + p[1..];
    }
  }

  /** Splitting a join of separator-free pieces gives the pieces back. */
  lemma {:induction false} SplitJoin(ps: seq<string>, c: char)
    requires |ps| >= 1
    requires forall i :: 0 <= i < |ps| ==> c !in ps[i]
    ensures Split(Join(ps, c), c) == ps
    decreases |ps|
  {
    if |ps| == 1 {
      SplitNoSep(ps[0], c);
    } else {
      SplitJoin(ps[1..], c);
      SplitJoinPrefix(ps[0], Join(ps[1..], c), c);
      assert ps == [ps[0]] + ps[1..];
    }
  }

  lemma {:induction false} JoinAppend(ps: seq<string>, q: string, c: char)
    requires |ps| >= 1
    ensures Join(ps + [q], c) == Join(ps, c) + [c] + q
    decreases |ps|
  {
    if |ps| == 1 {
      assert ps + [q] == [ps[0], q];
    } else {
      JoinAppend(ps[1..], q, c);
      assert (ps + [q])[1..] == ps[1..] + [q];
    }
  }

  lemma {:induction false} JoinConcat(ps: seq<string>, qs: seq<string>, c: char)
    requires |ps| >= 1 && |qs| >= 1
    ensures Join(ps + qs, c) == Join(ps, c) + [c] + Join(qs, c)
    decreases |ps|
  {
    if |ps| == 1 {
      assert ps + qs == [ps[0]] + qs;
      assert (ps + qs)[1..] == qs;
    } else {
      JoinConcat(ps[1..], qs, c);
      assert (ps + qs)[1..] == ps[1..] + qs;
    }
  }

  /** Joining separator-free pieces with `from` and then replacing `from` by `to` is joining with `to`. */
  lemma {:induction false} ReplaceCharJoin(ps: seq<string>, from: char, to: char)
    requires forall i :: 0 <= i < |ps| ==> from !in ps[i]
    ensures ReplaceChar(Join(ps, from), from, to) == Join(ps, to)
    decreases |ps|
  {
    if |ps| == 1 {
      ReplaceCharAbsent(ps[0], from, to);
    } else if |ps| > 1 {
      ReplaceCharJoin(ps[1..], from, to);
      ReplaceCharAbsent(ps[0], from, to);
      ReplaceCharConcat(ps[0] + [from], Join(ps[1..], from), from, to);
      ReplaceCharConcat(ps[0], [from], from, to);
    }
  }

  // ---------------------------------------------------------------------
  // ASCII case mapping (PHP 8 `strtolower` is locale-independent)
  // ---------------------------------------------------------------------

  function LowerChar(c: char): (r: char)
    ensures !('A' <= r <= 'Z')
    ensures !('A' <= c <= 'Z') ==> r == c
  {
    if 'A' <= c <= 'Z' then (c as int + 32) as char else c
  }

  /** `strtolower`: only the letters A to Z change. */
  function Lower(s: string): (r: string)
    ensures |r| == |s|
    ensures forall i :: 0 <= i < |s| ==> r[i] == LowerChar(s[i])
  {
    seq(|s|, i requires 0 <= i < |s| => LowerChar(s[i]))
  }

  // ---------------------------------------------------------------------
  // Code-point order (PHP strcmp on UTF-8, JavaScript default sort on BMP text)
  // ---------------------------------------------------------------------

  /** Lexicographic comparison by code point, giving -1, 0 or 1. */
  function LexCmp(a: string, b: string): (r: int)
    ensures -1 <= r <= 1
    decreases |a|
  {
    if |a| == 0 && |b| == 0 then 0
    else if |a| == 0 then -1
    else if |b| == 0 then 1
    else if a[0] < b[0] then -1
    else if a[0] > b[0] then 1
    else LexCmp(a[1..], b[1..])
  }

  lemma {:induction false} LexCmpAntisymmetric(a: string, b: string)
    ensures LexCmp(a, b) == -LexCmp(b, a)
    decreases |a|
  {
    if |a| > 0 && |b| > 0 && a[0] == b[0] {
      LexCmpAntisymmetric(a[1..], b[1..]);
    }
  }

  lemma {:induction false} LexCmpZero(a: string, b: string)
    ensures LexCmp(a, b) == 0 <==> a == b
    decreases |a|
  {
    if |a| > 0 && |b| > 0 && a[0] == b[0] {
      LexCmpZero(a[1..], b[1..]);
      assert a == [a[0]] + a[1..] && b == [b[0]] + b[1..];
    }
  }

  lemma {:induction false} LexCmpTransitive(a: string, b: string, c: string)
    requires LexCmp(a, b) <= 0 && LexCmp(b, c) <= 0
    ensures LexCmp(a, c) <= 0
    decreases |a|
  {
    if |a| > 0 && |b| > 0 && |c| > 0 && a[0] == b[0] && b[0] == c[0] {
      LexCmpTransitive(a[1..], b[1..], c[1..]);
    }
  }

  // ---------------------------------------------------------------------
  // Decimal integers
  // ---------------------------------------------------------------------

  predicate IsDigit(c: char) {
    '0' <= c <= '9'
  }

  function DigitChar(d: nat): (c: char)
    requires d < 10
    ensures IsDigit(c) && (c as int) - ('0' as int) == d
  {
    (('0' as int) + d) as char
  }

  /** The decimal digits of `n`, without leading zeros. */
  function Digits(n: nat): (r: string)
    ensures |r| >= 1
    ensures forall i :: 0 <= i < |r| ==> IsDigit(r[i])
    decreases n
  {
    if n < 10 then [DigitChar(n)] else Digits(n / 10) + [DigitChar(n % 10)]
  }

  /** PHP `(string)$i` and JavaScript `String(i)` for an integer. */
  function IntToString(i: int): (r: string)
    ensures |r| >= 1
  {
    if i < 0 then "-" + Digits(-i) else Digits(i)
  }

  /** The value of a non-empty run of decimal digits. */
  function DigitsValue(s: string): nat
    requires forall i :: 0 <= i < |s| ==> IsDigit(s[i])
    decreases |s|
  {
    if |s| == 0 then 0
    else
      var d := (s[|s| - 1] as int) - ('0' as int);
      assert IsDigit(s[|s| - 1]);
      DigitsValue(s[..|s| - 1]) * 10 + d
  }

  predicate AllDigits(s: string) {
    |s| >= 1 && forall i :: 0 <= i < |s| ==> IsDigit(s[i])
  }

  /** The integer an optionally signed digit string denotes, if it is one. */
  function ParseInt(s: string): Option<int> {
    if |s| >= 1 && (s[0] == '-' || s[0] == '+') && AllDigits(s[1..]) then
      var v: int := DigitsValue(s[1..]);
      Some(if s[0] == '-' then -v else v)
    else if AllDigits(s) then Some(DigitsValue(s))
    else None
  }

  lemma {:induction false} DigitsRoundTrip(n: nat)
    ensures DigitsValue(Digits(n)) == n
    decreases n
  {
    if n >= 10 {
      DigitsRoundTrip(n / 10);
      var d := Digits(n / 10) + [DigitChar(n % 10)];
      assert d[..|d| - 1] == Digits(n / 10);
    }
  }

  /** Rendering an integer and parsing it back gives the integer. */
  lemma IntToStringRoundTrip(i: int)
    ensures ParseInt(IntToString(i)) == Some(i)
  {
    if i < 0 {
      NegativeRoundTrip(i);
    } else {
      var d := Digits(i);
      assert IntToString(i) == d;
      DigitsRoundTrip(i);
      ParseUnsigned(d);
    }
  }

  lemma NegativeRoundTrip(i: int)
    requires i < 0
    ensures ParseInt(IntToString(i)) == Some(i)
  {
    var d := Digits(-i);
    assert IntToString(i) == "-" + d;
    DigitsRoundTrip(-i);
    ParseNegative(d);
  }

  /** A minus sign before a run of digits negates its value. */
  lemma ParseNegative(d: string)
    requires AllDigits(d)
    ensures ParseInt("-" + d) == Some(-(DigitsValue(d) as int))
  {
    assert ("-" + d)[1..] == d;
  }

  /** A run of digits without a sign parses as its value. */
  lemma ParseUnsigned(d: string)
    requires AllDigits(d)
    ensures ParseInt(d) == Some(DigitsValue(d))
  {
    assert IsDigit(d[0]);
  }
}

=== FILE: values.dfy ===
/**
 * Dynamic values as they appear in frontmatter, in the manifest JSON and in
 * query clauses, with the PHP 8 comparison operators and the JavaScript
 * conversions the compiler relies on.
 *
 * Objects nested inside values are represented by their values in key order
 * (a heading becomes `List([depth, text, id, children])`); floats are not
 * modelled.
 */
module Values {
  import opened Wrappers
  import opened Strings

  datatype Value =
    | Null
    | Bool(b: bool)
    | Int(i: int)
    | Str(s: string)
    | List(items: seq<Value>)

  // ---------------------------------------------------------------------
  // Truthiness
  // ---------------------------------------------------------------------

  /** PHP `(bool)`: `null`, `false`, `0`, `""`, `"0"` and `[]` are false. */
  predicate Truthy(v: Value) {
    match v
    case Null => false
    case Bool(b) => b
    case Int(i) => i != 0
    case Str(s) => s != "" && s != "0"
    case List(xs) => |xs| > 0
  }

  /** JavaScript truthiness: `"0"` and `[]` are true. */
  predicate JsTruthy(v: Value) {
    match v
    case Null => false
    case Bool(b) => b
    case Int(i) => i != 0
    case Str(s) => s != ""
    case List(_) => true
  }

  // ---------------------------------------------------------------------
  // PHP 8 comparison
  // ---------------------------------------------------------------------

  /** A PHP numeric string, restricted to optionally signed decimal integers. */
  predicate IsNumeric(s: string) {
    ParseInt(s).Some?
  }

  function IntCmp(x: int, y: int): (r: int)
    ensures r == 0 <==> x == y
    ensures r < 0 <==> x < y
    ensures -1 <= r <= 1
  {
    if x < y then -1 else if x > y then 1 else 0
  }

  function BoolCmp(x: bool, y: bool): (r: int)
    ensures r == 0 <==> x == y
    ensures -1 <= r <= 1
  {
    if x == y then 0 else if y then -1 else 1
  }

  /** Two strings: numerically when both are numeric, otherwise as `strcmp`. */
  function StrCmp(s: string, t: string): (r: int)
    ensures -1 <= r <= 1
  {
    match (ParseInt(s), ParseInt(t))
    case (Some(x), Some(y)) => IntCmp(x, y)
    case _ => LexCmp(s, t)
  }

  /** An integer and a string: numerically when the string is numeric, otherwise as strings. */
  function IntStrCmp(x: int, t: string): (r: int)
    ensures -1 <= r <= 1
  {
    match ParseInt(t)
    case Some(y) => IntCmp(x, y)
    case None => LexCmp(IntToString(x), t)
  }

  /** PHP's spaceship operator `$a <=> $b`. */
  function Compare(a: Value, b: Value): (r: int)
    ensures -1 <= r <= 1
    decreases a, 1, 0
  {
    match (a, b)
    case (Null, Str(t)) => LexCmp("", t)
    case (Str(s), Null) => LexCmp(s, "")
    case (Null, _) => BoolCmp(false, Truthy(b))
    case (_, Null) => BoolCmp(Truthy(a), false)
    case (Bool(x), _) => BoolCmp(x, Truthy(b))
    case (_, Bool(y)) => BoolCmp(Truthy(a), y)
    case (Int(x), Int(y)) => IntCmp(x, y)
    case (Int(x), Str(t)) => IntStrCmp(x, t)
    case (Str(s), Int(y)) => -IntStrCmp(y, s)
    case (Str(s), Str(t)) => StrCmp(s, t)
    case (List(xs), List(ys)) =>
      if |xs| != |ys| then IntCmp(|xs|, |ys|) else CompareFrom(xs, ys, 0)
    case (List(_), _) => 1
    case (_, List(_)) => -1
  }

  /** Equal-length arrays: the first element comparison that is not a tie. */
  function CompareFrom(xs: seq<Value>, ys: seq<Value>, i: nat): (r: int)
    requires |xs| == |ys| && i <= |xs|
    ensures -1 <= r <= 1
    decreases List(xs), 0, |xs| - i
  {
    if i == |xs| then 0
    else
      var c := Compare(xs[i], ys[i]);
      if c != 0 then c else CompareFrom(xs, ys, i + 1)
  }

  /** Loose equality `==`. */
  predicate LooseEq(a: Value, b: Value) {
    Compare(a, b) == 0
  }

  /** `in_array($needle, $haystack)`: loose membership. */
  predicate InArray(needle: Value, haystack: seq<Value>) {
    exists i | 0 <= i < |haystack| :: LooseEq(needle, haystack[i])
  }

  lemma StrCmpAntisymmetric(s: string, t: string)
    ensures StrCmp(s, t) == -StrCmp(t, s)
  {
    LexCmpAntisymmetric(s, t);
  }

  /** `$a <=> $b == -($b <=> $a)` for every pair of values. */
  lemma {:induction false} CompareAntisymmetric(a: Value, b: Value)
    ensures Compare(a, b) == -Compare(b, a)
    decreases a, 1, 0
  {
    match (a, b)
    case (List(xs), List(ys)) =>
      if |xs| == |ys| {
        CompareFromAntisymmetric(xs, ys, 0);
      }
    case (Str(s), Str(t)) => StrCmpAntisymmetric(s, t);
    case (Int(x), Str(t)) => LexCmpAntisymmetric(IntToString(x), t);
    case (Str(s), Int(y)) => LexCmpAntisymmetric(IntToString(y), s);
    case (Null, Str(t)) => LexCmpAntisymmetric("", t);
    case (Str(s), Null) => LexCmpAntisymmetric(s, "");
    case _ =>
  }

  lemma {:induction false} CompareFromAntisymmetric(xs: seq<Value>, ys: seq<Value>, i: nat)
    requires |xs| == |ys| && i <= |xs|
    ensures CompareFrom(xs, ys, i) == -CompareFrom(ys, xs, i)
    decreases List(xs), 0, |xs| - i
  {
    if i < |xs| {
      CompareAntisymmetric(xs[i], ys[i]);
      CompareFromAntisymmetric(xs, ys, i + 1);
    }
  }

  /** Loose equality is symmetric. */
  lemma LooseEqSymmetric(a: Value, b: Value)
    ensures LooseEq(a, b) <==> LooseEq(b, a)
  {
    CompareAntisymmetric(a, b);
  }

  /**
   * Loose comparison is not transitive: `"10" < "9a"` as strings while
   * `"9a" < "9"` is false and `"9" < "10"` numerically, so sorting by
   * `<=>` only guarantees order between neighbours.
   */
  lemma CompareNotTransitive()
    ensures Compare(Str("9"), Str("10")) < 0
    ensures Compare(Str("10"), Str("9a")) < 0
    ensures Compare(Str("9a"), Str("9")) > 0
    ensures Compare(Null, Int(-1)) < 0 && Compare(Int(-1), Int(0)) < 0 && Compare(Int(0), Null) == 0
  {
    assert ParseInt("9") == Some(9) by {
      assert AllDigits("9");
      assert DigitsValue("9") == DigitsValue("") * 10 + 9;
    }
    assert ParseInt("10") == Some(10) by {
      assert AllDigits("10");
      assert "10"[..1] == "1";
      assert DigitsValue("1") == 1;
    }
    assert ParseInt("9a") == None by {
      assert !IsDigit("9a"[1]);
    }
  }

  // ---------------------------------------------------------------------
  // PHP string coercion and JavaScript string conversion
  // ---------------------------------------------------------------------

  /** Why a PHP operation raised an error. */
  datatype PhpError = TypeError

  /**
   * A scalar passed to a `string` parameter of a built-in function
   * (`str_contains` and friends, without strict types): `null` and `false`
   * become `""`, `true` becomes `"1"`; an array raises `TypeError`.
   */
  function ToPhpString(v: Value): (r: Option<string>)
    ensures r.None? <==> v.List?
    ensures v.Str? ==> r == Some(v.s)
    ensures v.Int? ==> r.Some? && ParseInt(r.value) == Some(v.i)
  {
    match v
    case Null => Some("")
    case Bool(b) => Some(if b then "1" else "")
    case Int(i) => IntToStringRoundTrip(i); Some(IntToString(i))
    case Str(s) => Some(s)
    case List(_) => None
  }

  /** JavaScript `String(v)` and template-literal interpolation `${v}`. */
  function JsString(v: Value): (r: string)
    decreases v, 1, 0
  {
    match v
    case Null => "null"
    case Bool(b) => if b then "true" else "false"
    case Int(i) => IntToString(i)
    case Str(s) => s
    case List(xs) => JsJoin(xs, 0)
  }

  /** `xs.join(",")` from index `i`: `null` elements become empty strings. */
  function JsJoin(xs: seq<Value>, i: nat): string
    requires i <= |xs|
    decreases List(xs), 0, |xs| - i
  {
    if i == |xs| then ""
    else
      var piece := if xs[i].Null? then "" else JsString(xs[i]);
      if i == |xs| - 1 then piece else piece + "," + JsJoin(xs, i + 1)
  }

  /** A string converts to itself, an integer to its decimal digits. */
  lemma JsStringScalars(v: Value)
    ensures v.Str? ==> JsString(v) == v.s
    ensures v.Int? ==> ParseInt(JsString(v)) == Some(v.i)
  {
    if v.Int? {
      IntToStringRoundTrip(v.i);
    }
  }

  // ---------------------------------------------------------------------
  // JavaScript whitespace
  // ---------------------------------------------------------------------

  /** JavaScript line terminators, which `.` in a regular expression does not match. */
  predicate IsLineTerminator(c: char) {
    c == '\n' || c == '\r' || c == '\U{2028}' || c == '\U{2029}'
  }

  /** JavaScript `\s` and the characters `String.prototype.trim` removes. */
  predicate IsJsSpace(c: char) {
    || IsLineTerminator(c)
    || c == ' ' || c == '\t' || c == '\U{000B}' || c == '\U{000C}'
    || c == '\U{00A0}' || c == '\U{1680}' || ('\U{2000}' <= c <= '\U{200A}')
    || c == '\U{202F}' || c == '\U{205F}' || c == '\U{3000}' || c == '\U{FEFF}'
  }

  /** PHP `trim` without a character list: space, tab, newline, return, NUL, vertical tab. */
  predicate IsPhpSpace(c: char) {
    c == ' ' || c == '\t' || c == '\n' || c == '\r' || c == '\0' || c == '\U{000B}'
  }

  function JsTrim(s: string): (r: string)
    ensures |r| <= |s|
    ensures |r| > 0 ==> !IsJsSpace(r[0]) && !IsJsSpace(r[|r| - 1])
    ensures forall i :: 0 <= i < |r| ==> r[i] in s
  {
    Trim(s, IsJsSpace)
  }

  /** Every character of the trimmed text comes from the text, so a property all of them have survives. */
  lemma JsTrimKeeps(s: string, p: char -> bool)
    requires forall i :: 0 <= i < |s| ==> p(s[i])
    ensures forall i :: 0 <= i < |JsTrim(s)| ==> p(JsTrim(s)[i])
  {
    var r := JsTrim(s);
    forall i | 0 <= i < |r|
      ensures p(r[i])
    {
      var j :| 0 <= j < |s| && s[j] == r[i];
    }
  }

  function PhpTrim(s: string): (r: string)
    ensures |r| <= |s|
    ensures |r| > 0 ==> !IsPhpSpace(r[0]) && !IsPhpSpace(r[|r| - 1])
  {
    Trim(s, IsPhpSpace)
  }
}

=== FILE: wrappers.dfy ===
/** Failure-compatible wrappers shared by every module of the model. */
module Wrappers {

  /** A value that may be missing: PHP `null`, JavaScript `undefined`. */
  datatype Option<+T> = None | Some(value: T) {

    /** The wrapped value, or `default` when there is none (PHP `??`). */
    function GetOr(default: T): T {
      match this
      case Some(v) => v
      case None => default
    }
  }

  /** The outcome of an operation that can raise an exception. */
  datatype Result<+T, +E> = Success(value: T) | Failure(error: E) {

    predicate IsFailure() {
      Failure?
    }

    function PropagateFailure<U>(): Result<U, E>
      requires Failure?
    {
      Failure(error)
    }

    function Extract(): T
      requires Success?
    {
      value
    }
  }
}
